=== FILE: README.md ===
# Police Plaza POS — a Dafny model of its decision logic

A model of the decision logic at the core of a small point-of-sale web application for shops: a
sales screen with a cart, settings tables (taxes, loyalty programmes, due-balance rules) of which
one row per organisation may be the default, customers, employees and a product catalogue with
categories, a request middleware that decides between letting a request through and redirecting
it, the role-dependent sidebar, and the client-side dialogs that validate a form before calling a
server action.

Server actions that change the database are methods of classes whose `seq` fields stand for the
tables; the ORM's `updateMany`, `create`, `update`, `delete` and `findFirst` are functions over
those sequences. The organisation-scoping guards, the "not found" and "unauthorised" early
returns, and the generic messages of the `catch` blocks are modelled branch for branch. Stateful
React components are classes whose fields are the component state and whose methods are the
handlers, each followed by the effects its state change triggers. Pure helpers (filters, the
totals, the middleware decision, the active-item rule, validators, `parseInt`, `path.join`)
are functions.

Modules, one per file: `Common` (strings, filters, subsequences, dates), `Session` (the caller
and the two authorisation guards), `CartSection`, `SalesClient`, `DefaultTable` (rows with a
default flag), `Settings`, `Customers`, `Employees`, `Products`, `Middleware`, `Navigation`,
`CustomerTables`, `FeedbackTable`, `Inventory`, `Dialogs`, `FeedbackDialog`, `DiscountDialog`,
`PasswordDialog`, `ImageUpload`, `ProfileDialog`, `BusinessDialog` and `TemporaryImage`.

## Model

| member | source | states |
|---|---|---|
| Session.OrgIdGate | src/actions/create-customer.ts:25-27 | an empty organisation id is denied, a missing organisation throws (the `.id` read), and only a non-empty id proceeds, with that id |
| Session.OrgGate | src/actions/create-employee.ts:26-28 | only a missing user or organisation is denied; this guard never throws |
| Session.GatesDiffer | src/actions/create-employee.ts:26-28 | the two guards agree wherever the id guard proceeds; the organisation guard also lets an empty id through, and denies where the id guard throws |
| CartSection.Subtotal | src/components/sales/cart-section.tsx:47-50 | the subtotal of lines with non-negative price and quantity is non-negative |
| CartSection.SubtotalAppend | src/components/sales/cart-section.tsx:47-50 | the subtotal of a concatenation is the sum of the subtotals |
| CartSection.SubtotalReplaceLine | src/components/sales/cart-section.tsx:47-50 | replacing a line changes the subtotal by exactly the difference of the two line amounts |
| CartSection.LineAmountBump | src/components/sales/cart-section.tsx:48-49 | one more unit adds exactly the unit price to the line |
| CartSection.SubtotalMonotone | src/components/sales/cart-section.tsx:47-50 | raising a line's quantity never lowers the subtotal when its price is non-negative |
| CartSection.Summary | src/components/sales/cart-section.tsx:47-56 | the subtotal is the cart's `Subtotal` (Σ price·quantity) and the loyalty deduction the fixed 1; tax is 5% and discount 10% of the subtotal, and total = 0.95·subtotal − 1; the empty cart totals −1, and the total is negative below a subtotal of 20/19 (it is not clamped) |
| CartSection.HandleConfirmOrder | src/components/sales/cart-section.tsx:58-59 | the handler calls `onClearCart` exactly for a non-empty cart |
| CartSection.ConfirmDisabled | src/components/sales/cart-section.tsx:226 | the button is disabled exactly for the empty cart |
| CartSection.ConfirmEnabledIffClears | src/components/sales/cart-section.tsx:58-76 | the confirm button is enabled exactly when pressing it clears the cart, that is, exactly for a non-empty cart |
| SalesClient.MatchesQuery | src/components/sales/sales-client.tsx:43-48 | the empty query matches every product; a product without brand and category matches exactly when its lowercased name contains the lowercased query |
| SalesClient.SearchFilter | src/components/sales/sales-client.tsx:38-56 | the result is a subsequence of the products |
| SalesClient.SearchFilterSpec | src/components/sales/sales-client.tsx:42-52 | a blank query keeps every product; otherwise a product is kept iff its lowercased name, brand or category name contains the lowercased, untrimmed query, as many times as it occurs in the list |
| SalesClient.Page | src/components/sales/sales-client.tsx:58-72 | the displayed list is the prefix of the filtered list of length min(9·page, its length) |
| SalesClient.PageSplits | src/components/sales/sales-client.tsx:166 | the displayed page followed by the rest of the filtered list is the filtered list |
| SalesClient.PageCoversAll | src/components/sales/sales-client.tsx:58-72 | enough loads display the whole filtered list |
| SalesClient.WithQuantity | src/components/sales/sales-client.tsx:101-108 | only the lines with that id get the new quantity; length and every other line are kept |
| SalesClient.Incremented | src/components/sales/sales-client.tsx:77-86 | only the lines with that id gain one unit; length and every other line are kept |
| SalesClient.AddLine | src/components/sales/sales-client.tsx:76-99 | adding a product in the cart raises its line's quantity by one and changes nothing else in the cart, that line's name, price and image included; a new product is appended as a line of quantity 1 at the selling price |
| SalesClient.AddLineKeepsCartValid | src/components/sales/sales-client.tsx:76-99 | adding keeps one line per product and every quantity at least 1 |
| SalesClient.AddLineIgnoresStock | src/components/sales/sales-client.tsx:76-99 | the product's stock level does not influence adding it |
| SalesClient.LineIndex | src/components/sales/sales-client.tsx:77-86 | in a cart with distinct ids the line holding an id is unique |
| SalesClient.IncrementedIsPointUpdate | src/components/sales/sales-client.tsx:77-86 | in a cart with distinct ids the bump is an update of that single line |
| SalesClient.SubtotalIncremented | src/components/sales/sales-client.tsx:77-86 | bumping a line raises the subtotal by that line's price |
| SalesClient.SubtotalAfterAddExisting | src/components/sales/sales-client.tsx:77-86 | adding a product already in the cart raises the subtotal by the price stored in its line |
| SalesClient.SubtotalAfterAddNew | src/components/sales/sales-client.tsx:87-97 | adding a new product raises the subtotal by its selling price |
| SalesClient.FilterKeepsDistinct | src/components/sales/sales-client.tsx:111-113 | dropping lines keeps the remaining ids distinct |
| SalesClient.RemoveLine | src/components/sales/sales-client.tsx:111-113 | no line with that id remains, every other line is kept in order, and the cart invariant is preserved |
| SalesClient.SetQuantity | src/components/sales/sales-client.tsx:101-108 | a quantity of 0 or less removes the line; otherwise that line gets the new quantity with its other fields kept, and every other line is kept; the cart invariant is preserved |
| SalesClient.SalesClientPage.constructor | src/components/sales/sales-client.tsx:26-56 | after mounting, all products are filtered in, the first 9 are displayed, page 1, empty cart and customer info |
| SalesClient.SalesClientPage.SetSearchQuery | src/components/sales/sales-client.tsx:38-56 | the filtered list follows the new query, the first 9 are displayed and the page is reset to 1 |
| SalesClient.SalesClientPage.LoadMoreProducts | src/components/sales/sales-client.tsx:58-72 | the page advances by one, the displayed list is the longer prefix and extends the previous one |
| SalesClient.SalesClientPage.HasMoreProducts | src/components/sales/sales-client.tsx:74 | more products exist exactly when 9·page is below the number of filtered products |
| SalesClient.SalesClientPage.RemainingCount | src/components/sales/sales-client.tsx:166 | the count is non-negative, positive exactly when there is more to load, and the rest of the filtered list completes the displayed one |
| SalesClient.SalesClientPage.AddToCart | src/components/sales/sales-client.tsx:76-99 | the cart becomes `AddLine` of the old cart, keeping the cart invariant |
| SalesClient.SalesClientPage.UpdateCartItemQuantity | src/components/sales/sales-client.tsx:101-109 | the cart becomes `SetQuantity` of the old cart, keeping the cart invariant |
| SalesClient.SalesClientPage.RemoveFromCart | src/components/sales/sales-client.tsx:111-113 | the cart becomes `RemoveLine` of the old cart |
| SalesClient.SalesClientPage.ClearCart | src/components/sales/sales-client.tsx:115-118 | the cart is empty and the customer name and phone are empty |
| SalesClient.SalesClientPage.ConfirmOrder | src/components/sales/cart-section.tsx:58-76 | confirming an empty cart changes nothing; otherwise the cart and the customer info are cleared |
| DefaultTable.ClearDefaults | src/actions/create-tax.ts:20-31 | only default rows of the organisation (except the spared id) lose their flag; everything else is kept |
| DefaultTable.ClearDefaultsFrame | src/actions/create-tax.ts:22-30 | clearing touches no row of another organisation and no non-default row, and keeps ids unique and bounded |
| DefaultTable.ClearDefaultsKeepsSingle | src/actions/create-tax.ts:20-31 | clearing keeps at most one default per organisation |
| DefaultTable.Insert | src/actions/create-tax.ts:33-40 | the new row, with the next id, is appended after the unchanged table |
| DefaultTable.InsertKeepsIds | src/actions/create-tax.ts:33-40 | a fresh id keeps ids unique and below the advanced counter |
| DefaultTable.InsertNonDefaultKeepsSingle | src/actions/create-tax.ts:33-40 | appending a non-default row keeps at most one default per organisation |
| DefaultTable.ClearThenInsertDefault | src/actions/create-tax.ts:20-40 | clearing then inserting a default row makes the new row its organisation's only default |
| DefaultTable.IndexOfId | src/actions/update-due.ts:22-28 | `None` exactly when no row has the id; otherwise the position of a row with it |
| DefaultTable.IndexOfIdUnique | src/actions/update-due.ts:22-28 | with unique ids the row found is the only one with that id |
| DefaultTable.Overwrite | src/actions/update-tax.ts:34-41 | only the target row's flag and fields change; id and organisation are kept |
| DefaultTable.OverwriteKeepsIds | src/actions/update-tax.ts:34-41 | an overwrite keeps ids unique and bounded |
| DefaultTable.ClearThenSetDefault | src/actions/update-loyalty.ts:25-48 | clearing the organisation's defaults (optionally sparing the target) and then making its own row default leaves that row the sole default |
| DefaultTable.WriteRow | src/actions/update-due.ts:34-55 | both branches of an in-organisation update keep the invariants, and only the target and the organisation's rows can change |
| DefaultTable.SetNonDefaultKeepsSingle | src/actions/update-tax.ts:34-41 | writing a non-default value into any row cannot create a second default |
| DefaultTable.RemoveAtKeeps | src/actions/delete-due.ts:26-28 | deleting a row keeps ids unique and bounded and one default per organisation, and its id is gone |
| DefaultTable.UnscopedSetDefaultBreaksSingle | src/actions/update-tax.ts:21-41 | an id-only update after clearing the caller's organisation leaves another organisation with two defaults |
| DefaultTable.ScopedUpdate | src/actions/update-due.ts:22-55 | refuses a missing row or a row of another organisation; otherwise keeps the invariants, makes a default target the sole default and leaves other organisations untouched |
| Settings.TaxTable.constructor | src/actions/create-tax.ts:13-48 | the table starts empty and valid |
| Settings.TaxTable.CreateTax | src/actions/create-tax.ts:13-48 | no user: "User not found" and no change; no organisation: the generic failure and no change; otherwise the clearing and the insert, the new row being the organisation's sole default when requested, other organisations untouched |
| Settings.TaxTable.UpdateTax | src/actions/update-tax.ts:14-49 | no user: "User not found"; a missing id: the generic failure after the clearing; otherwise the id-keyed overwrite; the single-default invariant is promised only for a non-default write or a target of the caller's organisation |
| Settings.LoyaltyTable.constructor | src/actions/create-loyalty.ts:16-58 | the table starts empty and valid |
| Settings.LoyaltyTable.CreateLoyalty | src/actions/create-loyalty.ts:16-58 | as `CreateTax`, storing the six programme fields |
| Settings.LoyaltyTable.UpdateLoyalty | src/actions/update-loyalty.ts:17-56 | as `UpdateTax`, the clearing sparing the target's own id |
| Settings.DueTable.constructor | src/actions/create-due.ts:14-52 | the table starts empty and valid |
| Settings.DueTable.CreateDue | src/actions/create-due.ts:14-52 | denied callers get "Unauthorized" and no change; otherwise the clearing and the insert, the new row being the organisation's sole default when requested |
| Settings.DueTable.UpdateDue | src/actions/update-due.ts:14-62 | unauthorised, unknown and foreign rows are refused with nothing written; otherwise only the target and the organisation's defaults change and a default target is the sole default |
| Settings.DueTable.DeleteDue | src/actions/delete-due.ts:6-35 | the same refusals with nothing deleted; otherwise exactly that row is removed, the others are kept in order, and the multiset of rows loses exactly that row |
| Customers.AppendKeepsPhonesUnique | src/actions/create-customer.ts:30-50 | appending a customer whose phone is new to its organisation keeps phones unique per organisation |
| Customers.CustomerTable.constructor | src/actions/create-customer.ts:19-62 | the table starts empty and valid |
| Customers.CustomerTable.CreateCustomer | src/actions/create-customer.ts:19-62 | denied callers and a phone already used in the organisation change nothing; otherwise one customer with zero totals is appended and phones stay unique per organisation |
| Employees.PickEmployeeId | src/actions/create-employee.ts:35-48 | the loop returns the first candidate no employee of the organisation holds, every earlier candidate being taken |
| Employees.AppendKeepsEmployeeIdsUnique | src/actions/create-employee.ts:35-60 | appending an employee with an unused number keeps numbers unique per organisation |
| Employees.EmployeeTable.constructor | src/actions/create-employee.ts:23-69 | the table starts empty and valid |
| Employees.EmployeeTable.CreateEmployee | src/actions/create-employee.ts:23-69 | denied callers change nothing; otherwise the input data plus the picked number is appended to the caller's organisation |
| Employees.MergeEmployeeData | src/actions/update-employee.ts:7-20 | the required fields take the given values; each optional field takes the given value when present and keeps the stored one when the call leaves it out |
| Employees.MergeComplete | src/actions/update-employee.ts:40-50 | an update giving every field replaces the stored data outright |
| Employees.MergeIdempotent | src/actions/update-employee.ts:40-50 | sending the same update twice leaves the same data as sending it once |
| Employees.MergeKeepsComplete | src/actions/update-employee.ts:40-50 | stored data with every optional field set keeps them all under any update |
| Employees.EmployeeTable.UpdateEmployee | src/actions/update-employee.ts:22-59 | a caller's employee with that id gets the given data merged into its stored data (an omitted optional field keeps its value) and keeps its organisation and number; otherwise "Employee not found" and no change |
| Employees.EmployeeTable.DeleteEmployee | src/actions/delete-employee.ts:7-36 | exactly the caller's employee with that id is removed, others kept in order; otherwise nothing is deleted |
| Products.CaseDuplicatesIncludeExact | src/actions/product.ts:27-44 | names unique up to case are unique |
| Products.FindOrCreateCategory | src/actions/product.ts:27-44 | the table only grows by at most one row, the id returned names a matching category of the organisation, and a row is created exactly when none matches |
| Products.FindOrCreateKeepsExactUnique | src/actions/create-product.ts:27-41 | both lookups keep category names unique per organisation |
| Products.InsensitiveFindOrCreateKeepsCaseUnique | src/actions/product.ts:27-44 | the case-insensitive lookup keeps names unique up to case per organisation |
| Products.ExactFindOrCreateMakesCaseVariants | src/actions/create-product.ts:27-41 | the exact lookup creates "shoes" beside "Shoes", two names equal up to case |
| Products.Catalog.constructor | src/actions/product.ts:19-67 | the catalogue starts empty and valid |
| Products.Catalog.ResolveCategory | src/actions/product.ts:27-44 | the category table becomes the find-or-create result, the id names a category of the organisation, and the category counter advances exactly when a category was created |
| Products.Catalog.InsertProduct | src/actions/product.ts:46-59 | one product with the next id, the given data, the resolved category and the organisation is appended; the product counter advances by one and the category counter exactly when a category was created |
| Products.Catalog.UpdateOwnProduct | src/actions/update-product.ts:46-65 | the organisation's product with that id gets the new data and category; otherwise the products are unchanged; either way the category counter advances exactly when a category was created |
| Products.Catalog.ReplaceProduct | src/actions/update-product.ts:46-58 | exactly the row with the product's id is overwritten and the catalogue stays valid |
| Products.Catalog.RemoveProduct | src/actions/delete-product.ts:29-34 | exactly the product at that position is removed and its id is gone |
| Products.Catalog.CreateProductInsensitive | src/actions/product.ts:19-67 | every refusal, a missing user included, is the generic failure with no change; otherwise the product is inserted with a case-insensitively resolved category, the product counter advances by one and the category counter exactly when a category was created |
| Products.Catalog.UpdateProductInsensitive | src/actions/product.ts:69-120 | the same refusals; otherwise the update applies only to a product of the caller's organisation |
| Products.Catalog.DeleteProductUnscoped | src/actions/product.ts:122-133 | deletes the product with that id whoever asks; an unknown id is the generic failure with no change |
| Products.Catalog.CreateProductExact | src/actions/create-product.ts:19-64 | a missing user is "Unauthorized", a missing organisation the generic failure, both unchanged; otherwise inserted with an exactly resolved category, the product counter advancing by one and the category counter exactly when a category was created |
| Products.Catalog.UpdateProductExact | src/actions/update-product.ts:19-70 | the same refusals; otherwise the update applies only to the caller's product with that id |
| Products.Catalog.DeleteProductScoped | src/actions/delete-product.ts:9-56 | refusals delete nothing; a product outside the organisation is "Product not found"; otherwise exactly it is removed and the success does not depend on removing its image |
| Middleware.Decide | src/middleware.ts:5-67 | the request passes exactly for an API path, or when being on a public path and being authenticated differ; a redirect goes to "/" exactly from a public path, and only that redirect sets the cookie, to the visitor's own token |
| Middleware.DecisionTable | src/middleware.ts:5-67 | API paths pass; a public path redirects an authenticated visitor to "/" keeping the cookie and lets everyone else through; a protected path lets an authenticated visitor through and redirects everyone else to "/auth/login" |
| Middleware.RedirectTargets | src/middleware.ts:23-66 | only the two redirect targets occur, and only the dashboard redirect sets the cookie |
| Middleware.NoRedirectLoop | src/middleware.ts:5-67 | following a redirect with the same cookie and verification outcome is let through |
| Middleware.AuthWithoutSlashIsProtected | src/middleware.ts:9-10 | "/auth" without the slash is protected, "/auth/login" is public |
| Navigation.NavItemsFor | src/components/Sidebar.tsx:76 | the cashier list exactly for the role "CASHIER", the admin list otherwise |
| Navigation.MenusByRole | src/components/Sidebar.tsx:14-76 | "/due" is offered exactly to cashiers, "/inventory" and "/employee" exactly to everyone else |
| Navigation.IsActive | src/components/SidebarContent.tsx:27-30 | an entry is active only when the pathname starts with its route, and an entry with a non-empty route is never active on the empty path |
| Navigation.ActiveFlags | src/components/SidebarContent.tsx:18-30 | one flag per item in order: "/" is active only on the root, every other item on a prefix match of the pathname, a missing one read as "" |
| Navigation.AtMostOneActive | src/components/SidebarContent.tsx:26-30 | for a list whose routes are not prefixes of one another, at most one item is active |
| Navigation.NothingActiveWithoutPath | src/components/SidebarContent.tsx:18 | without a pathname no item with a non-empty route is active |
| Navigation.PrefixHighlight | src/components/SidebarContent.tsx:30 | "/customers" highlights the "/customer" item |
| Navigation.PairwiseUnrelatedAt | src/components/Sidebar.tsx:14-73 | in a pairwise-unrelated list no route is a prefix of another one |
| Navigation.DistinctRoutesFromPairs | src/components/Sidebar.tsx:14-73 | a pairwise-unrelated list has distinct routes |
| Navigation.AdminRoutesDistinct | src/components/Sidebar.tsx:14-50 | the admin routes are distinct |
| Navigation.AdminRoutesUnrelated | src/components/Sidebar.tsx:14-50 | no admin route except "/" is a prefix of another |
| Navigation.CashierRoutesDistinct | src/components/Sidebar.tsx:52-73 | the cashier routes are distinct |
| Navigation.CashierRoutesUnrelated | src/components/Sidebar.tsx:52-73 | no cashier route except "/" is a prefix of another |
| Navigation.AppRoutesDistinct | src/app/components/Sidebar.tsx:14-45 | the six routes are distinct |
| Navigation.AppRoutesUnrelated | src/app/components/Sidebar.tsx:14-45 | none of the six routes except "/" is a prefix of another |
| Navigation.SidebarHighlightsAtMostOne | src/components/SidebarContent.tsx:26-30 | whatever the role and the pathname, the sidebar highlights at most one item |
| Navigation.AppSidebarHighlightsAtMostOne | src/app/components/Sidebar.tsx:48-60 | whatever the pathname, the six-item sidebar highlights at most one item |
| CustomerTables.CustomerMatches | src/app/cashier/customer/customer-table.tsx:24-28 | the empty query matches every customer, and a customer matches when the lowercased query occurs in its lowercased name or in its lowercased phone |
| CustomerTables.FilterCustomers | src/app/cashier/customer/customer-table.tsx:24-28 | a subsequence holding exactly the customers whose lowercased name or phone contains the lowercased query, each matching customer as many times as in the list |
| CustomerTables.QueryCaseIgnored | src/app/customer/customer-table.tsx:19-23 | lowercasing the query does not change which customers match |
| CustomerTables.EmptyQueryListsAll | src/app/customer/customer-table.tsx:19-23 | the empty query lists every customer in order |
| CustomerTables.PrependFilter | src/app/cashier/customer/customer-table.tsx:96-98 | a customer put in front is listed first when it matches, and the rest of the listing is unchanged |
| CustomerTables.Render | src/app/cashier/customer/customer-table.tsx:70-88 | "No customers found" shows exactly when no row does, and rows are numbered from 1 |
| CustomerTables.RenderShowsMatches | src/app/customer/customer-table.tsx:50-68 | the rows are exactly the matching customers, in order |
| CustomerTables.CashierCustomerTable.constructor | src/app/cashier/customer/customer-table.tsx:19-20 | the table starts with every initial customer shown |
| CustomerTables.CashierCustomerTable.SetSearchQuery | src/app/cashier/customer/customer-table.tsx:20 | only the query changes |
| CustomerTables.RenderPrepend | src/app/cashier/customer/customer-table.tsx:96-98 | after prepending a matching customer the table gains row 1 for it and every earlier row moves down one place with its number raised by one; a non-matching customer leaves the table as it was |
| CustomerTables.CashierCustomerTable.OnCustomerCreated | src/app/cashier/customer/customer-table.tsx:96-98 | the customer is prepended; if it matches it becomes row 1 and every other row moves down by one; otherwise the view is unchanged |
| CustomerTables.CustomerTable.constructor | src/app/customer/customer-table.tsx:16 | the fixed list starts fully shown |
| CustomerTables.CustomerTable.SetSearchQuery | src/app/customer/customer-table.tsx:16-23 | only the query changes; the list is a constant |
| FeedbackTable.Toggled | src/app/customer/feedback/feedback-table.tsx:23-31 | the clicked id is in the new set iff it was not, and every other id keeps its membership |
| FeedbackTable.ToggleTwice | src/app/customer/feedback/feedback-table.tsx:23-31 | two clicks on one row restore the set |
| FeedbackTable.TogglesCommute | src/app/customer/feedback/feedback-table.tsx:23-31 | clicks on two rows commute |
| FeedbackTable.Truncate | src/app/customer/feedback/feedback-table.tsx:33-35 | at most 100 characters are kept as they are; longer feedback becomes its first 100 characters and "...", 103 in all |
| FeedbackTable.TruncateBounds | src/app/customer/feedback/feedback-table.tsx:33-35 | the preview has at most 103 characters and starts with the feedback's first 100 |
| FeedbackTable.RowsOf | src/app/customer/feedback/feedback-table.tsx:50-85 | the detail row is hidden exactly when the row is collapsed, and the chevron follows |
| FeedbackTable.FeedbackTable.constructor | src/app/customer/feedback/feedback-table.tsx:21 | every row starts collapsed |
| FeedbackTable.FeedbackTable.Render | src/app/customer/feedback/feedback-table.tsx:50-85 | one pair of rows per feedback, in order |
| FeedbackTable.FeedbackTable.ToggleRow | src/app/customer/feedback/feedback-table.tsx:23-31 | the clicked row flips between expanded and collapsed and every other row renders as before |
| Inventory.InCategory | src/app/inventory/inventory-client.tsx:29 | a product without a category never belongs to a selected category |
| Inventory.FilterByCategory | src/app/inventory/inventory-client.tsx:23-33 | no selection keeps all products; a selection keeps exactly the products of that category, in order, and never one without a category |
| Inventory.Render | src/app/inventory/inventory-client.tsx:42-54 | the list shows when there are products; the empty-state title follows the truthiness of the selection |
| Inventory.EmptyInventoryMessage | src/app/inventory/inventory-client.tsx:42-54 | without a selection the empty state appears only for an empty inventory, with the "No Products in the Inventory" message |
| Inventory.EmptyCategoryMessage | src/app/inventory/inventory-client.tsx:42-54 | a selected category without products shows the category message |
| Inventory.InventoryClientPage.constructor | src/app/inventory/inventory-client.tsx:19-21 | all products are shown and nothing is selected |
| Inventory.InventoryClientPage.SelectCategory | src/app/inventory/inventory-client.tsx:23-33 | the shown products follow the new selection |
| Dialogs.ResultToast | src/app/settings/discount/add-edit-discount-dialog.tsx:85-94 | a success toast exactly when the call returns without an error; a thrown call shows the dialog's own message, an error reply its error |
| FeedbackDialog.DigitCount | src/app/cashier/customer/add-feedback-dialog.tsx:39 | the length of the leading run of decimal digits |
| FeedbackDialog.ParseInt | src/app/cashier/customer/add-feedback-dialog.tsx:39 | `NaN` exactly when no digit follows the whitespace and the sign |
| FeedbackDialog.Decimal | src/app/cashier/customer/add-feedback-dialog.tsx:39 | a numeral is a non-empty run of digits |
| FeedbackDialog.DecimalValue | src/app/cashier/customer/add-feedback-dialog.tsx:39 | a numeral's digits have the value it was written for |
| FeedbackDialog.DigitCountOfNumeral | src/app/cashier/customer/add-feedback-dialog.tsx:39 | the digit run of a numeral followed by a non-digit is the numeral |
| FeedbackDialog.ParseIntReadsNumeral | src/app/cashier/customer/add-feedback-dialog.tsx:39 | `parseInt` reads back a numeral, with or without a minus sign, ignoring what follows it ("7.9" reads 7) |
| FeedbackDialog.ParseIntNaN | src/app/cashier/customer/add-feedback-dialog.tsx:39 | "", "abc" and " -" read as `NaN` |
| FeedbackDialog.RatingCheck | src/app/cashier/customer/add-feedback-dialog.tsx:39-45 | a typed numeral passes exactly when it is between 1 and 10, a negative one never passes, and text without digits passes |
| FeedbackDialog.AddFeedbackDialog.constructor | src/app/cashier/customer/add-feedback-dialog.tsx:26-27 | the dialog starts idle with nothing sent |
| FeedbackDialog.AddFeedbackDialog.HandleSubmit | src/app/cashier/customer/add-feedback-dialog.tsx:30-68 | without the form nothing happens; an out-of-range rating shows its error and sends nothing; otherwise the request is sent, the answer's toast shown, and an accepted answer closes and resets the form |
| DiscountDialog.CheckDiscount | src/app/settings/discount/add-edit-discount-dialog.tsx:58-66 | the date error exactly when the end is before the start, the product error exactly when the dates are in order and no product is chosen, and no error otherwise |
| DiscountDialog.DateOrder | src/app/settings/discount/add-edit-discount-dialog.tsx:58-61 | the date order is strict and total, so equal dates are accepted |
| DiscountDialog.ChecksInOrder | src/app/settings/discount/add-edit-discount-dialog.tsx:58-66 | the date error wins over the product error, and an unreadable date never fails the date check |
| DiscountDialog.AddEditDiscountDialog.constructor | src/app/settings/discount/add-edit-discount-dialog.tsx:42-44 | the product choice starts from the edited discount, or empty |
| DiscountDialog.AddEditDiscountDialog.SelectProduct | src/app/settings/discount/add-edit-discount-dialog.tsx:43 | only the product choice changes |
| DiscountDialog.AddEditDiscountDialog.HandleSubmit | src/app/settings/discount/add-edit-discount-dialog.tsx:46-98 | a failed check shows its error and sends nothing; otherwise an update carrying the id for an edited discount, a create without one for a new one, then the answer's toast; only an accepted answer closes |
| DiscountDialog.AddEditDiscountDialog.HandleDelete | src/app/settings/discount/add-edit-discount-dialog.tsx:100-120 | nothing happens for a new discount; an edited one is deleted by id and the answer's toast shown |
| PasswordDialog.CheckNewPassword | src/app/settings/change-password/change-password-dialog.tsx:32-40 | accepted exactly when the two entries agree and have at least 8 characters; a mismatch is reported before the length |
| PasswordDialog.PasswordBoundary | src/app/settings/change-password/change-password-dialog.tsx:37-40 | 8 characters pass, 7 do not, and differing entries are a mismatch whatever their length |
| PasswordDialog.ChangePasswordDialog.constructor | src/app/settings/change-password/change-password-dialog.tsx:19-21 | the dialog starts closed and idle |
| PasswordDialog.ChangePasswordDialog.SetOpen | src/app/settings/change-password/change-password-dialog.tsx:19 | only the open flag changes |
| PasswordDialog.ChangePasswordDialog.HandleSubmit | src/app/settings/change-password/change-password-dialog.tsx:23-63 | a failed check shows its error without touching loading or calling the server; otherwise the call is made and an accepted answer closes and resets the form |
| ImageUpload.NewImageUrl | src/app/settings/profile/profile-dialog.tsx:100-113 | the uploaded path when a file was chosen, the stored URL otherwise |
| ImageUpload.FormImageUrl | src/app/settings/business/business-dialog.tsx:99-102 | the field is sent exactly for a non-empty URL, and then carries it |
| ImageUpload.ReplacementRules | src/app/settings/profile/profile-dialog.tsx:116-129 | the deleted image is never the one just uploaded, and without a new file the stored URL is sent again |
| ProfileDialog.IsAgeUnique | src/app/settings/profile/profile-dialog.tsx:46-60 | at most one number of completed years fits a day |
| ProfileDialog.CalculateAge | src/app/settings/profile/profile-dialog.tsx:46-60 | the result is the number of completed years, the year difference or one less, and the year difference on the birthday |
| ProfileDialog.ProfileDialog.constructor | src/app/settings/profile/profile-dialog.tsx:28-37 | the preview is the stored picture, no file, and an age of 0 shows as none |
| ProfileDialog.ProfileDialog.ResetImageState | src/app/settings/profile/profile-dialog.tsx:41-44 | the preview returns to the stored picture and the file is dropped |
| ProfileDialog.ProfileDialog.OnDateOfBirthChange | src/app/settings/profile/profile-dialog.tsx:62-70 | an empty field clears the age, a date sets the age on the given day |
| ProfileDialog.ProfileDialog.HandleImageChange | src/app/settings/profile/profile-dialog.tsx:76-89 | no file restores the stored picture; a file becomes the selection and its data URL the preview |
| ProfileDialog.ProfileDialog.HandleModalOpenChange | src/app/settings/profile/profile-dialog.tsx:146-152 | closing, or any change of the open flag, resets the image state; otherwise it is kept |
| ProfileDialog.ProfileDialog.HandleSubmit | src/app/settings/profile/profile-dialog.tsx:91-144 | a failed upload aborts with nothing sent; otherwise the old picture is deleted when replaced, the update carries the new URL when non-empty, and an accepted answer closes the dialog, drops the chosen file and, when the dialog was open, restores the preview to the stored picture |
| BusinessDialog.BusinessDialog.constructor | src/app/settings/business/business-dialog.tsx:26-32 | the preview is the stored logo and no file is chosen |
| BusinessDialog.BusinessDialog.ResetImageState | src/app/settings/business/business-dialog.tsx:36-39 | the preview returns to the stored logo and the file is dropped |
| BusinessDialog.BusinessDialog.HandleImageChange | src/app/settings/business/business-dialog.tsx:45-58 | no file restores the stored logo; a file becomes the selection and its data URL the preview |
| BusinessDialog.BusinessDialog.HandleModalOpenChange | src/app/settings/business/business-dialog.tsx:122-128 | closing, or any change of the open flag, resets the image state |
| BusinessDialog.BusinessDialog.HandleSubmit | src/app/settings/business/business-dialog.tsx:60-120 | a failed upload shows "Failed to upload image" and sends nothing; otherwise the old logo is deleted when replaced, the update carries the new URL when non-empty, and the answer's toast is shown; an accepted answer closes the dialog, drops the chosen file and, when the dialog was open, restores the preview to the stored logo |
| TemporaryImage.Split | src/actions/delete-temporary-image.ts:12 | splitting always gives at least one segment |
| TemporaryImage.SplitSegment | src/actions/delete-temporary-image.ts:12 | a slash-free segment followed by a slash splits off as one segment |
| TemporaryImage.SplitJoin | src/actions/delete-temporary-image.ts:12 | splitting undoes joining slash-free segments |
| TemporaryImage.Normalize | src/actions/delete-temporary-image.ts:12 | `path.join` adds at most one segment per input segment, and every resulting segment comes from the directory or is an input segment other than "", "." and ".." |
| TemporaryImage.Target | src/actions/delete-temporary-image.ts:12 | the unlinked path consists only of segments of the working directory, "public" and segments of the image path other than ".." |
| TemporaryImage.AcceptsPath | src/actions/delete-temporary-image.ts:7 | an accepted path splits into "", "uploads" and further segments the guard never inspects |
| TemporaryImage.DeleteTemporaryImage | src/actions/delete-temporary-image.ts:6-23 | a path failing the prefix guard is "Invalid image path" with nothing unlinked; otherwise the file `path.join` names is unlinked, and the answer is success exactly when that unlink succeeds |
| TemporaryImage.GuardAdmitsTraversal | src/actions/delete-temporary-image.ts:7-12 | "/uploads/../../.env" passes the guard and names a file outside `public/uploads` |
| TemporaryImage.NormalizeTraversal | src/actions/delete-temporary-image.ts:12 | the two ".." segments climb out of `uploads` and `public` |
| TemporaryImage.NormalizeWithout | src/actions/delete-temporary-image.ts:12 | without ".." segments `path.join` stays inside its directory |
| TemporaryImage.SplitUploads | src/actions/delete-temporary-image.ts:7 | a path under "/uploads/" splits into "", "uploads" and the rest's segments |
| TemporaryImage.UploadPathStaysInUploads | src/actions/delete-temporary-image.ts:7-12 | with the corrected guard every accepted path names a file inside `public/uploads` |
| TemporaryImage.DeleteUploadedImage | src/actions/delete-temporary-image.ts:6-23 | the corrected action only ever unlinks inside `public/uploads`, with the same answers |

## Left out

- The database, Prisma and `revalidatePath`: tables are sequences and generated ids are counters handed out in order; uniqueness constraints of the schema are not modelled.
- JWT verification in the middleware: its outcome (payload, `null`, exception) is an input.
- `getUser` (cookies and a database lookup): the caller is an input `Option<User>`.
- `fetch` to the upload route, `fs.unlink` and `FileReader`: their outcomes (uploaded path or failure, unlink success, data URL) are inputs; `FileReader` is treated as finishing before the next event.
- `generateEmployeeId` draws random numbers: the candidates it would produce are an input sequence.
- Employees.PickEmployeeId: requires that some candidate is free, because termination of the random retry loop cannot be proved.
- Floating point: money is `real`, so `0.05`, `0.1`, `toFixed` and `toLocaleString` rounding are not modelled.
- Trimming (`String.prototype.trim`) and `parseInt` skip the full ECMAScript whitespace and line-terminator set; `toLowerCase` is ASCII only; Unicode case mapping and UTF-16 lengths (the 100-character preview, the 8-character password) are not modelled.
- Dates are integer triples compared lexicographically; `new Date(string)`, time zones and local-time getters are not modelled, and "today" is a parameter. An unparseable date is `None`.
- FeedbackDialog.ParseInt: reads base ten only; the "0x" prefix, which `parseInt` reads as hexadecimal, is not modelled.
- Browser form constraints (`required`, `min`, `max` on inputs) that stop a submit before the handler runs are not modelled.
- Toast styling, `console` logging and JSX rendering beyond the rows and messages listed above.
- The `setTimeout` delay and the `loading` flag of "load more".
- `deleteTemporaryImage` throwing inside the dialogs' upload step is not modelled; its answer is ignored by both dialogs.
- The server actions the dialogs call (`createFeedback`, `createDiscount`, `updateDiscount`, `deleteDiscount`, `changePassword`, `updateProfile`, `updateBusiness`) are single ORM or bcrypt calls; only their answers, as inputs, are modelled.
- Settings.TaxTable.UpdateTax: the single-default invariant is promised only when the target belongs to the caller's organisation or is written as non-default, because the source's id-only update does not keep it otherwise (see Findings).
- Settings.LoyaltyTable.UpdateLoyalty: the same restriction as `UpdateTax`, for the same reason.
- Pages, layouts, list dialogs and form plumbing without decision logic, the API auth routes, e-mail and the upload route itself.

## Findings

| source | as written | input that shows it | evidently intended | confidence | as-written member | corrected member |
|---|---|---|---|---|---|---|
| src/actions/update-tax.ts:34-35 | the update is keyed by id alone after clearing only the caller's organisation's defaults (update-loyalty.ts:38-39 does the same) | organisation "A" has default row 0 and row 1; a caller of organisation "B" sets row 1 as default | look the row up and refuse one of another organisation, as update-due.ts does, so each organisation keeps at most one default | high, not executed | DefaultTable.UnscopedSetDefaultBreaksSingle | DefaultTable.ScopedUpdate |
| src/actions/delete-temporary-image.ts:7 | the guard only checks the "/uploads/" prefix, and `path.join` resolves ".." segments | "/uploads/../../.env" unlinks `<cwd>/.env` | accept only paths that stay inside `public/uploads` (no ".." segment) | high, not executed | TemporaryImage.GuardAdmitsTraversal | TemporaryImage.UploadPathStaysInUploads |

=== FILE: business_dialog.dfy ===
/** The business-information dialog: the logo is uploaded, the previous one replaced, and the
    business details sent. */
module BusinessDialog {
  import opened Common
  import opened Session
  import opened Dialogs
  import opened ImageUpload

  const UploadFailedMessage: string := "Failed to upload image"

  class BusinessDialog {
    /** The organisation's stored logo. */
    const organizationImageUrl: Option<string>
    var open: bool
    var loading: bool
    var imagePreview: Option<string>
    /** The chosen file, by name. */
    var selectedFile: Option<string>
    var toasts: seq<Toast>
    /** The `deleteTemporaryImage` calls made so far. */
    var deletedImages: seq<string>
    /** The `imageUrl` field of each `updateBusiness` call made so far. */
    var businessRequests: seq<Option<string>>

    constructor (organizationImageUrl: Option<string>)
      ensures this.organizationImageUrl == organizationImageUrl && !open && !loading
      ensures imagePreview == organizationImageUrl && selectedFile == None
      ensures toasts == [] && deletedImages == [] && businessRequests == []
    {
      this.organizationImageUrl := organizationImageUrl;
      open := false;
      loading := false;
      imagePreview := organizationImageUrl;
      selectedFile := None;
      toasts := [];
      deletedImages := [];
      businessRequests := [];
    }

    /** The effect on `open`: the preview returns to the stored logo and the file is dropped. */
    method ResetImageState()
      modifies this`imagePreview, this`selectedFile
      ensures imagePreview == organizationImageUrl && selectedFile == None
    {
      imagePreview := organizationImageUrl;
      selectedFile := None;
    }

    /** `handleImageChange`: no file restores the stored logo; a file is kept for upload and
        previewed as the data URL the reader produces. */
    method HandleImageChange(file: Option<string>, dataUrl: string)
      modifies this`imagePreview, this`selectedFile
      ensures file.None? ==> imagePreview == organizationImageUrl && selectedFile == None
      ensures file.Some? ==> imagePreview == Some(dataUrl) && selectedFile == file
    {
      if file.None? {
        ResetImageState();
        return;
      }
      selectedFile := file;
      imagePreview := Some(dataUrl);
    }

    /** `handleModalOpenChange`, followed by the effect when `open` changes. */
    method HandleModalOpenChange(isOpen: bool)
      modifies this`open, this`imagePreview, this`selectedFile
      ensures open == isOpen
      ensures !isOpen || isOpen != old(open) ==> imagePreview == organizationImageUrl && selectedFile == None
      ensures isOpen && isOpen == old(open) ==> imagePreview == old(imagePreview) && selectedFile == old(selectedFile)
    {
      if !isOpen {
        ResetImageState();
      }
      var changed := open != isOpen;
      open := isOpen;
      if changed {
        ResetImageState();
      }
    }

    /** `handleSubmit`. A failed upload is reported and stops before `updateBusiness` is called;
        otherwise the previous logo is deleted when it is replaced, the URL is sent when
        non-empty, and the server's answer decides the toast and whether the dialog closes. */
    method HandleSubmit(formMounted: bool, upload: UploadOutcome, call: Call)
      modifies this`open, this`loading, this`imagePreview, this`selectedFile, this`toasts, this`deletedImages, this`businessRequests
      ensures !formMounted ==>
        open == old(open) && loading == old(loading) && selectedFile == old(selectedFile)
        && imagePreview == old(imagePreview) && toasts == old(toasts)
        && deletedImages == old(deletedImages) && businessRequests == old(businessRequests)
      ensures formMounted ==> !loading
      ensures formMounted && old(selectedFile).Some? && upload.UploadFailed? ==>
        toasts == old(toasts) + [ErrorToast(UploadFailedMessage)]
        && open == old(open) && selectedFile == old(selectedFile) && imagePreview == old(imagePreview)
        && deletedImages == old(deletedImages) && businessRequests == old(businessRequests)
      ensures formMounted && (old(selectedFile).None? || upload.Uploaded?) ==>
        businessRequests == old(businessRequests)
          + [FormImageUrl(NewImageUrl(organizationImageUrl, old(selectedFile).Some?, upload))]
        && deletedImages == old(deletedImages)
             + (if old(selectedFile).Some? && ReplacesOld(organizationImageUrl, upload.path) then [organizationImageUrl.value] else [])
        && toasts == old(toasts) + [ResultToast(call, "Failed to update business information")]
        && open == (old(open) && !Accepted(call))
        && (Accepted(call) ==> selectedFile == None)
        && (Accepted(call) ==> imagePreview == (if old(open) then organizationImageUrl else old(imagePreview)))
        && (!Accepted(call) ==> selectedFile == old(selectedFile) && imagePreview == old(imagePreview))
    {
      if !formMounted {
        return;
      }
      loading := true;
      var uploaded := organizationImageUrl;
      if selectedFile.Some? {
        if upload.UploadFailed? {
          loading := false;
          toasts := toasts + [ErrorToast(UploadFailedMessage)];
          return;
        }
        uploaded := Some(upload.path);
        if ReplacesOld(organizationImageUrl, upload.path) {
          deletedImages := deletedImages + [organizationImageUrl.value];
        }
      }
      businessRequests := businessRequests + [FormImageUrl(uploaded)];
      toasts := toasts + [ResultToast(call, "Failed to update business information")];
      if Accepted(call) {
        selectedFile := None;
        var changed := open;
        open := false;
        if changed {
          ResetImageState();
        }
      }
      loading := false;
    }
  }
}

=== FILE: cart_section.dfy ===
/** The cart panel of the sales screen: payment totals and the confirm-order guard. */
module CartSection {
  import opened Common

  /** One cart line; money is exact (`real`). */
  datatype CartItem = CartItem(id: string, name: string, price: real, quantity: int, image: Option<string>)

  datatype CustomerInfo = CustomerInfo(name: string, phone: string)

  const TaxRate: real := 0.05
  const DiscountRate: real := 0.1
  const LoyaltyDiscount: real := 1.0

  /** Price times quantity of one line. */
  function LineAmount(item: CartItem): real
  {
    item.price * item.quantity as real
  }

  predicate NonNegativeLines(cart: seq<CartItem>)
  {
    forall i :: 0 <= i < |cart| ==> cart[i].price >= 0.0 && cart[i].quantity >= 0
  }

  /** The `reduce` over the cart, from the left, starting at 0. */
  function Subtotal(cart: seq<CartItem>): (r: real)
    ensures NonNegativeLines(cart) ==> r >= 0.0
  {
    if cart == [] then 0.0
    else Subtotal(cart[..|cart| - 1]) + LineAmount(cart[|cart| - 1])
  }

  lemma {:induction false} SubtotalAppend(a: seq<CartItem>, b: seq<CartItem>)
    ensures Subtotal(a + b) == Subtotal(a) + Subtotal(b)
    decreases |b|
  {
    if b == [] {
      assert a + b == a;
    } else {
      assert (a + b)[..|a + b| - 1] == a + b[..|b| - 1];
      assert (a + b)[|a + b| - 1] == b[|b| - 1];
      SubtotalAppend(a, b[..|b| - 1]);
    }
  }

  /** Replacing one line changes the subtotal by exactly the difference of the two line amounts. */
  lemma {:induction false} SubtotalReplaceLine(cart: seq<CartItem>, k: nat, item: CartItem)
    requires k < |cart|
    ensures Subtotal(cart[k := item]) == Subtotal(cart) - LineAmount(cart[k]) + LineAmount(item)
  {
    var before, after := cart[..k], cart[k + 1..];
    assert cart == before + [cart[k]] + after;
    assert cart[k := item] == before + [item] + after;
    SubtotalAppend(before + [cart[k]], after);
    SubtotalAppend(before + [item], after);
    SubtotalAppend(before, [cart[k]]);
    SubtotalAppend(before, [item]);
    assert Subtotal([cart[k]]) == LineAmount(cart[k]) by { assert [cart[k]][..0] == []; }
    assert Subtotal([item]) == LineAmount(item) by { assert [item][..0] == []; }
  }

  lemma LineAmountWithQuantity(item: CartItem, q: int)
    ensures LineAmount(item.(quantity := q)) == LineAmount(item) + item.price * (q - item.quantity) as real
  {
  }

  /** One more unit adds exactly one price to the line. */
  lemma LineAmountBump(item: CartItem)
    ensures LineAmount(item.(quantity := item.quantity + 1)) == LineAmount(item) + item.price
  {
    LineAmountWithQuantity(item, item.quantity + 1);
  }

  /** Raising the quantity of a line with a non-negative price never lowers the subtotal. */
  lemma SubtotalMonotone(cart: seq<CartItem>, k: nat, q: int)
    requires k < |cart| && cart[k].price >= 0.0 && q >= cart[k].quantity
    ensures Subtotal(cart[k := cart[k].(quantity := q)]) >= Subtotal(cart)
  {
    SubtotalReplaceLine(cart, k, cart[k].(quantity := q));
    LineAmountWithQuantity(cart[k], q);
  }

  /** Everything the panel shows under "Detail Payment". */
  datatype Totals = Totals(subtotal: real, tax: real, discount: real, loyaltyDiscount: real, total: real)

  function Summary(cart: seq<CartItem>): (t: Totals)
    ensures t.subtotal == Subtotal(cart) && t.loyaltyDiscount == LoyaltyDiscount
    ensures cart == [] ==> t.subtotal == 0.0 && t.total == -1.0
    ensures t.tax == t.subtotal / 20.0 && t.discount == t.subtotal / 10.0
    ensures t.total == 0.95 * t.subtotal - 1.0
    ensures t.subtotal < 20.0 / 19.0 ==> t.total < 0.0
  {
    var subtotal := Subtotal(cart);
    var tax := subtotal * TaxRate;
    var discount := subtotal * DiscountRate;
    Totals(subtotal, tax, discount, LoyaltyDiscount, subtotal + tax - discount - LoyaltyDiscount)
  }

  /** What `handleConfirmOrder` does: nothing on an empty cart, otherwise it calls `onClearCart`. */
  datatype ConfirmEffect = NoEffect | CallClearCart

  function HandleConfirmOrder(cart: seq<CartItem>): (e: ConfirmEffect)
    ensures e == CallClearCart <==> cart != []
  {
    if |cart| == 0 then NoEffect else CallClearCart
  }

  /** The `disabled` attribute of the confirm button. */
  function ConfirmDisabled(cart: seq<CartItem>): (disabled: bool)
    ensures disabled <==> cart == []
  {
    |cart| == 0
  }

  /** The button is enabled exactly when pressing it clears the cart. */
  lemma ConfirmEnabledIffClears(cart: seq<CartItem>)
    ensures !ConfirmDisabled(cart) <==> HandleConfirmOrder(cart) == CallClearCart
    ensures ConfirmDisabled(cart) <==> cart == []
  {
  }
}

=== FILE: common.dfy ===
/** Shared vocabulary: optional values, ASCII strings, list filters and calendar dates. */
module Common {

  datatype Option<+T> = None | Some(value: T)

  /** The JavaScript `toLowerCase` restricted to ASCII letters. */
  function Lower(c: char): char
  {
    if 'A' <= c <= 'Z' then (c as int + 32) as char else c
  }

  function LowerStr(s: string): (r: string)
    ensures |r| == |s|
    ensures forall i :: 0 <= i < |s| ==> r[i] == Lower(s[i])
  {
    if s == [] then [] else [Lower(s[0])] + LowerStr(s[1..])
  }

  /** `s.startsWith(p)` */
  predicate StartsWith(s: string, p: string)
  {
    |p| <= |s| && s[..|p|] == p
  }

  /** `s.slice(0, end)`: the first `end` elements, or all of `s` when it is shorter. */
  function SliceTo<T>(s: seq<T>, end: nat): (r: seq<T>)
    ensures |r| == if end <= |s| then end else |s|
    ensures r == s[..|r|]
  {
    if end <= |s| then s[..end] else s
  }

  /** `s.includes(q)`: `q` occurs at some offset of `s`. */
  predicate Contains(s: string, q: string)
  {
    exists i :: 0 <= i <= |s| - |q| && OccursAt(s, q, i)
  }

  predicate OccursAt(s: string, q: string, i: int)
  {
    0 <= i <= |s| - |q| && s[i..i + |q|] == q
  }

  lemma ContainsEmpty(s: string)
    ensures Contains(s, "")
  {
    assert OccursAt(s, "", 0);
  }

  /** Two prefixes of one string are prefixes of each other. */
  lemma {:induction false} CommonPrefixes(s: string, a: string, b: string)
    requires StartsWith(s, a) && StartsWith(s, b)
    requires |a| <= |b|
    ensures StartsWith(b, a)
  {
    assert b[..|a|] == s[..|b|][..|a|] == s[..|a|];
  }

  /** The characters removed by `String.prototype.trim` and skipped by `parseInt`: the
      ECMAScript WhiteSpace and LineTerminator characters (tab, vertical tab, form feed, space,
      no-break space, the byte order mark, the other space separators, line feed, carriage
      return, and the line and paragraph separators). */
  predicate IsWhitespace(c: char)
  {
    c == ' ' || c == '\t' || c == '\n' || c == '\r' || c == '\U{000B}' || c == '\U{000C}'
    || c == '\U{00A0}' || c == '\U{FEFF}' || c == '\U{1680}' || '\U{2000}' <= c <= '\U{200A}'
    || c == '\U{2028}' || c == '\U{2029}' || c == '\U{202F}' || c == '\U{205F}' || c == '\U{3000}'
  }

  function TrimStart(s: string): string
  {
    if s != [] && IsWhitespace(s[0]) then TrimStart(s[1..]) else s
  }

  function TrimEnd(s: string): string
  {
    if s != [] && IsWhitespace(s[|s| - 1]) then TrimEnd(s[..|s| - 1]) else s
  }

  /** `s.trim()` */
  function Trim(s: string): string
  {
    TrimEnd(TrimStart(s))
  }

  predicate IsBlank(s: string)
  {
    forall i :: 0 <= i < |s| ==> IsWhitespace(s[i])
  }

  lemma {:induction false} TrimStartBlank(s: string)
    ensures TrimStart(s) == [] <==> IsBlank(s)
    ensures TrimStart(s) != [] ==> !IsWhitespace(TrimStart(s)[0])
  {
    if s != [] && IsWhitespace(s[0]) {
      TrimStartBlank(s[1..]);
      if IsBlank(s[1..]) {
        assert forall i :: 0 < i < |s| ==> s[i] == s[1..][i - 1];
      }
    }
  }

  lemma {:induction false} TrimEndEmpty(s: string)
    requires s != [] ==> !IsWhitespace(s[0])
    ensures TrimEnd(s) == [] <==> s == []
  {
    if s != [] && IsWhitespace(s[|s| - 1]) {
      TrimEndEmpty(s[..|s| - 1]);
    }
  }

  /** A query is "truthy after trimming" exactly when it has a non-whitespace character. */
  lemma TrimEmptyIffBlank(s: string)
    ensures Trim(s) == [] <==> IsBlank(s)
  {
    TrimStartBlank(s);
    TrimEndEmpty(TrimStart(s));
  }

  /** `xs.filter(p)` */
  function Filter<T(!new)>(p: T -> bool, xs: seq<T>): (r: seq<T>)
    ensures |r| <= |xs|
    ensures forall x :: x in r <==> x in xs && p(x)
  {
    if xs == [] then []
    else if p(xs[0]) then [xs[0]] + Filter(p, xs[1..])
    else Filter(p, xs[1..])
  }

  /** `r` is obtained from `xs` by dropping elements, keeping the order of the rest. */
  ghost predicate IsSubsequence<T>(r: seq<T>, xs: seq<T>)
    decreases |xs|
  {
    r == [] || (xs != [] && ((r[0] == xs[0] && IsSubsequence(r[1..], xs[1..])) || IsSubsequence(r, xs[1..])))
  }

  lemma {:induction false} SubsequenceReflexive<T>(xs: seq<T>)
    ensures IsSubsequence(xs, xs)
  {
    if xs != [] {
      SubsequenceReflexive(xs[1..]);
    }
  }

  lemma {:induction false} FilterIsSubsequence<T(!new)>(p: T -> bool, xs: seq<T>)
    ensures IsSubsequence(Filter(p, xs), xs)
  {
    if xs != [] {
      FilterIsSubsequence(p, xs[1..]);
      var r := Filter(p, xs);
      if p(xs[0]) {
        assert r[0] == xs[0] && r[1..] == Filter(p, xs[1..]);
      }
    }
  }

  /** The filter keeps every copy of a kept element and no copy of a dropped one. */
  lemma {:induction false} FilterCount<T(!new)>(p: T -> bool, xs: seq<T>)
    ensures forall x :: multiset(Filter(p, xs))[x] == if p(x) then multiset(xs)[x] else 0
  {
    if xs != [] {
      FilterCount(p, xs[1..]);
      assert xs == [xs[0]] + xs[1..];
      assert multiset(xs) == multiset{xs[0]} + multiset(xs[1..]);
    }
  }

  lemma {:induction false} FilterKeepsAll<T(!new)>(p: T -> bool, xs: seq<T>)
    requires forall x :: x in xs ==> p(x)
    ensures Filter(p, xs) == xs
  {
    if xs != [] {
      assert xs[0] in xs;
      FilterKeepsAll(p, xs[1..]);
      assert [xs[0]] + xs[1..] == xs;
    }
  }

  lemma {:induction false} FilterDropsAll<T(!new)>(p: T -> bool, xs: seq<T>)
    requires forall x :: x in xs ==> !p(x)
    ensures Filter(p, xs) == []
  {
    if xs != [] {
      assert xs[0] in xs;
      FilterDropsAll(p, xs[1..]);
    }
  }

  /** The first element of `xs` satisfying `p` (a `findFirst` / `find`). */
  function FindFirst<T(!new)>(p: T -> bool, xs: seq<T>): (r: Option<T>)
    ensures r.None? <==> forall x :: x in xs ==> !p(x)
    ensures r.Some? ==> r.value in xs && p(r.value)
  {
    if xs == [] then None
    else if p(xs[0]) then Some(xs[0])
    else FindFirst(p, xs[1..])
  }

  /** The position of the first element satisfying `p` (a `findIndex` / `findFirst`). */
  function IndexWhere<T>(p: T -> bool, xs: seq<T>): (r: Option<nat>)
    ensures r.None? <==> forall i :: 0 <= i < |xs| ==> !p(xs[i])
    ensures r.Some? ==> r.value < |xs| && p(xs[r.value]) && forall i :: 0 <= i < r.value ==> !p(xs[i])
  {
    if xs == [] then None
    else if p(xs[0]) then Some(0)
    else match IndexWhere(p, xs[1..])
      case None => None
      case Some(k) => Some(k + 1)
  }

  /** The sequence without its element at `k` (a `delete` of one row). */
  function RemoveAt<T>(xs: seq<T>, k: nat): (r: seq<T>)
    requires k < |xs|
    ensures |r| == |xs| - 1
    ensures forall i :: 0 <= i < k ==> r[i] == xs[i]
    ensures forall i :: k <= i < |r| ==> r[i] == xs[i + 1]
  {
    xs[..k] + xs[k + 1..]
  }

  /** Removing one element keeps only elements that were there. */
  lemma RemoveAtSubset<T>(xs: seq<T>, k: nat)
    requires k < |xs|
    ensures forall x :: x in RemoveAt(xs, k) ==> x in xs
    ensures multiset(RemoveAt(xs, k)) + multiset{xs[k]} == multiset(xs)
  {
    assert xs == xs[..k] + [xs[k]] + xs[k + 1..];
  }

  /** A calendar date as (year, month, day); ordering is lexicographic. */
  datatype Date = Date(year: int, month: int, day: int)

  predicate Before(a: Date, b: Date)
  {
    a.year < b.year
    || (a.year == b.year && a.month < b.month)
    || (a.year == b.year && a.month == b.month && a.day < b.day)
  }
}

=== FILE: customer_tables.dfy ===
/** The two customer tables: the cashier's, which also receives customers created in its dialog,
    and the read-only one of the customer-management page. Both filter by name or phone. */
module CustomerTables {
  import opened Common
  import opened Customers

  /** A customer matches when the lower-cased query occurs in its lower-cased name or phone.
      Unlike the sales search, the query is not trimmed. */
  predicate CustomerMatches(c: Customer, query: string): (r: bool)
    ensures query == "" ==> r
    ensures Contains(LowerStr(c.name), LowerStr(query)) ==> r
    ensures Contains(LowerStr(c.phone), LowerStr(query)) ==> r
  {
    ContainsEmpty(LowerStr(c.name));
    var q := LowerStr(query);
    Contains(LowerStr(c.name), q) || Contains(LowerStr(c.phone), q)
  }

  /** `customers.filter(...)`: the matching customers, in their order. */
  function FilterCustomers(customers: seq<Customer>, query: string): (r: seq<Customer>)
    ensures IsSubsequence(r, customers)
    ensures forall c :: c in r <==> c in customers && CustomerMatches(c, query)
    ensures forall c :: multiset(r)[c] == if CustomerMatches(c, query) then multiset(customers)[c] else 0
  {
    FilterIsSubsequence(c => CustomerMatches(c, query), customers);
    FilterCount(c => CustomerMatches(c, query), customers);
    Filter(c => CustomerMatches(c, query), customers)
  }

  lemma {:induction false} LowerStrIdempotent(s: string)
    ensures LowerStr(LowerStr(s)) == LowerStr(s)
  {
  }

  /** The search ignores the case of the query. */
  lemma QueryCaseIgnored(c: Customer, query: string)
    ensures CustomerMatches(c, LowerStr(query)) <==> CustomerMatches(c, query)
  {
    LowerStrIdempotent(query);
  }

  /** With an empty query every customer is listed. */
  lemma EmptyQueryListsAll(customers: seq<Customer>)
    ensures FilterCustomers(customers, "") == customers
  {
    forall c | c in customers ensures CustomerMatches(c, "") {
      ContainsEmpty(LowerStr(c.name));
    }
    FilterKeepsAll(c => CustomerMatches(c, ""), customers);
  }

  /** A customer put in front of the list is listed first when it matches, and the rest of the
      listing is unchanged. */
  lemma {:induction false} PrependFilter(c: Customer, customers: seq<Customer>, query: string)
    ensures FilterCustomers([c] + customers, query)
      == (if CustomerMatches(c, query) then [c] else []) + FilterCustomers(customers, query)
  {
    assert ([c] + customers)[1..] == customers;
  }

  /** One rendered row: the running number and the displayed fields. */
  datatype TableRow = TableRow(number: nat, name: string, phone: string, totalSpent: real, due: real, loyaltyPoints: real)

  /** The rendered table: its rows and whether "No customers found" is shown. */
  datatype TableView = TableView(rows: seq<TableRow>, noCustomersFound: bool)

  function RowOf(c: Customer, number: nat): TableRow
  {
    TableRow(number, c.name, c.phone, c.totalSpent, c.due, c.loyaltyPoints)
  }

  /** The table for a customer list and a query. */
  function Render(customers: seq<Customer>, query: string): (v: TableView)
    ensures v.noCustomersFound <==> v.rows == []
    ensures |v.rows| <= |customers|
    ensures forall i :: 0 <= i < |v.rows| ==> v.rows[i].number == i + 1
  {
    var filtered := FilterCustomers(customers, query);
    TableView(seq(|filtered|, i requires 0 <= i < |filtered| => RowOf(filtered[i], i + 1)), |filtered| == 0)
  }

  /** The rows show exactly the matching customers, in list order, numbered from one. */
  lemma RenderShowsMatches(customers: seq<Customer>, query: string)
    ensures |Render(customers, query).rows| == |FilterCustomers(customers, query)|
    ensures forall i :: 0 <= i < |Render(customers, query).rows| ==>
      Render(customers, query).rows[i] == RowOf(FilterCustomers(customers, query)[i], i + 1)
  {
  }

  /** The table after a customer is put in front of the list. */
  lemma RenderPrepend(c: Customer, customers: seq<Customer>, query: string)
    ensures CustomerMatches(c, query) ==>
      |Render([c] + customers, query).rows| == |Render(customers, query).rows| + 1
      && Render([c] + customers, query).rows[0] == RowOf(c, 1)
      && forall i :: 0 <= i < |Render(customers, query).rows| ==>
           Render([c] + customers, query).rows[i + 1] == Render(customers, query).rows[i].(number := i + 2)
    ensures !CustomerMatches(c, query) ==> Render([c] + customers, query) == Render(customers, query)
  {
    PrependFilter(c, customers, query);
  }

  /** The cashier's customer table. */
  class CashierCustomerTable {
    var customers: seq<Customer>
    var searchQuery: string

    constructor (initial: seq<Customer>)
      ensures customers == initial && searchQuery == ""
      ensures |View().rows| == |initial|
    {
      customers := initial;
      searchQuery := "";
      new;
      EmptyQueryListsAll(initial);
    }

    function View(): TableView
      reads this
    {
      Render(customers, searchQuery)
    }

    method SetSearchQuery(query: string)
      modifies this`searchQuery
      ensures searchQuery == query
    {
      searchQuery := query;
    }

    /** `onSuccess` of the add-customer dialog: the new customer goes in front of the list; if it
        matches the current search it is row number one and every other row moves down by one. */
    method OnCustomerCreated(c: Customer)
      modifies this`customers
      ensures customers == [c] + old(customers)
      ensures CustomerMatches(c, searchQuery) ==>
        |View().rows| == |old(View()).rows| + 1 && View().rows[0] == RowOf(c, 1)
        && forall i :: 0 <= i < |old(View()).rows| ==>
             View().rows[i + 1] == old(View()).rows[i].(number := i + 2)
      ensures !CustomerMatches(c, searchQuery) ==> View() == old(View())
    {
      RenderPrepend(c, customers, searchQuery);
      customers := [c] + customers;
    }
  }

  /** The customer-management table: its list is fixed, only the query changes. */
  class CustomerTable {
    const customers: seq<Customer>
    var searchQuery: string

    constructor (initial: seq<Customer>)
      ensures customers == initial && searchQuery == ""
      ensures |View().rows| == |initial|
    {
      customers := initial;
      searchQuery := "";
      new;
      EmptyQueryListsAll(initial);
    }

    function View(): TableView
      reads this
    {
      Render(customers, searchQuery)
    }

    method SetSearchQuery(query: string)
      modifies this`searchQuery
      ensures searchQuery == query
    {
      searchQuery := query;
    }
  }
}

=== FILE: customers.dfy ===
/** The customer table and `createCustomer`: a phone number may appear once per organisation. */
module Customers {
  import opened Common
  import opened Session

  datatype Customer = Customer(
    id: nat, org: string, name: string, phone: string,
    totalSpent: real, due: real, loyaltyPoints: real)

  /** The `findFirst({ where: { phone, organizationId } })` filter. */
  predicate SamePhoneInOrg(c: Customer, phone: string, org: string)
  {
    c.phone == phone && c.org == org
  }

  /** Within each organisation no two customers share a phone number. */
  predicate PhonesUniquePerOrg(rows: seq<Customer>)
  {
    forall i, j :: 0 <= i < j < |rows| && rows[i].org == rows[j].org ==> rows[i].phone != rows[j].phone
  }

  /** Appending a customer whose phone is new to its organisation keeps phones unique per
      organisation; the same phone in another organisation does not matter. */
  lemma {:induction false} AppendKeepsPhonesUnique(rows: seq<Customer>, c: Customer)
    requires PhonesUniquePerOrg(rows)
    requires forall i :: 0 <= i < |rows| ==> !SamePhoneInOrg(rows[i], c.phone, c.org)
    ensures PhonesUniquePerOrg(rows + [c])
  {
    var r := rows + [c];
    forall i, j | 0 <= i < j < |r| && r[i].org == r[j].org
      ensures r[i].phone != r[j].phone
    {
      assert r[i] == rows[i];
      if j < |rows| {
        assert r[j] == rows[j];
      } else {
        assert !SamePhoneInOrg(rows[i], c.phone, c.org);
      }
    }
  }

  /** The customer table. */
  class CustomerTable {
    var rows: seq<Customer>
    var nextId: nat

    ghost predicate Valid()
      reads this
    {
      PhonesUniquePerOrg(rows)
      && (forall i :: 0 <= i < |rows| ==> rows[i].id < nextId)
      && (forall i, j :: 0 <= i < j < |rows| ==> rows[i].id != rows[j].id)
    }

    constructor ()
      ensures Valid() && rows == [] && nextId == 0
    {
      rows := [];
      nextId := 0;
    }

    /** `createCustomer`. A phone already used in the caller's organisation is refused; one used
        only in other organisations is accepted. The new customer starts with nothing spent,
        nothing due and no loyalty points. */
    method CreateCustomer(user: Option<User>, name: string, phone: string) returns (reply: Reply, created: Option<Customer>)
      requires Valid()
      modifies this`rows, this`nextId
      ensures Valid()
      ensures OrgIdGate(user).Deny? ==>
        reply == Failure("Unauthorized") && created == None && rows == old(rows) && nextId == old(nextId)
      ensures OrgIdGate(user).Throws? ==>
        reply == Failure("Failed to create customer") && created == None && rows == old(rows) && nextId == old(nextId)
      ensures (OrgIdGate(user).Proceed?
        && exists i :: 0 <= i < |old(rows)| && SamePhoneInOrg(old(rows)[i], phone, OrgIdGate(user).org)) ==>
        reply == Failure("A customer with this phone number already exists") && created == None
        && rows == old(rows) && nextId == old(nextId)
      ensures (OrgIdGate(user).Proceed?
        && forall i :: 0 <= i < |old(rows)| ==> !SamePhoneInOrg(old(rows)[i], phone, OrgIdGate(user).org)) ==>
        reply == Success("Customer created successfully")
        && created == Some(Customer(old(nextId), OrgIdGate(user).org, name, phone, 0.0, 0.0, 0.0))
        && rows == old(rows) + [created.value] && nextId == old(nextId) + 1
    {
      match OrgIdGate(user)
      case Deny => return Failure("Unauthorized"), None;
      case Throws => return Failure("Failed to create customer"), None;
      case Proceed(org) =>
        var existing := IndexWhere((c: Customer) => SamePhoneInOrg(c, phone, org), rows);
        if existing.Some? {
          return Failure("A customer with this phone number already exists"), None;
        }
        var customer := Customer(nextId, org, name, phone, 0.0, 0.0, 0.0);
        AppendKeepsPhonesUnique(rows, customer);
        rows := rows + [customer];
        nextId := nextId + 1;
        reply, created := Success("Customer created successfully"), Some(customer);
    }
  }
}

=== FILE: default_table.dfy ===
/** The rows shared by the tax, loyalty and due-balance settings tables: each row belongs to
    one organisation and may be that organisation's default. The operations here are the ORM
    calls the settings actions issue (`updateMany`, `create`, `update`, `delete`, lookups),
    written as functions over a sequence of rows. */
module DefaultTable {
  import opened Common

  /** One row. Ids are database-generated; they are modelled as naturals handed out in order. */
  datatype Row<F> = Row(id: nat, org: string, isDefault: bool, fields: F)

  predicate HasId<F>(rows: seq<Row<F>>, id: nat)
  {
    exists i :: 0 <= i < |rows| && rows[i].id == id
  }

  predicate UniqueIds<F>(rows: seq<Row<F>>)
  {
    forall i, j :: 0 <= i < j < |rows| ==> rows[i].id != rows[j].id
  }

  /** Every id in the table is below the next id to be handed out. */
  predicate IdsBelow<F>(rows: seq<Row<F>>, bound: nat)
  {
    forall i :: 0 <= i < |rows| ==> rows[i].id < bound
  }

  /** At most one default row per organisation. */
  predicate SingleDefault<F>(rows: seq<Row<F>>)
  {
    forall i, j :: 0 <= i < j < |rows| && rows[i].isDefault && rows[j].isDefault ==> rows[i].org != rows[j].org
  }

  /** Row `k` is the one and only default row of `org`. */
  predicate SoleDefault<F>(rows: seq<Row<F>>, org: string, k: nat)
  {
    k < |rows| && rows[k].org == org && rows[k].isDefault
    && forall i :: 0 <= i < |rows| && rows[i].isDefault && rows[i].org == org ==> i == k
  }

  /** `updateMany({ where: { organizationId: org, default: true [, id: { not: except }] },
      data: { default: false } })` */
  function ClearDefaults<F>(rows: seq<Row<F>>, org: string, except: Option<nat>): (r: seq<Row<F>>)
    ensures |r| == |rows|
    ensures forall i :: 0 <= i < |rows| ==>
      r[i].id == rows[i].id && r[i].org == rows[i].org && r[i].fields == rows[i].fields
    ensures forall i :: 0 <= i < |rows| ==>
      (r[i].isDefault <==> rows[i].isDefault && (rows[i].org != org || except == Some(rows[i].id)))
  {
    if rows == [] then []
    else
      var head := rows[0];
      var cleared := if head.org == org && except != Some(head.id) then head.(isDefault := false) else head;
      [cleared] + ClearDefaults(rows[1..], org, except)
  }

  /** Clearing touches no row outside `org` and leaves the table's ids as they were. */
  lemma {:induction false} ClearDefaultsFrame<F>(rows: seq<Row<F>>, org: string, except: Option<nat>)
    ensures forall i :: 0 <= i < |rows| && rows[i].org != org ==> ClearDefaults(rows, org, except)[i] == rows[i]
    ensures forall i :: 0 <= i < |rows| && !rows[i].isDefault ==> ClearDefaults(rows, org, except)[i] == rows[i]
    ensures UniqueIds(rows) ==> UniqueIds(ClearDefaults(rows, org, except))
    ensures forall bound: nat :: IdsBelow(rows, bound) ==> IdsBelow(ClearDefaults(rows, org, except), bound)
  {
    var r := ClearDefaults(rows, org, except);
    forall i | 0 <= i < |rows| && (rows[i].org != org || !rows[i].isDefault)
      ensures r[i] == rows[i]
    {
      assert r[i].isDefault == rows[i].isDefault;
    }
  }

  /** Clearing defaults can only remove defaults, so it keeps one default per organisation. */
  lemma {:induction false} ClearDefaultsKeepsSingle<F>(rows: seq<Row<F>>, org: string, except: Option<nat>)
    requires SingleDefault(rows)
    ensures SingleDefault(ClearDefaults(rows, org, except))
  {
    var r := ClearDefaults(rows, org, except);
    forall i, j | 0 <= i < j < |r| && r[i].isDefault && r[j].isDefault
      ensures r[i].org != r[j].org
    {
      assert rows[i].isDefault && rows[j].isDefault;
    }
  }

  /** `create({ data: { …, default, organizationId: org } })`: the new row takes the next id. */
  function Insert<F>(rows: seq<Row<F>>, nextId: nat, org: string, isDefault: bool, fields: F): (r: seq<Row<F>>)
    ensures |r| == |rows| + 1 && r[..|rows|] == rows
    ensures r[|rows|] == Row(nextId, org, isDefault, fields)
  {
    rows + [Row(nextId, org, isDefault, fields)]
  }

  /** A fresh id keeps ids unique and below the advanced counter. */
  lemma {:induction false} InsertKeepsIds<F>(rows: seq<Row<F>>, nextId: nat, org: string, isDefault: bool, fields: F)
    requires UniqueIds(rows) && IdsBelow(rows, nextId)
    ensures UniqueIds(Insert(rows, nextId, org, isDefault, fields))
    ensures IdsBelow(Insert(rows, nextId, org, isDefault, fields), nextId + 1)
  {
    var r := Insert(rows, nextId, org, isDefault, fields);
    forall i, j | 0 <= i < j < |r|
      ensures r[i].id != r[j].id
    {
      if j == |rows| {
        assert r[i] == rows[i];
      } else {
        assert r[i] == rows[i] && r[j] == rows[j];
      }
    }
  }

  /** Appending a non-default row changes no organisation's default. */
  lemma {:induction false} InsertNonDefaultKeepsSingle<F>(rows: seq<Row<F>>, nextId: nat, org: string, fields: F)
    requires SingleDefault(rows)
    ensures SingleDefault(Insert(rows, nextId, org, false, fields))
  {
    var r := Insert(rows, nextId, org, false, fields);
    forall i, j | 0 <= i < j < |r| && r[i].isDefault && r[j].isDefault
      ensures r[i].org != r[j].org
    {
      assert j < |rows|;
      assert r[i] == rows[i] && r[j] == rows[j];
    }
  }

  /** Clearing the organisation's defaults and then appending a default row for it leaves that
      row as the organisation's sole default, and every organisation with at most one. */
  lemma {:induction false} ClearThenInsertDefault<F>(rows: seq<Row<F>>, nextId: nat, org: string, fields: F)
    requires SingleDefault(rows)
    ensures SingleDefault(Insert(ClearDefaults(rows, org, None), nextId, org, true, fields))
    ensures SoleDefault(Insert(ClearDefaults(rows, org, None), nextId, org, true, fields), org, |rows|)
  {
    var c := ClearDefaults(rows, org, None);
    ClearDefaultsKeepsSingle(rows, org, None);
    var r := Insert(c, nextId, org, true, fields);
    forall i, j | 0 <= i < j < |r| && r[i].isDefault && r[j].isDefault
      ensures r[i].org != r[j].org
    {
      assert r[i] == c[i];
      if j < |c| {
        assert r[j] == c[j];
      }
    }
    assert forall i :: 0 <= i < |rows| ==> r[i] == c[i];
  }

  /** The position of the row with that id, or `None` (a `findUnique` that returns null). */
  function IndexOfId<F>(rows: seq<Row<F>>, id: nat): (r: Option<nat>)
    ensures r.None? <==> !HasId(rows, id)
    ensures r.Some? ==> r.value < |rows| && rows[r.value].id == id
  {
    if rows == [] then None
    else if rows[0].id == id then Some(0)
    else match IndexOfId(rows[1..], id)
      case None => None
      case Some(k) => Some(k + 1)
  }

  /** With unique ids, the row found is the only row with that id. */
  lemma IndexOfIdUnique<F>(rows: seq<Row<F>>, id: nat)
    requires UniqueIds(rows) && HasId(rows, id)
    ensures forall i :: 0 <= i < |rows| && rows[i].id == id ==> i == IndexOfId(rows, id).value
  {
  }

  /** `update({ where: { id }, data: { default, …fields } })` on the row at `k`. */
  function Overwrite<F>(rows: seq<Row<F>>, k: nat, isDefault: bool, fields: F): (r: seq<Row<F>>)
    requires k < |rows|
    ensures |r| == |rows|
    ensures r[k] == Row(rows[k].id, rows[k].org, isDefault, fields)
    ensures forall i :: 0 <= i < |rows| && i != k ==> r[i] == rows[i]
  {
    rows[k := rows[k].(isDefault := isDefault, fields := fields)]
  }

  /** Overwriting a row keeps the table's ids. */
  lemma OverwriteKeepsIds<F>(rows: seq<Row<F>>, k: nat, isDefault: bool, fields: F, bound: nat)
    requires k < |rows|
    ensures UniqueIds(rows) ==> UniqueIds(Overwrite(rows, k, isDefault, fields))
    ensures IdsBelow(rows, bound) ==> IdsBelow(Overwrite(rows, k, isDefault, fields), bound)
  {
  }

  /** Clearing `org`'s defaults (possibly sparing the target's own id) and then making a row of
      `org` default leaves it the organisation's sole default, and every organisation with at
      most one. */
  lemma {:induction false} ClearThenSetDefault<F>(rows: seq<Row<F>>, org: string, except: Option<nat>, k: nat, fields: F)
    requires SingleDefault(rows) && UniqueIds(rows)
    requires k < |rows| && rows[k].org == org
    requires except == None || except == Some(rows[k].id)
    ensures SingleDefault(Overwrite(ClearDefaults(rows, org, except), k, true, fields))
    ensures SoleDefault(Overwrite(ClearDefaults(rows, org, except), k, true, fields), org, k)
  {
    var c := ClearDefaults(rows, org, except);
    var r := Overwrite(c, k, true, fields);
    assert forall i :: 0 <= i < |r| && i != k ==> r[i] == c[i];
    ClearDefaultsKeepsSingle(rows, org, except);
    forall i, j | 0 <= i < j < |r| && r[i].isDefault && r[j].isDefault
      ensures r[i].org != r[j].org
    {
      if i != k && j != k {
        assert r[i] == c[i] && r[j] == c[j];
      }
    }
  }

  /** Both branches of `update` on the row at `k`, after the optional clearing of `org`'s
      defaults. Ids stay unique and below the counter whatever the row's organisation. Writing a
      non-default row keeps one default per organisation. When the row belongs to `org`, a
      default write leaves it the organisation's sole default, every organisation keeps at
      most one, and no row of another organisation changes. */
  lemma {:induction false} WriteRow<F>(rows: seq<Row<F>>, org: string, except: Option<nat>, k: nat, isDefault: bool, fields: F)
    requires k < |rows|
    requires except == None || except == Some(rows[k].id)
    ensures var r := Overwrite(if isDefault then ClearDefaults(rows, org, except) else rows, k, isDefault, fields);
      (UniqueIds(rows) ==> UniqueIds(r))
      && (forall bound: nat :: IdsBelow(rows, bound) ==> IdsBelow(r, bound))
      && (!isDefault && SingleDefault(rows) ==> SingleDefault(r))
      && (rows[k].org == org && SingleDefault(rows) && UniqueIds(rows) ==> SingleDefault(r))
      && (rows[k].org == org && isDefault && SingleDefault(rows) && UniqueIds(rows) ==> SoleDefault(r, org, k))
      && (rows[k].org == org ==> forall i :: 0 <= i < |rows| && rows[i].org != org ==> r[i] == rows[i])
  {
    var cleared := if isDefault then ClearDefaults(rows, org, except) else rows;
    ClearDefaultsFrame(rows, org, except);
    if isDefault && rows[k].org == org && SingleDefault(rows) && UniqueIds(rows) {
      ClearThenSetDefault(rows, org, except, k, fields);
    }
    if !isDefault && SingleDefault(rows) {
      SetNonDefaultKeepsSingle(rows, k, fields);
    }
    OverwriteKeepsIds(cleared, k, isDefault, fields, 0);
    forall bound: nat | IdsBelow(rows, bound)
      ensures IdsBelow(Overwrite(cleared, k, isDefault, fields), bound)
    {
      OverwriteKeepsIds(cleared, k, isDefault, fields, bound);
    }
  }

  /** Writing a non-default value into any row cannot create a second default. */
  lemma {:induction false} SetNonDefaultKeepsSingle<F>(rows: seq<Row<F>>, k: nat, fields: F)
    requires SingleDefault(rows) && k < |rows|
    ensures SingleDefault(Overwrite(rows, k, false, fields))
  {
    var r := Overwrite(rows, k, false, fields);
    forall i, j | 0 <= i < j < |r| && r[i].isDefault && r[j].isDefault
      ensures r[i].org != r[j].org
    {
      assert i != k && j != k;
      assert r[i] == rows[i] && r[j] == rows[j];
    }
  }

  /** Deleting a row keeps ids unique and below the counter, keeps one default per
      organisation, and with unique ids leaves no row with the deleted id. */
  lemma {:induction false} RemoveAtKeeps<F>(rows: seq<Row<F>>, k: nat, bound: nat)
    requires k < |rows|
    ensures UniqueIds(rows) ==> UniqueIds(RemoveAt(rows, k)) && !HasId(RemoveAt(rows, k), rows[k].id)
    ensures IdsBelow(rows, bound) ==> IdsBelow(RemoveAt(rows, k), bound)
    ensures SingleDefault(rows) ==> SingleDefault(RemoveAt(rows, k))
  {
    var r := RemoveAt(rows, k);
    // Position `i` of the result holds row `i` of the table before `k`, row `i + 1` from `k` on.
    assert forall i :: 0 <= i < |r| ==> r[i] == rows[if i < k then i else i + 1];
    if UniqueIds(rows) {
      forall i, j | 0 <= i < j < |r|
        ensures r[i].id != r[j].id
      {
        assert r[i] == rows[if i < k then i else i + 1];
        assert r[j] == rows[if j < k then j else j + 1];
      }
      forall i | 0 <= i < |r|
        ensures r[i].id != rows[k].id
      {
        assert r[i] == rows[if i < k then i else i + 1];
      }
    }
    if SingleDefault(rows) {
      forall i, j | 0 <= i < j < |r| && r[i].isDefault && r[j].isDefault
        ensures r[i].org != r[j].org
      {
        assert r[i] == rows[if i < k then i else i + 1];
        assert r[j] == rows[if j < k then j else j + 1];
      }
    }
  }

  /** An update keyed by id alone, after clearing the caller's organisation, can leave another
      organisation with two defaults: organisation "A" has default row 0 and a second row 1; a
      caller of organisation "B" makes row 1 the default. */
  lemma UnscopedSetDefaultBreaksSingle<F>(f: F)
    ensures var rows := [Row(0, "A", true, f), Row(1, "A", false, f)];
      SingleDefault(rows) && UniqueIds(rows)
      && !SingleDefault(Overwrite(ClearDefaults(rows, "B", None), 1, true, f))
  {
    var rows := [Row(0, "A", true, f), Row(1, "A", false, f)];
    var r := Overwrite(ClearDefaults(rows, "B", None), 1, true, f);
    assert r[0].isDefault && r[1].isDefault && r[0].org == r[1].org;
  }

  /** The update as an organisation-scoped action would issue it: the target is looked up first,
      and a missing row or a row of another organisation is refused before anything is written.
      Returns the new table, or `None` for a refusal. */
  function ScopedUpdate<F>(rows: seq<Row<F>>, org: string, except: Option<nat>, id: nat, isDefault: bool, fields: F)
    : (r: Option<seq<Row<F>>>)
    requires except == None || except == Some(id)
    ensures r.None? <==> !HasId(rows, id) || rows[IndexOfId(rows, id).value].org != org
    ensures r.Some? && SingleDefault(rows) && UniqueIds(rows) ==> SingleDefault(r.value) && UniqueIds(r.value)
    ensures r.Some? && isDefault && UniqueIds(rows) && SingleDefault(rows) ==>
      SoleDefault(r.value, org, IndexOfId(rows, id).value)
    ensures r.Some? ==> |r.value| == |rows| && forall i :: 0 <= i < |rows| && rows[i].org != org ==> r.value[i] == rows[i]
  {
    match IndexOfId(rows, id)
    case None => None
    case Some(k) =>
      if rows[k].org != org then None
      else
        WriteRow(rows, org, except, k, isDefault, fields);
        Some(Overwrite(if isDefault then ClearDefaults(rows, org, except) else rows, k, isDefault, fields))
  }
}

=== FILE: dialogs.dfy ===
/** What the form dialogs do with a server action's answer: the toast they show and whether they
    close. */
module Dialogs {
  import opened Session

  datatype Toast = ErrorToast(text: string) | SuccessToast(text: string)

  /** Awaiting a server action: it returns its reply, or the call throws. */
  datatype Call = Returned(reply: Reply) | Threw

  /** `if (result.error)`: the reply carries a non-empty error string. */
  predicate ReportsError(call: Call)
  {
    call.Returned? && call.reply.Failure? && call.reply.error != ""
  }

  /** The dialog accepts the answer (shows the success toast and closes). */
  predicate Accepted(call: Call)
  {
    call.Returned? && !ReportsError(call)
  }

  /** The toast for an answer: the action's error, the dialog's own message when the call throws,
      or the action's success message (empty when a falsy error left none). */
  function ResultToast(call: Call, failureMessage: string): (t: Toast)
    ensures t.SuccessToast? <==> Accepted(call)
    ensures call.Threw? ==> t == ErrorToast(failureMessage)
    ensures ReportsError(call) ==> t == ErrorToast(call.reply.error)
    ensures call.Returned? && call.reply.Success? ==> t == SuccessToast(call.reply.message)
  {
    match call
    case Threw => ErrorToast(failureMessage)
    case Returned(reply) =>
      match reply
      case Failure(error) => if error != "" then ErrorToast(error) else SuccessToast("")
      case Success(message) => SuccessToast(message)
  }
}

=== FILE: discount_dialog.dfy ===
/** The add/edit discount dialog: the date order and the product choice are checked before the
    discount is created or updated; an existing discount can be deleted. */
module DiscountDialog {
  import opened Common
  import opened Session
  import opened Dialogs

  const EndBeforeStartError: string := "End date cannot be before start date"
  const NoProductError: string := "Please select a product"

  /** `endDate < startDate` on two `Date` objects. An invalid date (`None`) compares as `NaN`,
      so the test is false whenever either date is invalid. */
  predicate EndBeforeStart(start: Option<Date>, end: Option<Date>)
  {
    start.Some? && end.Some? && Before(end.value, start.value)
  }

  /** The checks of `handleSubmit`, in order: the date order first, then the product. */
  function CheckDiscount(start: Option<Date>, end: Option<Date>, productId: string): (r: Option<string>)
    ensures r == Some(EndBeforeStartError) <==> EndBeforeStart(start, end)
    ensures r == Some(NoProductError) <==> !EndBeforeStart(start, end) && productId == ""
    ensures r.None? <==> !EndBeforeStart(start, end) && productId != ""
  {
    if EndBeforeStart(start, end) then Some(EndBeforeStartError)
    else if productId == "" then Some(NoProductError)
    else None
  }

  /** `Before` is a strict order: a discount may start and end on the same day, and of two
      different days exactly one order is accepted. */
  lemma {:induction false} DateOrder(a: Date, b: Date)
    ensures !Before(a, a)
    ensures a != b ==> (Before(a, b) <==> !Before(b, a))
    ensures CheckDiscount(Some(a), Some(a), "p") == None
  {
  }

  /** A missing product is reported only once the dates are in order; an unreadable date never
      stops the submission. */
  lemma ChecksInOrder(start: Date, end: Date)
    ensures Before(end, start) ==> CheckDiscount(Some(start), Some(end), "") == Some(EndBeforeStartError)
    ensures CheckDiscount(None, Some(end), "p") == None && CheckDiscount(Some(start), None, "p") == None
  {
  }

  /** The discount being edited, as far as the dialog uses it. */
  datatype EditedDiscount = EditedDiscount(id: string, productId: string)

  datatype DiscountFields = DiscountFields(
    name: string, value: Option<real>, startDate: Option<Date>, endDate: Option<Date>, productId: string)

  /** The server action the dialog calls. */
  datatype DiscountRequest =
    | CreateDiscount(fields: DiscountFields)
    | UpdateDiscount(id: string, fields: DiscountFields)
    | DeleteDiscount(id: string)

  class AddEditDiscountDialog {
    const discount: Option<EditedDiscount>
    var open: bool
    var loading: bool
    var selectedProductId: string
    var toasts: seq<Toast>
    var requests: seq<DiscountRequest>

    /** The product choice starts from the edited discount's product, or empty. */
    constructor (open: bool, discount: Option<EditedDiscount>)
      ensures this.discount == discount && this.open == open && !loading && toasts == [] && requests == []
      ensures selectedProductId == if discount.Some? then discount.value.productId else ""
    {
      this.discount := discount;
      this.open := open;
      loading := false;
      selectedProductId := if discount.Some? then discount.value.productId else "";
      toasts := [];
      requests := [];
    }

    method SelectProduct(productId: string)
      modifies this`selectedProductId
      ensures selectedProductId == productId
    {
      selectedProductId := productId;
    }

    /** `handleSubmit`. A failed check shows its message and calls nothing; otherwise an edited
        discount is updated and a new one created, with the selected product, and the answer
        decides the toast and whether the dialog closes. */
    method HandleSubmit(formMounted: bool, name: string, value: Option<real>, start: Option<Date>, end: Option<Date>, call: Call)
      modifies this`open, this`loading, this`toasts, this`requests
      ensures !formMounted ==>
        open == old(open) && loading == old(loading) && toasts == old(toasts) && requests == old(requests)
      ensures formMounted ==> !loading
      ensures formMounted && CheckDiscount(start, end, selectedProductId).Some? ==>
        toasts == old(toasts) + [ErrorToast(CheckDiscount(start, end, selectedProductId).value)]
        && requests == old(requests) && open == old(open)
      ensures formMounted && CheckDiscount(start, end, selectedProductId).None? ==>
        var fields := DiscountFields(name, value, start, end, selectedProductId);
        requests == old(requests) + [if discount.Some? then UpdateDiscount(discount.value.id, fields) else CreateDiscount(fields)]
        && toasts == old(toasts) + [ResultToast(call, "Failed to save discount")]
        && open == (old(open) && !Accepted(call))
    {
      if !formMounted {
        return;
      }
      loading := true;
      var error := CheckDiscount(start, end, selectedProductId);
      if error.Some? {
        toasts := toasts + [ErrorToast(error.value)];
      } else {
        var fields := DiscountFields(name, value, start, end, selectedProductId);
        var request := if discount.Some? then UpdateDiscount(discount.value.id, fields) else CreateDiscount(fields);
        requests := requests + [request];
        toasts := toasts + [ResultToast(call, "Failed to save discount")];
        if Accepted(call) {
          open := false;
        }
      }
      loading := false;
    }

    /** `handleDelete`: nothing happens for a new discount; an edited one is deleted by id. */
    method HandleDelete(call: Call)
      modifies this`open, this`loading, this`toasts, this`requests
      ensures discount.None? ==>
        open == old(open) && loading == old(loading) && toasts == old(toasts) && requests == old(requests)
      ensures discount.Some? ==>
        !loading
        && requests == old(requests) + [DeleteDiscount(discount.value.id)]
        && toasts == old(toasts) + [ResultToast(call, "Failed to delete discount")]
        && open == (old(open) && !Accepted(call))
    {
      if discount.None? {
        return;
      }
      loading := true;
      requests := requests + [DeleteDiscount(discount.value.id)];
      toasts := toasts + [ResultToast(call, "Failed to delete discount")];
      if Accepted(call) {
        open := false;
      }
      loading := false;
    }
  }
}

=== FILE: employees.dfy ===
/** The employee table: creation with a retry loop for an unused employee number, and the
    organisation-scoped update and delete. */
module Employees {
  import opened Common
  import opened Session

  /** The form data of an employee (everything the caller supplies). */
  datatype EmployeeData = EmployeeData(
    name: string, email: string, imageUrl: Option<string>, dateOfBirth: Option<Date>,
    gender: Option<string>, address: Option<string>, phone: Option<string>, age: Option<int>,
    dateOfHire: Date, jobTitle: string, workSchedule: string, salary: real)

  /** Prisma's `update` with `{ ...data }`: an optional field the call leaves out (`None`, the
      only way the update type lets it be absent) keeps its stored value; every other field
      takes the given one. */
  function MergeEmployeeData(stored: EmployeeData, given: EmployeeData): (r: EmployeeData)
    ensures r.name == given.name && r.email == given.email && r.dateOfHire == given.dateOfHire
      && r.jobTitle == given.jobTitle && r.workSchedule == given.workSchedule && r.salary == given.salary
    ensures given.imageUrl.Some? ==> r.imageUrl == given.imageUrl
    ensures given.imageUrl.None? ==> r.imageUrl == stored.imageUrl
    ensures given.dateOfBirth.Some? ==> r.dateOfBirth == given.dateOfBirth
    ensures given.dateOfBirth.None? ==> r.dateOfBirth == stored.dateOfBirth
    ensures given.gender.Some? ==> r.gender == given.gender
    ensures given.gender.None? ==> r.gender == stored.gender
    ensures given.address.Some? ==> r.address == given.address
    ensures given.address.None? ==> r.address == stored.address
    ensures given.phone.Some? ==> r.phone == given.phone
    ensures given.phone.None? ==> r.phone == stored.phone
    ensures given.age.Some? ==> r.age == given.age
    ensures given.age.None? ==> r.age == stored.age
  {
    given.(imageUrl := Keep(stored.imageUrl, given.imageUrl),
           dateOfBirth := Keep(stored.dateOfBirth, given.dateOfBirth),
           gender := Keep(stored.gender, given.gender),
           address := Keep(stored.address, given.address),
           phone := Keep(stored.phone, given.phone),
           age := Keep(stored.age, given.age))
  }

  /** One optional field under `{ ...data }`: an absent value leaves the stored one. */
  function Keep<T>(stored: Option<T>, given: Option<T>): Option<T>
  {
    if given.Some? then given else stored
  }

  /** Every optional field is present. */
  predicate Complete(d: EmployeeData)
  {
    d.imageUrl.Some? && d.dateOfBirth.Some? && d.gender.Some? && d.address.Some? && d.phone.Some? && d.age.Some?
  }

  /** A call that gives every field replaces the stored data outright. */
  lemma MergeComplete(stored: EmployeeData, given: EmployeeData)
    requires Complete(given)
    ensures MergeEmployeeData(stored, given) == given
  {
  }

  /** Sending the same update twice is the same as sending it once. */
  lemma MergeIdempotent(stored: EmployeeData, given: EmployeeData)
    ensures MergeEmployeeData(MergeEmployeeData(stored, given), given) == MergeEmployeeData(stored, given)
  {
  }

  /** Stored data that is complete stays complete under any update. */
  lemma MergeKeepsComplete(stored: EmployeeData, given: EmployeeData)
    requires Complete(stored)
    ensures Complete(MergeEmployeeData(stored, given))
  {
  }

  /** One row: database id, organisation, the generated employee number and the data. */
  datatype Employee = Employee(id: nat, org: string, employeeId: string, data: EmployeeData)

  /** The `findFirst({ where: { employeeId, organizationId } })` filter. */
  predicate HoldsEmployeeId(e: Employee, employeeId: string, org: string)
  {
    e.employeeId == employeeId && e.org == org
  }

  predicate EmployeeIdTaken(rows: seq<Employee>, org: string, employeeId: string)
  {
    exists i :: 0 <= i < |rows| && HoldsEmployeeId(rows[i], employeeId, org)
  }

  /** The `findFirst({ where: { id, organizationId } })` filter of update and delete. */
  predicate IsOwnEmployee(e: Employee, id: nat, org: string)
  {
    e.id == id && e.org == org
  }

  /** Within each organisation, employee numbers are distinct. */
  predicate EmployeeIdsUniquePerOrg(rows: seq<Employee>)
  {
    forall i, j :: 0 <= i < j < |rows| && rows[i].org == rows[j].org ==> rows[i].employeeId != rows[j].employeeId
  }

  predicate UniqueIds(rows: seq<Employee>)
  {
    forall i, j :: 0 <= i < j < |rows| ==> rows[i].id != rows[j].id
  }

  /** The retry loop of `createEmployee`. The random generator is replaced by the sequence of
      numbers it would produce; the loop stops at the first one no employee of `org` holds. */
  method PickEmployeeId(rows: seq<Employee>, org: string, candidates: seq<string>) returns (employeeId: string, tries: nat)
    requires exists k :: 0 <= k < |candidates| && !EmployeeIdTaken(rows, org, candidates[k])
    ensures tries < |candidates| && employeeId == candidates[tries]
    ensures !EmployeeIdTaken(rows, org, employeeId)
    ensures forall k :: 0 <= k < tries ==> EmployeeIdTaken(rows, org, candidates[k])
  {
    ghost var free :| 0 <= free < |candidates| && !EmployeeIdTaken(rows, org, candidates[free]);
    tries := 0;
    employeeId := candidates[0];
    var isUnique := false;
    while !isUnique
      invariant tries <= free && employeeId == candidates[tries]
      invariant forall k :: 0 <= k < tries ==> EmployeeIdTaken(rows, org, candidates[k])
      invariant isUnique ==> !EmployeeIdTaken(rows, org, employeeId)
      decreases free - tries, !isUnique
    {
      var existing := IndexWhere((e: Employee) => HoldsEmployeeId(e, employeeId, org), rows);
      if existing.None? {
        isUnique := true;
      } else {
        tries := tries + 1;
        employeeId := candidates[tries];
      }
    }
  }

  /** A row of `org` holding an unused employee number keeps the numbers unique. */
  lemma {:induction false} AppendKeepsEmployeeIdsUnique(rows: seq<Employee>, e: Employee)
    requires EmployeeIdsUniquePerOrg(rows) && !EmployeeIdTaken(rows, e.org, e.employeeId)
    ensures EmployeeIdsUniquePerOrg(rows + [e])
  {
    var r := rows + [e];
    forall i, j | 0 <= i < j < |r| && r[i].org == r[j].org
      ensures r[i].employeeId != r[j].employeeId
    {
      assert r[i] == rows[i];
      if j < |rows| {
        assert r[j] == rows[j];
      } else {
        assert !HoldsEmployeeId(rows[i], e.employeeId, e.org);
      }
    }
  }

  /** The employee table. */
  class EmployeeTable {
    var rows: seq<Employee>
    var nextId: nat

    ghost predicate Valid()
      reads this
    {
      UniqueIds(rows) && EmployeeIdsUniquePerOrg(rows)
      && forall i :: 0 <= i < |rows| ==> rows[i].id < nextId
    }

    constructor ()
      ensures Valid() && rows == [] && nextId == 0
    {
      rows := [];
      nextId := 0;
    }

    /** `createEmployee`: the record is the input data plus the picked employee number,
        connected to the caller's organisation. */
    method CreateEmployee(user: Option<User>, data: EmployeeData, candidates: seq<string>) returns (reply: Reply)
      requires Valid()
      requires OrgGate(user).Proceed? ==>
        exists k :: 0 <= k < |candidates| && !EmployeeIdTaken(rows, OrgGate(user).org, candidates[k])
      modifies this`rows, this`nextId
      ensures Valid()
      ensures OrgGate(user).Deny? ==> reply == Failure("Unauthorized") && rows == old(rows) && nextId == old(nextId)
      ensures OrgGate(user).Proceed? ==>
        reply == Success("Employee created successfully")
        && |rows| == |old(rows)| + 1 && rows[..|old(rows)|] == old(rows)
        && rows[|old(rows)|].id == old(nextId) && rows[|old(rows)|].org == OrgGate(user).org
        && rows[|old(rows)|].data == data
        && rows[|old(rows)|].employeeId in candidates
        && !EmployeeIdTaken(old(rows), OrgGate(user).org, rows[|old(rows)|].employeeId)
        && nextId == old(nextId) + 1
    {
      if OrgGate(user).Deny? {
        return Failure("Unauthorized");
      }
      var org := OrgGate(user).org;
      var employeeId, _ := PickEmployeeId(rows, org, candidates);
      var employee := Employee(nextId, org, employeeId, data);
      AppendKeepsEmployeeIdsUnique(rows, employee);
      rows := rows + [employee];
      nextId := nextId + 1;
      reply := Success("Employee created successfully");
    }

    /** `updateEmployee`: only an employee of the caller's organisation is found; the given data
        is merged into its stored data (see `MergeEmployeeData`) and it stays in that
        organisation with its employee number. */
    method UpdateEmployee(user: Option<User>, id: nat, data: EmployeeData) returns (reply: Reply)
      requires Valid()
      modifies this`rows
      ensures Valid()
      ensures OrgGate(user).Deny? ==> reply == Failure("Unauthorized") && rows == old(rows)
      ensures (OrgGate(user).Proceed?
        && forall i :: 0 <= i < |old(rows)| ==> !IsOwnEmployee(old(rows)[i], id, OrgGate(user).org)) ==>
        reply == Failure("Employee not found") && rows == old(rows)
      ensures (OrgGate(user).Proceed?
        && exists i :: 0 <= i < |old(rows)| && IsOwnEmployee(old(rows)[i], id, OrgGate(user).org)) ==>
        reply == Success("Employee updated successfully")
        && |rows| == |old(rows)|
        && forall i :: 0 <= i < |rows| ==>
             if old(rows)[i].id == id then rows[i] == old(rows)[i].(data := MergeEmployeeData(old(rows)[i].data, data)) && rows[i].org == OrgGate(user).org
             else rows[i] == old(rows)[i]
    {
      if OrgGate(user).Deny? {
        return Failure("Unauthorized");
      }
      var org := OrgGate(user).org;
      var found := IndexWhere((e: Employee) => IsOwnEmployee(e, id, org), rows);
      if found.None? {
        return Failure("Employee not found");
      }
      var k := found.value;
      rows := rows[k := rows[k].(data := MergeEmployeeData(rows[k].data, data), org := org)];
      reply := Success("Employee updated successfully");
    }

    /** `deleteEmployee`: exactly the caller's employee with that id is removed. */
    method DeleteEmployee(user: Option<User>, id: nat) returns (reply: Reply)
      requires Valid()
      modifies this`rows
      ensures Valid()
      ensures OrgGate(user).Deny? ==> reply == Failure("Unauthorized") && rows == old(rows)
      ensures (OrgGate(user).Proceed?
        && forall i :: 0 <= i < |old(rows)| ==> !IsOwnEmployee(old(rows)[i], id, OrgGate(user).org)) ==>
        reply == Failure("Employee not found") && rows == old(rows)
      ensures (OrgGate(user).Proceed?
        && exists i :: 0 <= i < |old(rows)| && IsOwnEmployee(old(rows)[i], id, OrgGate(user).org)) ==>
        reply == Success("Employee deleted successfully")
        && (exists k :: 0 <= k < |old(rows)| && old(rows)[k].id == id && rows == RemoveAt(old(rows), k))
        && forall i :: 0 <= i < |rows| ==> rows[i].id != id
    {
      if OrgGate(user).Deny? {
        return Failure("Unauthorized");
      }
      var org := OrgGate(user).org;
      var found := IndexWhere((e: Employee) => IsOwnEmployee(e, id, org), rows);
      if found.None? {
        return Failure("Employee not found");
      }
      var k := found.value;
      var r := RemoveAt(rows, k);
      assert forall i :: 0 <= i < |r| ==> r[i] == rows[if i < k then i else i + 1];
      rows := r;
      reply := Success("Employee deleted successfully");
    }
  }
}

=== FILE: feedback_dialog.dfy ===
/** The add-feedback dialog: the rating is read with `parseInt` and range-checked before the
    feedback is sent. */
module FeedbackDialog {
  import opened Common
  import opened Session
  import opened Dialogs

  predicate IsDigit(c: char)
  {
    '0' <= c <= '9'
  }

  /** The length of the run of decimal digits at the start of `s`. */
  function DigitCount(s: string): (n: nat)
    ensures n <= |s|
    ensures forall i :: 0 <= i < n ==> IsDigit(s[i])
    ensures n < |s| ==> !IsDigit(s[n])
  {
    if s != [] && IsDigit(s[0]) then 1 + DigitCount(s[1..]) else 0
  }

  /** The value of a run of decimal digits. */
  function DigitsValue(ds: string): nat
    requires forall i :: 0 <= i < |ds| ==> IsDigit(ds[i])
    decreases |ds|
  {
    if ds == [] then 0
    else
      assert IsDigit(ds[|ds| - 1]);
      DigitsValue(ds[..|ds| - 1]) * 10 + (ds[|ds| - 1] as int - '0' as int)
  }

  /** What follows the leading whitespace and an optional sign. */
  function Unsigned(s: string): string
  {
    var t := TrimStart(s);
    if t != [] && (t[0] == '-' || t[0] == '+') then t[1..] else t
  }

  predicate Negative(s: string)
  {
    var t := TrimStart(s);
    t != [] && t[0] == '-'
  }

  /** `parseInt(s)` in base ten: leading whitespace and a sign are skipped, then the longest run
      of digits is read and the rest ignored. `None` stands for `NaN` (no digit at all). */
  function ParseInt(s: string): (r: Option<int>)
    ensures r.None? <==> DigitCount(Unsigned(s)) == 0
  {
    var body := Unsigned(s);
    var n := DigitCount(body);
    if n == 0 then None
    else
      var value: int := DigitsValue(body[..n]);
      Some(if Negative(s) then -value else value)
  }

  function DigitChar(d: nat): (c: char)
    requires d < 10
    ensures IsDigit(c)
  {
    ('0' as int + d) as char
  }

  /** The decimal numeral of `n`, without leading zeros. */
  function Decimal(n: nat): (r: string)
    ensures r != [] && forall i :: 0 <= i < |r| ==> IsDigit(r[i])
  {
    if n < 10 then [DigitChar(n)] else Decimal(n / 10) + [DigitChar(n % 10)]
  }

  lemma {:induction false} DecimalValue(n: nat)
    ensures DigitsValue(Decimal(n)) == n
  {
    if n >= 10 {
      var ds := Decimal(n);
      assert ds[..|ds| - 1] == Decimal(n / 10);
      DecimalValue(n / 10);
    }
  }

  lemma {:induction false} DigitCountOfNumeral(ds: string, rest: string)
    requires forall i :: 0 <= i < |ds| ==> IsDigit(ds[i])
    requires rest == [] || !IsDigit(rest[0])
    ensures DigitCount(ds + rest) == |ds|
  {
    if ds != [] {
      assert (ds + rest)[1..] == ds[1..] + rest;
      DigitCountOfNumeral(ds[1..], rest);
    }
  }

  /** `parseInt` reads back a numeral, with or without a minus sign, and ignores whatever follows
      it from the first non-digit on: "7.5" and "1e1" read as 7 and 1. */
  lemma {:induction false} ParseIntReadsNumeral(n: nat, rest: string)
    requires rest == [] || !IsDigit(rest[0])
    ensures ParseInt(Decimal(n) + rest) == Some(n)
    ensures ParseInt("-" + Decimal(n) + rest) == Some(-(n as int))
  {
    var ds := Decimal(n);
    DigitCountOfNumeral(ds, rest);
    DecimalValue(n);
    assert (ds + rest)[..|ds|] == ds;
    assert TrimStart(ds + rest) == ds + rest by {
      assert (ds + rest)[0] == ds[0];
    }
    var m := "-" + ds + rest;
    assert TrimStart(m) == m && m[1..] == ds + rest;
  }

  /** Text without any digit after the whitespace and the sign reads as `NaN`. */
  lemma ParseIntNaN()
    ensures ParseInt("") == None
    ensures ParseInt("abc") == None
    ensures ParseInt(" -") == None
  {
    assert TrimStart(" -") == "-";
  }

  const RatingRangeError: string := "Rating must be between 1 and 10"

  /** `rating < 1 || rating > 10`. Both comparisons are false for `NaN`. */
  predicate RatingOutOfRange(rating: Option<int>)
  {
    rating.Some? && (rating.value < 1 || rating.value > 10)
  }

  /** A typed numeral passes the check exactly when it lies in 1..10, and text without digits
      is not caught by it. */
  lemma RatingCheck(n: nat, rest: string)
    requires rest == [] || !IsDigit(rest[0])
    ensures !RatingOutOfRange(ParseInt(Decimal(n) + rest)) <==> 1 <= n <= 10
    ensures !RatingOutOfRange(ParseInt("-" + Decimal(n) + rest)) <==> false
    ensures !RatingOutOfRange(ParseInt(""))
  {
    ParseIntReadsNumeral(n, rest);
    if n == 0 {
      assert ParseInt("-" + Decimal(n) + rest) == Some(0);
    }
  }

  /** What `createFeedback` is called with. */
  datatype FeedbackRequest = FeedbackRequest(name: string, phone: string, rating: Option<int>, feedback: string)

  class AddFeedbackDialog {
    var open: bool
    var loading: bool
    var toasts: seq<Toast>
    /** The `createFeedback` calls made so far. */
    var requests: seq<FeedbackRequest>
    /** How often the form was reset. */
    var resets: nat

    constructor (open: bool)
      ensures this.open == open && !loading && toasts == [] && requests == [] && resets == 0
    {
      this.open := open;
      loading := false;
      toasts := [];
      requests := [];
      resets := 0;
    }

    /** `handleSubmit`. `formMounted` is `formRef.current != null`; `call` is what awaiting
        `createFeedback` gives. An out-of-range rating is reported without calling the server;
        otherwise the server's answer decides the toast, and an accepted answer closes the dialog
        and resets the form. */
    method HandleSubmit(formMounted: bool, name: string, phone: string, ratingText: string, feedback: string, call: Call)
      modifies this`open, this`loading, this`toasts, this`requests, this`resets
      ensures !formMounted ==>
        open == old(open) && loading == old(loading) && toasts == old(toasts)
        && requests == old(requests) && resets == old(resets)
      ensures formMounted ==> !loading
      ensures formMounted && RatingOutOfRange(ParseInt(ratingText)) ==>
        toasts == old(toasts) + [ErrorToast(RatingRangeError)]
        && requests == old(requests) && open == old(open) && resets == old(resets)
      ensures formMounted && !RatingOutOfRange(ParseInt(ratingText)) ==>
        requests == old(requests) + [FeedbackRequest(name, phone, ParseInt(ratingText), feedback)]
        && toasts == old(toasts) + [ResultToast(call, "Failed to create feedback")]
        && open == (old(open) && !Accepted(call))
        && resets == old(resets) + (if Accepted(call) then 1 else 0)
    {
      if !formMounted {
        return;
      }
      loading := true;
      var rating := ParseInt(ratingText);
      if RatingOutOfRange(rating) {
        toasts := toasts + [ErrorToast(RatingRangeError)];
      } else {
        requests := requests + [FeedbackRequest(name, phone, rating, feedback)];
        toasts := toasts + [ResultToast(call, "Failed to create feedback")];
        if Accepted(call) {
          open := false;
          resets := resets + 1;
        }
      }
      loading := false;
    }
  }
}

=== FILE: feedback_table.dfy ===
/** The feedback table: rows expand and collapse on click, and long feedback is shortened in
    the collapsed row. */
module FeedbackTable {
  import opened Common

  datatype Feedback = Feedback(id: string, name: string, phone: string, rating: int, feedback: string)

  /** Longest feedback shown in full in the collapsed row. */
  const PreviewLength: nat := 100

  /** The set of expanded rows after a click on row `id`. */
  function Toggled(expanded: set<string>, id: string): (r: set<string>)
    ensures id in r <==> id !in expanded
    ensures forall x :: x != id ==> (x in r <==> x in expanded)
  {
    if id in expanded then expanded - {id} else expanded + {id}
  }

  /** Two clicks on the same row restore the previous state. */
  lemma ToggleTwice(expanded: set<string>, id: string)
    ensures Toggled(Toggled(expanded, id), id) == expanded
  {
  }

  /** Clicks on different rows commute. */
  lemma TogglesCommute(expanded: set<string>, a: string, b: string)
    ensures Toggled(Toggled(expanded, a), b) == Toggled(Toggled(expanded, b), a)
  {
  }

  /** `truncateFeedback`: feedback of at most 100 characters is kept; longer feedback becomes its
      first 100 characters followed by "...". */
  function Truncate(feedback: string): (r: string)
    ensures |feedback| <= PreviewLength ==> r == feedback
    ensures |feedback| > PreviewLength ==>
      |r| == PreviewLength + 3 && r[..PreviewLength] == feedback[..PreviewLength] && r[PreviewLength..] == "..."
  {
    if |feedback| > PreviewLength then feedback[..PreviewLength] + "..." else feedback
  }

  /** The preview is never longer than 103 characters and always starts like the feedback. */
  lemma TruncateBounds(feedback: string)
    ensures |Truncate(feedback)| <= PreviewLength + 3
    ensures |Truncate(feedback)| <= |feedback| + 3
    ensures StartsWith(Truncate(feedback), SliceTo(feedback, PreviewLength))
  {
  }

  /** The two rendered rows of one feedback: the summary row and the detail row. */
  datatype FeedbackRows = FeedbackRows(
    chevronDown: bool, name: string, phone: string, rating: int, preview: string,
    detailHidden: bool, detail: string)

  /** The rows of one feedback. */
  function RowsOf(f: Feedback, expanded: set<string>): (r: FeedbackRows)
    ensures r.chevronDown <==> !r.detailHidden
    ensures r.detailHidden <==> f.id !in expanded
    ensures r.detail == f.feedback
  {
    FeedbackRows(f.id in expanded, f.name, f.phone, f.rating, Truncate(f.feedback), f.id !in expanded, f.feedback)
  }

  /** The feedback table. */
  class FeedbackTable {
    const feedbacks: seq<Feedback>
    var expandedRows: set<string>

    constructor (feedbacks: seq<Feedback>)
      ensures this.feedbacks == feedbacks && expandedRows == {}
      ensures forall i :: 0 <= i < |feedbacks| ==> Render()[i].detailHidden
    {
      this.feedbacks := feedbacks;
      expandedRows := {};
    }

    function Render(): (rows: seq<FeedbackRows>)
      reads this
      ensures |rows| == |feedbacks|
      ensures forall i :: 0 <= i < |feedbacks| ==> rows[i] == RowsOf(feedbacks[i], expandedRows)
    {
      var expanded := expandedRows;
      seq(|feedbacks|, i requires 0 <= i < |feedbacks| => RowsOf(feedbacks[i], expanded))
    }

    /** `toggleRow`: the clicked row changes between expanded and collapsed, every row with
        another id keeps its state. */
    method ToggleRow(id: string)
      modifies this`expandedRows
      ensures expandedRows == Toggled(old(expandedRows), id)
      ensures forall i :: 0 <= i < |feedbacks| ==>
        if feedbacks[i].id == id then Render()[i].detailHidden != old(Render())[i].detailHidden
        else Render()[i] == old(Render())[i]
    {
      var next := expandedRows;
      if id in next {
        next := next - {id};
      } else {
        next := next + {id};
      }
      expandedRows := next;
    }
  }
}

=== FILE: image_upload.dfy ===
/** The image-replacement steps shared by the profile and business dialogs: which URL is saved
    and when the previous image is deleted. */
module ImageUpload {
  import opened Common

  /** Posting the selected file to the upload route: the public path it answers with, or a
      failure (a non-OK response or a thrown fetch). */
  datatype UploadOutcome = Uploaded(path: string) | UploadFailed

  /** The previous image is deleted when there is one (a non-empty URL) and the upload gave a
      different path. */
  predicate ReplacesOld(current: Option<string>, uploadedPath: string)
  {
    current.Some? && current.value != "" && current.value != uploadedPath
  }

  /** The image URL after the upload step: the uploaded path when a file was selected, else the
      current URL. */
  function NewImageUrl(current: Option<string>, fileSelected: bool, upload: UploadOutcome): (url: Option<string>)
    requires fileSelected ==> upload.Uploaded?
    ensures fileSelected ==> url == Some(upload.path)
    ensures !fileSelected ==> url == current
  {
    if fileSelected then Some(upload.path) else current
  }

  /** `if (uploadedImageUrl) formData.append("imageUrl", uploadedImageUrl)`: the field is sent only
      for a non-empty URL; the server then reads a missing field as `null`. */
  function FormImageUrl(url: Option<string>): (field: Option<string>)
    ensures field.Some? <==> url.Some? && url.value != ""
    ensures field.Some? ==> field == url
  {
    if url.Some? && url.value != "" then url else None
  }

  /** The deleted image is never the one just uploaded, and without a selected file nothing is
      deleted and the current URL is sent again (when it is non-empty). */
  lemma ReplacementRules(current: Option<string>, fileSelected: bool, upload: UploadOutcome)
    requires fileSelected ==> upload.Uploaded?
    ensures fileSelected && ReplacesOld(current, upload.path) ==> NewImageUrl(current, fileSelected, upload) != current
    ensures !fileSelected ==> FormImageUrl(NewImageUrl(current, fileSelected, upload)) == FormImageUrl(current)
    ensures fileSelected && upload.path != "" ==> FormImageUrl(NewImageUrl(current, fileSelected, upload)) == Some(upload.path)
  {
  }
}

=== FILE: inventory.dfy ===
/** The inventory page: a category filter over the products and the empty-state message. */
module Inventory {
  import opened Common
  import opened SalesClient

  predicate InCategory(p: Product, categoryId: string): (r: bool)
    ensures r ==> p.category.Some?
  {
    p.category.Some? && p.category.value.id == categoryId
  }

  /** The products shown for a selection: all of them when nothing is selected, otherwise those
      whose category has the selected id, in their order. Products without a category are
      shown only when nothing is selected. */
  function FilterByCategory(products: seq<Product>, selected: Option<string>): (r: seq<Product>)
    ensures selected.None? ==> r == products
    ensures selected.Some? ==> forall p :: p in r <==> p in products && InCategory(p, selected.value)
    ensures IsSubsequence(r, products)
  {
    SubsequenceReflexive(products);
    match selected
    case None => products
    case Some(c) =>
      FilterIsSubsequence(p => InCategory(p, c), products);
      Filter(p => InCategory(p, c), products)
  }

  /** The page body: the product list, or an empty state with its two lines of text. */
  datatype InventoryView = ProductList(products: seq<Product>) | EmptyState(title: string, hint: string)

  /** The texts follow the truthiness of the selection: an empty category id reads as "no
      category" in the message even though the list was filtered by it. */
  function Render(filtered: seq<Product>, selected: Option<string>): (v: InventoryView)
    ensures v.ProductList? <==> filtered != []
    ensures v.ProductList? ==> v.products == filtered
    ensures v.EmptyState? ==>
      (v.title == "No Products in this Category" <==> selected.Some? && selected.value != "")
  {
    if filtered != [] then ProductList(filtered)
    else if selected.Some? && selected.value != "" then
      EmptyState("No Products in this Category", "Try selecting a different category or adding new products.")
    else
      EmptyState("No Products in the Inventory", "Click the Add Product button to get started")
  }

  /** With no category selected the empty state appears only for an empty inventory. */
  lemma EmptyInventoryMessage(products: seq<Product>)
    ensures Render(FilterByCategory(products, None), None).EmptyState? <==> products == []
    ensures products == [] ==>
      Render(FilterByCategory(products, None), None) ==
        EmptyState("No Products in the Inventory", "Click the Add Product button to get started")
  {
  }

  /** A selected category with no products shows the category message, never the product list. */
  lemma EmptyCategoryMessage(products: seq<Product>, categoryId: string)
    requires categoryId != ""
    requires forall p :: p in products ==> !InCategory(p, categoryId)
    ensures Render(FilterByCategory(products, Some(categoryId)), Some(categoryId)) ==
      EmptyState("No Products in this Category", "Try selecting a different category or adding new products.")
  {
    FilterDropsAll(p => InCategory(p, categoryId), products);
  }

  /** The inventory page. The effect on `selectedCategory` is modelled as part of selecting. */
  class InventoryClientPage {
    const initialProducts: seq<Product>
    var selectedCategory: Option<string>
    var filteredProducts: seq<Product>

    ghost predicate Valid()
      reads this
    {
      filteredProducts == FilterByCategory(initialProducts, selectedCategory)
    }

    constructor (initialProducts: seq<Product>)
      ensures Valid()
      ensures this.initialProducts == initialProducts && selectedCategory == None
      ensures filteredProducts == initialProducts
    {
      this.initialProducts := initialProducts;
      selectedCategory := None;
      filteredProducts := initialProducts;
    }

    function View(): InventoryView
      reads this
    {
      Render(filteredProducts, selectedCategory)
    }

    /** `onSelectCategory` followed by the effect it triggers. */
    method SelectCategory(categoryId: Option<string>)
      modifies this`selectedCategory, this`filteredProducts
      ensures Valid()
      ensures selectedCategory == categoryId
      ensures categoryId.None? ==> filteredProducts == initialProducts
      ensures categoryId.Some? ==>
        forall p :: p in filteredProducts <==> p in initialProducts && InCategory(p, categoryId.value)
    {
      selectedCategory := categoryId;
      if categoryId == None {
        filteredProducts := initialProducts;
      } else {
        filteredProducts := Filter(p => InCategory(p, categoryId.value), initialProducts);
      }
    }
  }
}

=== FILE: middleware.dfy ===
/** The request middleware: which requests pass, which are sent to the dashboard and which to
    the login page, from the path, the `token` cookie and the outcome of verifying it. */
module Middleware {
  import opened Common

  /** What verifying the token gives: a payload, `null`, or an exception. */
  datatype VerifyOutcome = Payload | NullPayload | VerifyThrows

  /** `NextResponse.next()`, or a redirect that may set the `token` cookie. */
  datatype Decision = Next | Redirect(location: string, setsToken: Option<string>)

  predicate IsApiPath(path: string)
  {
    StartsWith(path, "/api/")
  }

  predicate IsPublicPath(path: string)
  {
    StartsWith(path, "/auth/")
  }

  /** A cookie value is truthy when present and non-empty. */
  predicate Truthy(token: Option<string>)
  {
    token.Some? && token.value != ""
  }

  /** The token is present and verifies to a payload. `verify` is consulted only for a
      truthy token, so its outcome is irrelevant otherwise. */
  predicate Authenticated(token: Option<string>, verify: VerifyOutcome)
  {
    Truthy(token) && verify == Payload
  }

  /** The middleware's decision. */
  function Decide(path: string, token: Option<string>, verify: VerifyOutcome): (d: Decision)
    ensures d == Next <==> IsApiPath(path) || (IsPublicPath(path) != Authenticated(token, verify))
    ensures d.Redirect? ==> (d.location == "/" <==> IsPublicPath(path))
    ensures d.Redirect? && d.setsToken.Some? ==> d.location == "/" && d.setsToken == token
  {
    if IsApiPath(path) then Next
    else if IsPublicPath(path) then
      if Truthy(token) then
        match verify
        case Payload => Redirect("/", token)
        case NullPayload => Next
        case VerifyThrows => Next
      else Next
    else if !Truthy(token) then Redirect("/auth/login", None)
    else
      match verify
      case Payload => Next
      case NullPayload => Redirect("/auth/login", None)
      case VerifyThrows => Redirect("/auth/login", None)
  }

  /** The decision table: API paths always pass; a public path sends an authenticated visitor to
      the dashboard (keeping the cookie) and lets anyone else through; a protected path lets an
      authenticated visitor through and sends anyone else to the login page. */
  lemma DecisionTable(path: string, token: Option<string>, verify: VerifyOutcome)
    ensures IsApiPath(path) ==> Decide(path, token, verify) == Next
    ensures !IsApiPath(path) && IsPublicPath(path) ==>
      Decide(path, token, verify) == if Authenticated(token, verify) then Redirect("/", token) else Next
    ensures !IsApiPath(path) && !IsPublicPath(path) ==>
      Decide(path, token, verify) == if Authenticated(token, verify) then Next else Redirect("/auth/login", None)
  {
  }

  /** Only the two redirect targets ever occur, and only the dashboard redirect sets the cookie. */
  lemma RedirectTargets(path: string, token: Option<string>, verify: VerifyOutcome)
    ensures Decide(path, token, verify).Redirect? ==>
      Decide(path, token, verify) in {Redirect("/", token), Redirect("/auth/login", None)}
  {
  }

  /** Following a redirect with the same cookie and the same verification outcome is let through:
      the middleware never redirects twice in a row. */
  lemma {:induction false} NoRedirectLoop(path: string, token: Option<string>, verify: VerifyOutcome)
    requires Decide(path, token, verify).Redirect?
    ensures Decide(Decide(path, token, verify).location, token, verify) == Next
  {
    var d := Decide(path, token, verify);
    if d.location == "/" {
      assert !IsApiPath("/") && !IsPublicPath("/");
    } else {
      assert "/auth/login"[..6] == "/auth/";
      assert "/auth/login"[..5][2] != "/api/"[2];
    }
  }

  /** "Public" is a prefix test on "/auth/": "/auth" itself is protected. */
  lemma AuthWithoutSlashIsProtected(verify: VerifyOutcome)
    ensures Decide("/auth", None, verify) == Redirect("/auth/login", None)
    ensures Decide("/auth/login", None, verify) == Next
  {
    assert "/auth"[..5][2] != "/api/"[2];
    assert "/auth/login"[..6] == "/auth/";
    assert "/auth/login"[..5][2] != "/api/"[2];
  }
}

=== FILE: navigation.dfy ===
/** The sidebars: which menu a user sees and which entry is highlighted for the current path. */
module Navigation {
  import opened Common
  import opened Session

  datatype NavItem = NavItem(title: string, href: string)

  /** The menu of the dashboard sidebar for everyone who is not a cashier. */
  const AdminNavItems: seq<NavItem> := [
    NavItem("Dashboard", "/"),
    NavItem("Sales Summary", "/sales"),
    NavItem("Sales Report", "/report"),
    NavItem("Inventory Management", "/inventory"),
    NavItem("Employee Management", "/employee"),
    NavItem("Customer Management", "/customer"),
    NavItem("Settings", "/settings")
  ]

  /** The menu of the dashboard sidebar for cashiers. */
  const CashierNavItems: seq<NavItem> := [
    NavItem("Sales Screen", "/"),
    NavItem("Customer Management", "/cashier/customer"),
    NavItem("Due Balance", "/due"),
    NavItem("Settings", "/settings")
  ]

  /** The fixed menu of the older, role-independent sidebar. */
  const AppNavItems: seq<NavItem> := [
    NavItem("Sales Summary", "/"),
    NavItem("Sales Report", "/report"),
    NavItem("Inventory Management", "/inventory"),
    NavItem("Employee Management", "/employee"),
    NavItem("Customer Management", "/customer"),
    NavItem("Settings", "/settings")
  ]

  predicate Offers(items: seq<NavItem>, href: string)
  {
    exists i :: 0 <= i < |items| && items[i].href == href
  }

  /** `user?.role === "CASHIER" ? cashierNavItems : adminNavItems`. */
  function NavItemsFor(user: Option<User>): (items: seq<NavItem>)
    ensures items == CashierNavItems <==> user.Some? && user.value.role == "CASHIER"
    ensures items == AdminNavItems <==> !(user.Some? && user.value.role == "CASHIER")
  {
    if user.Some? && user.value.role == "CASHIER" then CashierNavItems else AdminNavItems
  }

  /** The menus differ in what they offer: only the cashier menu has the due-balance page, and
      it has neither inventory nor employee management. A missing user gets the full menu. */
  lemma MenusByRole(user: Option<User>)
    ensures Offers(NavItemsFor(user), "/due") <==> user.Some? && user.value.role == "CASHIER"
    ensures Offers(NavItemsFor(user), "/inventory") <==> !(user.Some? && user.value.role == "CASHIER")
    ensures Offers(NavItemsFor(user), "/employee") <==> !(user.Some? && user.value.role == "CASHIER")
    ensures NavItemsFor(None) == AdminNavItems
  {
    assert AdminNavItems[3].href == "/inventory" && AdminNavItems[4].href == "/employee";
    assert CashierNavItems[2].href == "/due";
    assert !Offers(AdminNavItems, "/due") by {
      forall i | 0 <= i < |AdminNavItems| ensures AdminNavItems[i].href != "/due" {
        assert |AdminNavItems[i].href| == 1 || AdminNavItems[i].href[1] != 'd';
      }
    }
    assert !Offers(CashierNavItems, "/inventory") && !Offers(CashierNavItems, "/employee") by {
      forall i | 0 <= i < |CashierNavItems|
        ensures CashierNavItems[i].href != "/inventory" && CashierNavItems[i].href != "/employee"
      {
        assert |CashierNavItems[i].href| == 1
          || (CashierNavItems[i].href[1] != 'i' && CashierNavItems[i].href[1] != 'e');
      }
    }
  }

  /** The highlighting rule: the root entry only on the root path, any other entry on every
      path that starts with its `href`. */
  predicate IsActive(href: string, pathname: string): (r: bool)
    ensures r ==> StartsWith(pathname, href)
    ensures r && href != "" ==> pathname != ""
  {
    if href == "/" then pathname == "/" else StartsWith(pathname, href)
  }

  /** `usePathname() || ""`. */
  function CurrentPath(pathname: Option<string>): string
  {
    if pathname.Some? then pathname.value else ""
  }

  /** The highlight of each rendered entry, in menu order. */
  function ActiveFlags(items: seq<NavItem>, pathname: Option<string>): (r: seq<bool>)
    ensures |r| == |items|
  {
    seq(|items|, i requires 0 <= i < |items| => IsActive(items[i].href, CurrentPath(pathname)))
  }

  /** No `href` is empty, no two are equal, and no entry other than the root is a prefix of
      another entry other than the root. */
  predicate DistinctRoutes(items: seq<NavItem>)
  {
    (forall i :: 0 <= i < |items| ==> items[i].href != "")
    && forall i, j :: 0 <= i < |items| && 0 <= j < |items| && i != j ==>
         items[i].href != items[j].href
         && (items[i].href == "/" || items[j].href == "/" || !StartsWith(items[j].href, items[i].href))
  }

  /** With distinct routes at most one entry is highlighted, whatever the path. */
  lemma {:induction false} AtMostOneActive(items: seq<NavItem>, pathname: Option<string>)
    requires DistinctRoutes(items)
    ensures forall i, j :: (0 <= i < |items| && 0 <= j < |items|
      && ActiveFlags(items, pathname)[i] && ActiveFlags(items, pathname)[j]) ==> i == j
  {
    var p := CurrentPath(pathname);
    var flags := ActiveFlags(items, pathname);
    forall i, j | 0 <= i < |items| && 0 <= j < |items| && flags[i] && flags[j]
      ensures i == j
    {
      var a, b := items[i].href, items[j].href;
      if i != j && a != "/" && b != "/" {
        if |a| <= |b| {
          CommonPrefixes(p, a, b);
        } else {
          CommonPrefixes(p, b, a);
        }
      }
    }
  }

  /** Until the router reports a path, nothing is highlighted. */
  lemma NothingActiveWithoutPath(items: seq<NavItem>)
    requires forall i :: 0 <= i < |items| ==> items[i].href != ""
    ensures forall i :: 0 <= i < |items| ==> !ActiveFlags(items, None)[i]
  {
  }

  /** Highlighting is a plain prefix test: "/customers" highlights "/customer". */
  lemma PrefixHighlight()
    ensures ActiveFlags(AdminNavItems, Some("/customers"))[5]
    ensures !ActiveFlags(AdminNavItems, Some("/customers"))[0]
  {
    assert "/customers"[..|"/customer"|] == "/customer";
  }

  /** Two non-root routes neither of which is a prefix of the other. */
  predicate Unrelated(a: string, b: string)
  {
    a != b && (a == "/" || b == "/" || (!StartsWith(a, b) && !StartsWith(b, a)))
  }

  predicate UnrelatedToAll(a: string, hs: seq<string>)
  {
    forall k :: 0 <= k < |hs| ==> Unrelated(a, hs[k])
  }

  /** Pairwise unrelated routes, checked one route against the ones after it. */
  predicate PairwiseUnrelated(hs: seq<string>)
    decreases |hs|
  {
    |hs| == 0 || (UnrelatedToAll(hs[0], hs[1..]) && PairwiseUnrelated(hs[1..]))
  }

  function Hrefs(items: seq<NavItem>): (hs: seq<string>)
    ensures |hs| == |items| && forall i :: 0 <= i < |items| ==> hs[i] == items[i].href
  {
    seq(|items|, i requires 0 <= i < |items| => items[i].href)
  }

  lemma {:induction false} PairwiseUnrelatedAt(hs: seq<string>, i: nat, j: nat)
    requires PairwiseUnrelated(hs) && i < j < |hs|
    ensures Unrelated(hs[i], hs[j])
    decreases i
  {
    if i == 0 {
      assert hs[j] == hs[1..][j - 1];
    } else {
      PairwiseUnrelatedAt(hs[1..], i - 1, j - 1);
    }
  }

  /** Non-empty, pairwise unrelated routes are distinct routes. */
  lemma DistinctRoutesFromPairs(items: seq<NavItem>)
    requires forall i :: 0 <= i < |items| ==> items[i].href != ""
    requires PairwiseUnrelated(Hrefs(items))
    ensures DistinctRoutes(items)
  {
    var hs := Hrefs(items);
    forall i, j | 0 <= i < |items| && 0 <= j < |items| && i != j
      ensures Unrelated(hs[i], hs[j])
    {
      if i < j {
        PairwiseUnrelatedAt(hs, i, j);
      } else {
        PairwiseUnrelatedAt(hs, j, i);
      }
    }
  }

  /** Two routes that differ at some position are unrelated. */
  lemma DifferAt(a: string, b: string, k: nat)
    requires k < |a| && k < |b| && a[k] != b[k]
    ensures Unrelated(a, b)
  {
    assert |b| > |a| || a[..|b|][k] != b[k];
    assert |a| > |b| || b[..|a|][k] != a[k];
  }

  /** A route unrelated to every later route extends a pairwise-unrelated list. */
  lemma ConsUnrelated(h: string, rest: seq<string>)
    requires UnrelatedToAll(h, rest) && PairwiseUnrelated(rest)
    ensures PairwiseUnrelated([h] + rest)
  {
    assert ([h] + rest)[1..] == rest;
  }

  /** Each menu has distinct routes, so it highlights at most one entry. */
  lemma AdminRoutesDistinct()
    ensures DistinctRoutes(AdminNavItems)
  {
    assert Hrefs(AdminNavItems) == ["/", "/sales", "/report", "/inventory", "/employee", "/customer", "/settings"];
    AdminRoutesUnrelated();
    DistinctRoutesFromPairs(AdminNavItems);
  }

  /** The routes of the admin menu, compared pairwise at their first differing character. */
  lemma AdminRoutesUnrelated()
    ensures PairwiseUnrelated(["/", "/sales", "/report", "/inventory", "/employee", "/customer", "/settings"])
  {
    assert PairwiseUnrelated(["/settings"]);
    DifferAt("/customer", "/settings", 1);
    ConsUnrelated("/customer", ["/settings"]);
    assert ["/customer"] + ["/settings"] == ["/customer", "/settings"];
    DifferAt("/employee", "/customer", 1);
    DifferAt("/employee", "/settings", 1);
    ConsUnrelated("/employee", ["/customer", "/settings"]);
    assert ["/employee"] + ["/customer", "/settings"] == ["/employee", "/customer", "/settings"];
    DifferAt("/inventory", "/employee", 1);
    DifferAt("/inventory", "/customer", 1);
    DifferAt("/inventory", "/settings", 1);
    ConsUnrelated("/inventory", ["/employee", "/customer", "/settings"]);
    assert ["/inventory"] + ["/employee", "/customer", "/settings"] == ["/inventory", "/employee", "/customer", "/settings"];
    DifferAt("/report", "/inventory", 1);
    DifferAt("/report", "/employee", 1);
    DifferAt("/report", "/customer", 1);
    DifferAt("/report", "/settings", 1);
    ConsUnrelated("/report", ["/inventory", "/employee", "/customer", "/settings"]);
    assert ["/report"] + ["/inventory", "/employee", "/customer", "/settings"] == ["/report", "/inventory", "/employee", "/customer", "/settings"];
    DifferAt("/sales", "/report", 1);
    DifferAt("/sales", "/inventory", 1);
    DifferAt("/sales", "/employee", 1);
    DifferAt("/sales", "/customer", 1);
    DifferAt("/sales", "/settings", 2);
    ConsUnrelated("/sales", ["/report", "/inventory", "/employee", "/customer", "/settings"]);
    assert ["/sales"] + ["/report", "/inventory", "/employee", "/customer", "/settings"] == ["/sales", "/report", "/inventory", "/employee", "/customer", "/settings"];
    ConsUnrelated("/", ["/sales", "/report", "/inventory", "/employee", "/customer", "/settings"]);
    assert ["/"] + ["/sales", "/report", "/inventory", "/employee", "/customer", "/settings"] == ["/", "/sales", "/report", "/inventory", "/employee", "/customer", "/settings"];
  }

  lemma CashierRoutesDistinct()
    ensures DistinctRoutes(CashierNavItems)
  {
    assert Hrefs(CashierNavItems) == ["/", "/cashier/customer", "/due", "/settings"];
    CashierRoutesUnrelated();
    DistinctRoutesFromPairs(CashierNavItems);
  }

  /** The routes of the cashier menu, compared pairwise at their first differing character. */
  lemma CashierRoutesUnrelated()
    ensures PairwiseUnrelated(["/", "/cashier/customer", "/due", "/settings"])
  {
    assert PairwiseUnrelated(["/settings"]);
    DifferAt("/due", "/settings", 1);
    ConsUnrelated("/due", ["/settings"]);
    assert ["/due"] + ["/settings"] == ["/due", "/settings"];
    DifferAt("/cashier/customer", "/due", 1);
    DifferAt("/cashier/customer", "/settings", 1);
    ConsUnrelated("/cashier/customer", ["/due", "/settings"]);
    assert ["/cashier/customer"] + ["/due", "/settings"] == ["/cashier/customer", "/due", "/settings"];
    ConsUnrelated("/", ["/cashier/customer", "/due", "/settings"]);
    assert ["/"] + ["/cashier/customer", "/due", "/settings"] == ["/", "/cashier/customer", "/due", "/settings"];
  }

  lemma AppRoutesDistinct()
    ensures DistinctRoutes(AppNavItems)
  {
    assert Hrefs(AppNavItems) == ["/", "/report", "/inventory", "/employee", "/customer", "/settings"];
    AppRoutesUnrelated();
    DistinctRoutesFromPairs(AppNavItems);
  }

  /** The routes of the app menu, compared pairwise at their first differing character. */
  lemma AppRoutesUnrelated()
    ensures PairwiseUnrelated(["/", "/report", "/inventory", "/employee", "/customer", "/settings"])
  {
    assert PairwiseUnrelated(["/settings"]);
    DifferAt("/customer", "/settings", 1);
    ConsUnrelated("/customer", ["/settings"]);
    assert ["/customer"] + ["/settings"] == ["/customer", "/settings"];
    DifferAt("/employee", "/customer", 1);
    DifferAt("/employee", "/settings", 1);
    ConsUnrelated("/employee", ["/customer", "/settings"]);
    assert ["/employee"] + ["/customer", "/settings"] == ["/employee", "/customer", "/settings"];
    DifferAt("/inventory", "/employee", 1);
    DifferAt("/inventory", "/customer", 1);
    DifferAt("/inventory", "/settings", 1);
    ConsUnrelated("/inventory", ["/employee", "/customer", "/settings"]);
    assert ["/inventory"] + ["/employee", "/customer", "/settings"] == ["/inventory", "/employee", "/customer", "/settings"];
    DifferAt("/report", "/inventory", 1);
    DifferAt("/report", "/employee", 1);
    DifferAt("/report", "/customer", 1);
    DifferAt("/report", "/settings", 1);
    ConsUnrelated("/report", ["/inventory", "/employee", "/customer", "/settings"]);
    assert ["/report"] + ["/inventory", "/employee", "/customer", "/settings"] == ["/report", "/inventory", "/employee", "/customer", "/settings"];
    ConsUnrelated("/", ["/report", "/inventory", "/employee", "/customer", "/settings"]);
    assert ["/"] + ["/report", "/inventory", "/employee", "/customer", "/settings"] == ["/", "/report", "/inventory", "/employee", "/customer", "/settings"];
  }

  /** Whatever the user's role and the current path, the dashboard sidebar highlights at most
      one entry. */
  lemma SidebarHighlightsAtMostOne(user: Option<User>, pathname: Option<string>)
    ensures forall i, j :: (0 <= i < |NavItemsFor(user)| && 0 <= j < |NavItemsFor(user)|
      && ActiveFlags(NavItemsFor(user), pathname)[i] && ActiveFlags(NavItemsFor(user), pathname)[j]) ==> i == j
  {
    AdminRoutesDistinct();
    CashierRoutesDistinct();
    AtMostOneActive(NavItemsFor(user), pathname);
  }

  /** The role-independent sidebar highlights at most one entry, whatever the path. */
  lemma AppSidebarHighlightsAtMostOne(pathname: Option<string>)
    ensures forall i, j :: (0 <= i < |AppNavItems| && 0 <= j < |AppNavItems|
      && ActiveFlags(AppNavItems, pathname)[i] && ActiveFlags(AppNavItems, pathname)[j]) ==> i == j
  {
    AppRoutesDistinct();
    AtMostOneActive(AppNavItems, pathname);
  }
}

=== FILE: password_dialog.dfy ===
/** The change-password dialog: the new password is checked on the client before the server is
    asked to change it. */
module PasswordDialog {
  import opened Session
  import opened Dialogs
  import opened Common

  const MinPasswordLength: nat := 8
  const MismatchError: string := "New passwords do not match"
  const TooShortError: string := "New password must be at least 8 characters long"

  /** The two client checks, in order: the confirmation first, then the length. */
  function CheckNewPassword(newPassword: string, confirmPassword: string): (r: Option<string>)
    ensures r.None? <==> newPassword == confirmPassword && |newPassword| >= MinPasswordLength
    ensures r == Some(MismatchError) <==> newPassword != confirmPassword
    ensures r == Some(TooShortError) <==> newPassword == confirmPassword && |newPassword| < MinPasswordLength
  {
    if newPassword != confirmPassword then Some(MismatchError)
    else if |newPassword| < MinPasswordLength then Some(TooShortError)
    else None
  }

  /** Exactly eight characters are enough, seven are not; a short password typed twice
      differently is reported as a mismatch. */
  lemma PasswordBoundary(p: string, q: string)
    ensures |p| == MinPasswordLength ==> CheckNewPassword(p, p) == None
    ensures |p| == MinPasswordLength - 1 ==> CheckNewPassword(p, p) == Some(TooShortError)
    ensures p != q ==> CheckNewPassword(p, q) == Some(MismatchError)
  {
  }

  datatype PasswordRequest = PasswordRequest(currentPassword: string, newPassword: string)

  class ChangePasswordDialog {
    var open: bool
    var loading: bool
    var toasts: seq<Toast>
    var requests: seq<PasswordRequest>
    var resets: nat

    constructor ()
      ensures !open && !loading && toasts == [] && requests == [] && resets == 0
    {
      open := false;
      loading := false;
      toasts := [];
      requests := [];
      resets := 0;
    }

    method SetOpen(open: bool)
      modifies this`open
      ensures this.open == open
    {
      this.open := open;
    }

    /** `handleSubmit`. A failed check shows its message without touching the loading state or
        the server; otherwise the server's answer decides the toast, and an accepted answer
        closes the dialog and resets the form. */
    method HandleSubmit(formMounted: bool, currentPassword: string, newPassword: string, confirmPassword: string, call: Call)
      modifies this`open, this`loading, this`toasts, this`requests, this`resets
      ensures !formMounted ==>
        open == old(open) && loading == old(loading) && toasts == old(toasts)
        && requests == old(requests) && resets == old(resets)
      ensures formMounted && CheckNewPassword(newPassword, confirmPassword).Some? ==>
        toasts == old(toasts) + [ErrorToast(CheckNewPassword(newPassword, confirmPassword).value)]
        && open == old(open) && loading == old(loading) && requests == old(requests) && resets == old(resets)
      ensures formMounted && CheckNewPassword(newPassword, confirmPassword).None? ==>
        !loading
        && requests == old(requests) + [PasswordRequest(currentPassword, newPassword)]
        && toasts == old(toasts) + [ResultToast(call, "Failed to change password")]
        && open == (old(open) && !Accepted(call))
        && resets == old(resets) + (if Accepted(call) then 1 else 0)
    {
      if !formMounted {
        return;
      }
      var error := CheckNewPassword(newPassword, confirmPassword);
      if error.Some? {
        toasts := toasts + [ErrorToast(error.value)];
        return;
      }
      loading := true;
      requests := requests + [PasswordRequest(currentPassword, newPassword)];
      toasts := toasts + [ResultToast(call, "Failed to change password")];
      if Accepted(call) {
        open := false;
        resets := resets + 1;
      }
      loading := false;
    }
  }
}

=== FILE: products.dfy ===
/** The product and category tables and the product actions. Creating or updating a product
    first finds the named category in the caller's organisation or creates it. One family of
    actions compares category names without regard to case, the other exactly. */
module Products {
  import opened Common
  import opened Session

  datatype CategoryRecord = CategoryRecord(id: nat, name: string, org: string)

  /** The product fields the forms submit. */
  datatype ProductData = ProductData(
    name: string, brand: Option<string>, size: Option<string>, cost: real, sell: real,
    barcode: string, quantity: int, imageUrl: Option<string>)

  datatype ProductRecord = ProductRecord(id: nat, org: string, categoryId: nat, data: ProductData)

  /** `{ success: true, data }`, `{ success: true }` and `{ success: false, error }`. */
  datatype ProductReply = Saved(product: ProductRecord) | Deleted | Refused(error: string)

  /** The category filter: same organisation and the same name, compared exactly or, in
      `insensitive` mode, after lower-casing both sides. */
  predicate NameMatches(c: CategoryRecord, org: string, name: string, insensitive: bool)
  {
    c.org == org && if insensitive then LowerStr(c.name) == LowerStr(name) else c.name == name
  }

  /** No two categories of one organisation have the same name. */
  predicate NoExactDuplicates(cats: seq<CategoryRecord>)
  {
    forall i, j :: 0 <= i < j < |cats| && cats[i].org == cats[j].org ==> cats[i].name != cats[j].name
  }

  /** No two categories of one organisation differ only in letter case. */
  predicate NoCaseDuplicates(cats: seq<CategoryRecord>)
  {
    forall i, j :: 0 <= i < j < |cats| && cats[i].org == cats[j].org ==> LowerStr(cats[i].name) != LowerStr(cats[j].name)
  }

  lemma CaseDuplicatesIncludeExact(cats: seq<CategoryRecord>)
    requires NoCaseDuplicates(cats)
    ensures NoExactDuplicates(cats)
  {
  }

  predicate CategoryIdsBelow(cats: seq<CategoryRecord>, bound: nat)
  {
    forall i :: 0 <= i < |cats| ==> cats[i].id < bound
  }

  /** The result of find-or-create: the category table afterwards and the id of the category used. */
  datatype Resolved = Resolved(categories: seq<CategoryRecord>, categoryId: nat)

  /** `let category = findFirst(...); if (!category) category = create(...)`. */
  function FindOrCreateCategory(cats: seq<CategoryRecord>, nextId: nat, org: string, name: string, insensitive: bool)
    : (r: Resolved)
    requires CategoryIdsBelow(cats, nextId)
    ensures cats <= r.categories && |r.categories| <= |cats| + 1
    ensures exists k :: (0 <= k < |r.categories| && r.categories[k].id == r.categoryId
      && NameMatches(r.categories[k], org, name, insensitive))
    ensures |r.categories| == |cats| + 1 <==> forall i :: 0 <= i < |cats| ==> !NameMatches(cats[i], org, name, insensitive)
    ensures |r.categories| == |cats| + 1 ==>
      r.categories[|cats|] == CategoryRecord(nextId, name, org) && r.categoryId == nextId
    ensures CategoryIdsBelow(r.categories, nextId + 1)
  {
    match IndexWhere((c: CategoryRecord) => NameMatches(c, org, name, insensitive), cats)
    case Some(k) => Resolved(cats, cats[k].id)
    case None =>
      var r := cats + [CategoryRecord(nextId, name, org)];
      assert NameMatches(r[|cats|], org, name, insensitive);
      Resolved(r, nextId)
  }

  /** Both matching modes keep names unique within an organisation: a category is created only
      when nothing of that organisation matches, and an exact match is also a case-insensitive one. */
  lemma {:induction false} FindOrCreateKeepsExactUnique(cats: seq<CategoryRecord>, nextId: nat, org: string, name: string, insensitive: bool)
    requires CategoryIdsBelow(cats, nextId) && NoExactDuplicates(cats)
    ensures NoExactDuplicates(FindOrCreateCategory(cats, nextId, org, name, insensitive).categories)
  {
    var r := FindOrCreateCategory(cats, nextId, org, name, insensitive).categories;
    if |r| == |cats| + 1 {
      forall i, j | 0 <= i < j < |r| && r[i].org == r[j].org
        ensures r[i].name != r[j].name
      {
        assert r[i] == cats[i];
        if j == |cats| {
          assert !NameMatches(cats[i], org, name, insensitive);
        } else {
          assert r[j] == cats[j];
        }
      }
    } else {
      assert r == cats;
    }
  }

  /** The case-insensitive lookup never creates a category that differs from an existing one
      of the organisation only in letter case. */
  lemma {:induction false} InsensitiveFindOrCreateKeepsCaseUnique(cats: seq<CategoryRecord>, nextId: nat, org: string, name: string)
    requires CategoryIdsBelow(cats, nextId) && NoCaseDuplicates(cats)
    ensures NoCaseDuplicates(FindOrCreateCategory(cats, nextId, org, name, true).categories)
  {
    var r := FindOrCreateCategory(cats, nextId, org, name, true).categories;
    if |r| == |cats| + 1 {
      forall i, j | 0 <= i < j < |r| && r[i].org == r[j].org
        ensures LowerStr(r[i].name) != LowerStr(r[j].name)
      {
        assert r[i] == cats[i];
        if j == |cats| {
          assert !NameMatches(cats[i], org, name, true);
        } else {
          assert r[j] == cats[j];
        }
      }
    } else {
      assert r == cats;
    }
  }

  /** The exact lookup does create case variants: with "Shoes" in organisation "A", asking for
      "shoes" adds a second category. */
  lemma ExactFindOrCreateMakesCaseVariants()
    ensures var cats := [CategoryRecord(0, "Shoes", "A")];
      NoCaseDuplicates(cats)
      && !NoCaseDuplicates(FindOrCreateCategory(cats, 1, "A", "shoes", false).categories)
  {
    var cats := [CategoryRecord(0, "Shoes", "A")];
    var r := FindOrCreateCategory(cats, 1, "A", "shoes", false).categories;
    assert !NameMatches(cats[0], "A", "shoes", false);
    assert r[1] == CategoryRecord(1, "shoes", "A");
    assert LowerStr("Shoes") == "shoes";
    assert LowerStr("shoes") == "shoes";
  }

  /** The `findFirst`/`update`/`delete` filter `{ id, organizationId }`. */
  predicate IsOwnProduct(p: ProductRecord, id: nat, org: string)
  {
    p.id == id && p.org == org
  }

  /** The catalogue: categories and products of every organisation. */
  class Catalog {
    var categories: seq<CategoryRecord>
    var products: seq<ProductRecord>
    var nextCategoryId: nat
    var nextProductId: nat

    /** Ids are unique and below their counters, category names are unique per organisation,
        and every product refers to an existing category of its own organisation. */
    ghost predicate Valid()
      reads this
    {
      CategoryIdsBelow(categories, nextCategoryId)
      && (forall i, j :: 0 <= i < j < |categories| ==> categories[i].id != categories[j].id)
      && NoExactDuplicates(categories)
      && (forall i :: 0 <= i < |products| ==> products[i].id < nextProductId)
      && (forall i, j :: 0 <= i < j < |products| ==> products[i].id != products[j].id)
      && forall i :: 0 <= i < |products| ==> HasCategory(products[i].categoryId, products[i].org)
    }

    ghost predicate HasCategory(id: nat, org: string)
      reads this
    {
      exists k :: 0 <= k < |categories| && categories[k].id == id && categories[k].org == org
    }

    constructor ()
      ensures Valid() && categories == [] && products == [] && nextCategoryId == 0 && nextProductId == 0
    {
      categories, products := [], [];
      nextCategoryId, nextProductId := 0, 0;
    }

    /** The find-or-create step shared by every create and update. */
    method ResolveCategory(org: string, name: string, insensitive: bool) returns (categoryId: nat)
      requires Valid()
      modifies this`categories, this`nextCategoryId
      ensures Valid()
      ensures var r := FindOrCreateCategory(old(categories), old(nextCategoryId), org, name, insensitive);
        categories == r.categories && categoryId == r.categoryId
        && nextCategoryId == (if |r.categories| > |old(categories)| then old(nextCategoryId) + 1 else old(nextCategoryId))
      ensures HasCategory(categoryId, org)
      ensures insensitive && NoCaseDuplicates(old(categories)) ==> NoCaseDuplicates(categories)
    {
      var r := FindOrCreateCategory(categories, nextCategoryId, org, name, insensitive);
      FindOrCreateKeepsExactUnique(categories, nextCategoryId, org, name, insensitive);
      if insensitive && NoCaseDuplicates(categories) {
        InsensitiveFindOrCreateKeepsCaseUnique(categories, nextCategoryId, org, name);
      }
      assert forall k :: 0 <= k < |categories| ==> r.categories[k] == categories[k];
      if |r.categories| > |categories| {
        nextCategoryId := nextCategoryId + 1;
      }
      categories := r.categories;
      categoryId := r.categoryId;
    }

    /** Resolve the category, then append the product with the next id (`product.create`). */
    method InsertProduct(org: string, data: ProductData, categoryName: string, insensitive: bool)
      returns (product: ProductRecord)
      requires Valid()
      modifies this`categories, this`nextCategoryId, this`products, this`nextProductId
      ensures Valid()
      ensures var r := FindOrCreateCategory(old(categories), old(nextCategoryId), org, categoryName, insensitive);
        categories == r.categories
        && nextCategoryId == (if |r.categories| > |old(categories)| then old(nextCategoryId) + 1 else old(nextCategoryId))
        && product == ProductRecord(old(nextProductId), org, r.categoryId, data)
      ensures products == old(products) + [product] && nextProductId == old(nextProductId) + 1
      ensures insensitive && NoCaseDuplicates(old(categories)) ==> NoCaseDuplicates(categories)
    {
      var categoryId := ResolveCategory(org, categoryName, insensitive);
      product := ProductRecord(nextProductId, org, categoryId, data);
      products := products + [product];
      nextProductId := nextProductId + 1;
    }

    /** Resolve the category, then overwrite the caller's product with that id. A product that
        is missing or belongs to another organisation makes the update throw, after the category
        may already have been created. */
    method UpdateOwnProduct(org: string, id: nat, data: ProductData, categoryName: string, insensitive: bool)
      returns (updated: Option<ProductRecord>)
      requires Valid()
      modifies this`categories, this`nextCategoryId, this`products
      ensures Valid()
      ensures var r := FindOrCreateCategory(old(categories), old(nextCategoryId), org, categoryName, insensitive);
        categories == r.categories
        && nextCategoryId == (if |r.categories| > |old(categories)| then old(nextCategoryId) + 1 else old(nextCategoryId))
        && (updated.None? <==> forall i :: 0 <= i < |old(products)| ==> !IsOwnProduct(old(products)[i], id, org))
        && (updated.None? ==> products == old(products))
        && (updated.Some? ==>
              updated.value == ProductRecord(id, org, r.categoryId, data)
              && |products| == |old(products)|
              && forall i :: 0 <= i < |products| ==>
                   products[i] == if old(products)[i].id == id then updated.value else old(products)[i])
      ensures insensitive && NoCaseDuplicates(old(categories)) ==> NoCaseDuplicates(categories)
    {
      var categoryId := ResolveCategory(org, categoryName, insensitive);
      var found := IndexWhere((p: ProductRecord) => IsOwnProduct(p, id, org), products);
      if found.None? {
        return None;
      }
      var product := products[found.value].(categoryId := categoryId, data := data);
      ReplaceProduct(found.value, product);
      updated := Some(product);
    }

    /** Overwrite the product at `k` with a record of the same id (`product.update`). */
    method ReplaceProduct(k: nat, product: ProductRecord)
      requires Valid() && k < |products| && product.id == products[k].id
      requires HasCategory(product.categoryId, product.org)
      modifies this`products
      ensures Valid()
      ensures |products| == |old(products)|
      ensures forall i :: 0 <= i < |products| ==>
        products[i] == if old(products)[i].id == product.id then product else old(products)[i]
    {
      var r := products[k := product];
      assert forall i :: 0 <= i < |r| ==> r[i] == if i == k then product else products[i];
      products := r;
    }

    /** Remove the product at `k` (`product.delete`). */
    method RemoveProduct(k: nat)
      requires Valid() && k < |products|
      modifies this`products
      ensures Valid()
      ensures products == RemoveAt(old(products), k)
      ensures forall i :: 0 <= i < |products| ==> products[i].id != old(products)[k].id
    {
      var r := RemoveAt(products, k);
      assert forall i :: 0 <= i < |r| ==> r[i] == products[if i < k then i else i + 1];
      products := r;
    }

    /** `createProduct` of the case-insensitive family: every refusal, including a missing user
        or organisation, is reported as the one generic failure. */
    method CreateProductInsensitive(user: Option<User>, data: ProductData, categoryName: string)
      returns (reply: ProductReply)
      requires Valid()
      modifies this`categories, this`nextCategoryId, this`products, this`nextProductId
      ensures Valid()
      ensures !OrgIdGate(user).Proceed? ==>
        reply == Refused("Failed to create product")
        && categories == old(categories) && products == old(products)
        && nextCategoryId == old(nextCategoryId) && nextProductId == old(nextProductId)
      ensures OrgIdGate(user).Proceed? ==>
        var r := FindOrCreateCategory(old(categories), old(nextCategoryId), OrgIdGate(user).org, categoryName, true);
        categories == r.categories
        && nextCategoryId == (if |r.categories| > |old(categories)| then old(nextCategoryId) + 1 else old(nextCategoryId))
        && reply == Saved(ProductRecord(old(nextProductId), OrgIdGate(user).org, r.categoryId, data))
        && products == old(products) + [reply.product] && nextProductId == old(nextProductId) + 1
        && (NoCaseDuplicates(old(categories)) ==> NoCaseDuplicates(categories))
    {
      match OrgIdGate(user)
      case Proceed(org) =>
        var product := InsertProduct(org, data, categoryName, true);
        reply := Saved(product);
      case _ =>
        reply := Refused("Failed to create product");
    }

    /** `updateProduct` of the case-insensitive family. */
    method UpdateProductInsensitive(user: Option<User>, id: nat, data: ProductData, categoryName: string)
      returns (reply: ProductReply)
      requires Valid()
      modifies this`categories, this`nextCategoryId, this`products
      ensures Valid()
      ensures !OrgIdGate(user).Proceed? ==>
        reply == Refused("Failed to update product")
        && categories == old(categories) && products == old(products) && nextCategoryId == old(nextCategoryId)
      ensures OrgIdGate(user).Proceed? ==>
        var org := OrgIdGate(user).org;
        var r := FindOrCreateCategory(old(categories), old(nextCategoryId), org, categoryName, true);
        categories == r.categories
        && nextCategoryId == (if |r.categories| > |old(categories)| then old(nextCategoryId) + 1 else old(nextCategoryId))
        && (NoCaseDuplicates(old(categories)) ==> NoCaseDuplicates(categories))
        && ((forall i :: 0 <= i < |old(products)| ==> !IsOwnProduct(old(products)[i], id, org)) ==>
              reply == Refused("Failed to update product") && products == old(products))
        && ((exists i :: 0 <= i < |old(products)| && IsOwnProduct(old(products)[i], id, org)) ==>
              reply == Saved(ProductRecord(id, org, r.categoryId, data))
              && |products| == |old(products)|
              && forall i :: 0 <= i < |products| ==>
                   products[i] == if old(products)[i].id == id then reply.product else old(products)[i])
    {
      match OrgIdGate(user)
      case Proceed(org) =>
        var updated := UpdateOwnProduct(org, id, data, categoryName, true);
        reply := if updated.Some? then Saved(updated.value) else Refused("Failed to update product");
      case _ =>
        reply := Refused("Failed to update product");
    }

    /** `deleteProduct` of the case-insensitive family: deletes by id alone, for any caller. */
    method DeleteProductUnscoped(id: nat) returns (reply: ProductReply)
      requires Valid()
      modifies this`products
      ensures Valid()
      ensures (forall i :: 0 <= i < |old(products)| ==> old(products)[i].id != id) ==>
        reply == Refused("Failed to delete product") && products == old(products)
      ensures (exists i :: 0 <= i < |old(products)| && old(products)[i].id == id) ==>
        reply == Deleted
        && (exists k :: 0 <= k < |old(products)| && old(products)[k].id == id && products == RemoveAt(old(products), k))
        && forall i :: 0 <= i < |products| ==> products[i].id != id
    {
      var found := IndexWhere((p: ProductRecord) => p.id == id, products);
      if found.None? {
        return Refused("Failed to delete product");
      }
      RemoveProduct(found.value);
      reply := Deleted;
    }

    /** `createProduct` of the exact-name family: a missing user is refused as unauthorised, a
        user without an organisation fails on reading its id. */
    method CreateProductExact(user: Option<User>, data: ProductData, categoryName: string)
      returns (reply: ProductReply)
      requires Valid()
      modifies this`categories, this`nextCategoryId, this`products, this`nextProductId
      ensures Valid()
      ensures user.None? ==>
        reply == Refused("Unauthorized")
        && categories == old(categories) && products == old(products)
        && nextCategoryId == old(nextCategoryId) && nextProductId == old(nextProductId)
      ensures user.Some? && user.value.organization.None? ==>
        reply == Refused("Failed to create product")
        && categories == old(categories) && products == old(products)
        && nextCategoryId == old(nextCategoryId) && nextProductId == old(nextProductId)
      ensures user.Some? && user.value.organization.Some? ==>
        var org := user.value.organization.value;
        var r := FindOrCreateCategory(old(categories), old(nextCategoryId), org, categoryName, false);
        categories == r.categories
        && nextCategoryId == (if |r.categories| > |old(categories)| then old(nextCategoryId) + 1 else old(nextCategoryId))
        && reply == Saved(ProductRecord(old(nextProductId), org, r.categoryId, data))
        && products == old(products) + [reply.product] && nextProductId == old(nextProductId) + 1
    {
      if user.None? {
        return Refused("Unauthorized");
      }
      if user.value.organization.None? {
        return Refused("Failed to create product");
      }
      var product := InsertProduct(user.value.organization.value, data, categoryName, false);
      reply := Saved(product);
    }

    /** `updateProduct` of the exact-name family. */
    method UpdateProductExact(user: Option<User>, id: nat, data: ProductData, categoryName: string)
      returns (reply: ProductReply)
      requires Valid()
      modifies this`categories, this`nextCategoryId, this`products
      ensures Valid()
      ensures user.None? ==>
        reply == Refused("Unauthorized")
        && categories == old(categories) && products == old(products) && nextCategoryId == old(nextCategoryId)
      ensures user.Some? && user.value.organization.None? ==>
        reply == Refused("Failed to update product")
        && categories == old(categories) && products == old(products) && nextCategoryId == old(nextCategoryId)
      ensures user.Some? && user.value.organization.Some? ==>
        var org := user.value.organization.value;
        var r := FindOrCreateCategory(old(categories), old(nextCategoryId), org, categoryName, false);
        categories == r.categories
        && nextCategoryId == (if |r.categories| > |old(categories)| then old(nextCategoryId) + 1 else old(nextCategoryId))
        && ((forall i :: 0 <= i < |old(products)| ==> !IsOwnProduct(old(products)[i], id, org)) ==>
              reply == Refused("Failed to update product") && products == old(products))
        && ((exists i :: 0 <= i < |old(products)| && IsOwnProduct(old(products)[i], id, org)) ==>
              reply == Saved(ProductRecord(id, org, r.categoryId, data))
              && |products| == |old(products)|
              && forall i :: 0 <= i < |products| ==>
                   products[i] == if old(products)[i].id == id then reply.product else old(products)[i])
    {
      if user.None? {
        return Refused("Unauthorized");
      }
      if user.value.organization.None? {
        return Refused("Failed to update product");
      }
      var updated := UpdateOwnProduct(user.value.organization.value, id, data, categoryName, false);
      reply := if updated.Some? then Saved(updated.value) else Refused("Failed to update product");
    }

    /** `deleteProduct` of the exact-name family: scoped to the caller's organisation. After the
        row is gone, an image URL that is present and non-empty is unlinked; the outcome of that
        (`unlinkSucceeds`, an input standing for the filesystem) is reported in `imageRemoved`
        and never changes the reply. */
    method DeleteProductScoped(user: Option<User>, id: nat, unlinkSucceeds: bool)
      returns (reply: ProductReply, imageRemoved: Option<string>)
      requires Valid()
      modifies this`products
      ensures Valid()
      ensures user.None? ==> reply == Refused("Unauthorized") && products == old(products) && imageRemoved == None
      ensures user.Some? && user.value.organization.None? ==>
        reply == Refused("Failed to delete product") && products == old(products) && imageRemoved == None
      ensures (user.Some? && user.value.organization.Some?
        && forall i :: 0 <= i < |old(products)| ==> !IsOwnProduct(old(products)[i], id, user.value.organization.value)) ==>
        reply == Refused("Product not found") && products == old(products) && imageRemoved == None
      ensures (user.Some? && user.value.organization.Some?
        && exists i :: 0 <= i < |old(products)| && IsOwnProduct(old(products)[i], id, user.value.organization.value)) ==>
        reply == Deleted
        && (exists k :: 0 <= k < |old(products)| && IsOwnProduct(old(products)[k], id, user.value.organization.value)
              && products == RemoveAt(old(products), k)
              && imageRemoved == (var url := old(products)[k].data.imageUrl;
                                  if url.Some? && url.value != "" && unlinkSucceeds then url else None))
        && forall i :: 0 <= i < |products| ==> products[i].id != id
    {
      imageRemoved := None;
      if user.None? {
        return Refused("Unauthorized"), None;
      }
      if user.value.organization.None? {
        return Refused("Failed to delete product"), None;
      }
      var org := user.value.organization.value;
      var found := IndexWhere((p: ProductRecord) => IsOwnProduct(p, id, org), products);
      if found.None? {
        return Refused("Product not found"), None;
      }
      var product := products[found.value];
      RemoveProduct(found.value);
      if product.data.imageUrl.Some? && product.data.imageUrl.value != "" {
        if unlinkSucceeds {
          imageRemoved := product.data.imageUrl;
        }
      }
      reply := Deleted;
    }
  }
}

=== FILE: profile_dialog.dfy ===
/** The profile dialog: the age shown for a date of birth, and the profile picture that is
    uploaded, replaced and sent with the profile. */
module ProfileDialog {
  import opened Common
  import opened Session
  import opened Dialogs
  import opened ImageUpload

  /** The `years`-th birthday. */
  function Anniversary(birth: Date, years: int): Date
  {
    Date(birth.year + years, birth.month, birth.day)
  }

  /** `age` is the number of completed years: the `age`-th birthday has been reached and the
      next one has not. */
  predicate IsAge(today: Date, birth: Date, age: int)
  {
    !Before(today, Anniversary(birth, age)) && Before(today, Anniversary(birth, age + 1))
  }

  /** At most one number of years is the age on a given day. */
  lemma IsAgeUnique(today: Date, birth: Date, a: int, b: int)
    requires IsAge(today, birth, a) && IsAge(today, birth, b)
    ensures a == b
  {
  }

  /** `calculateAge`: the difference of the years, less one while this year's birthday is still
      ahead. `today` is a parameter. */
  method CalculateAge(today: Date, birth: Date) returns (age: int)
    ensures IsAge(today, birth, age)
    ensures age == today.year - birth.year || age == today.year - birth.year - 1
    ensures today.month == birth.month && today.day == birth.day ==> age == today.year - birth.year
  {
    age := today.year - birth.year;
    var monthDiff := today.month - birth.month;
    if monthDiff < 0 || (monthDiff == 0 && today.day < birth.day) {
      age := age - 1;
    }
  }

  class ProfileDialog {
    /** The signed-in user's stored picture. */
    const userImageUrl: Option<string>
    var open: bool
    var loading: bool
    var imagePreview: Option<string>
    /** The chosen file, by name. */
    var selectedFile: Option<string>
    var calculatedAge: Option<int>
    /** The `deleteTemporaryImage` calls made so far. */
    var deletedImages: seq<string>
    /** The `imageUrl` field of each `updateProfile` call made so far. */
    var profileRequests: seq<Option<string>>

    /** The age starts from the stored one, where an age of 0 is falsy and shows as none. */
    constructor (userImageUrl: Option<string>, userAge: Option<int>)
      ensures this.userImageUrl == userImageUrl && !open && !loading
      ensures imagePreview == userImageUrl && selectedFile == None
      ensures calculatedAge == if userAge.Some? && userAge.value != 0 then userAge else None
      ensures deletedImages == [] && profileRequests == []
    {
      this.userImageUrl := userImageUrl;
      open := false;
      loading := false;
      imagePreview := userImageUrl;
      selectedFile := None;
      calculatedAge := if userAge.Some? && userAge.value != 0 then userAge else None;
      deletedImages := [];
      profileRequests := [];
    }

    /** The effect on `open`: the preview returns to the stored picture and the file is dropped. */
    method ResetImageState()
      modifies this`imagePreview, this`selectedFile
      ensures imagePreview == userImageUrl && selectedFile == None
    {
      imagePreview := userImageUrl;
      selectedFile := None;
    }

    /** `handleDateOfBirthChange`: an empty field clears the age, a date sets the age on `today`. */
    method OnDateOfBirthChange(dob: Option<Date>, today: Date)
      modifies this`calculatedAge
      ensures dob.None? ==> calculatedAge == None
      ensures dob.Some? ==> calculatedAge.Some? && IsAge(today, dob.value, calculatedAge.value)
    {
      if dob.Some? {
        var age := CalculateAge(today, dob.value);
        calculatedAge := Some(age);
      } else {
        calculatedAge := None;
      }
    }

    /** `handleImageChange`: no file restores the stored picture; a file is kept for upload and
        previewed as the data URL the reader produces. */
    method HandleImageChange(file: Option<string>, dataUrl: string)
      modifies this`imagePreview, this`selectedFile
      ensures file.None? ==> imagePreview == userImageUrl && selectedFile == None
      ensures file.Some? ==> imagePreview == Some(dataUrl) && selectedFile == file
    {
      if file.None? {
        ResetImageState();
        return;
      }
      selectedFile := file;
      imagePreview := Some(dataUrl);
    }

    /** `handleModalOpenChange`, followed by the effect when `open` changes: closing, or any
        change of `open`, drops the chosen file and restores the preview. */
    method HandleModalOpenChange(isOpen: bool)
      modifies this`open, this`imagePreview, this`selectedFile
      ensures open == isOpen
      ensures !isOpen || isOpen != old(open) ==> imagePreview == userImageUrl && selectedFile == None
      ensures isOpen && isOpen == old(open) ==> imagePreview == old(imagePreview) && selectedFile == old(selectedFile)
    {
      if !isOpen {
        ResetImageState();
      }
      var changed := open != isOpen;
      open := isOpen;
      if changed {
        ResetImageState();
      }
    }

    /** `handleSubmit`. `upload` is the answer of the upload route and `call` that of
        `updateProfile`. A failed upload stops before the profile is sent. After a good upload
        the previous picture is deleted before the profile is sent, so it is gone even when the
        update is then refused. */
    method HandleSubmit(formMounted: bool, upload: UploadOutcome, call: Call)
      modifies this`open, this`loading, this`imagePreview, this`selectedFile, this`deletedImages, this`profileRequests
      ensures !formMounted ==>
        open == old(open) && loading == old(loading) && selectedFile == old(selectedFile)
        && imagePreview == old(imagePreview)
        && deletedImages == old(deletedImages) && profileRequests == old(profileRequests)
      ensures formMounted ==> !loading
      ensures formMounted && old(selectedFile).Some? && upload.UploadFailed? ==>
        open == old(open) && selectedFile == old(selectedFile) && imagePreview == old(imagePreview)
        && deletedImages == old(deletedImages) && profileRequests == old(profileRequests)
      ensures formMounted && (old(selectedFile).None? || upload.Uploaded?) ==>
        profileRequests == old(profileRequests) + [FormImageUrl(NewImageUrl(userImageUrl, old(selectedFile).Some?, upload))]
        && deletedImages == old(deletedImages)
             + (if old(selectedFile).Some? && ReplacesOld(userImageUrl, upload.path) then [userImageUrl.value] else [])
        && open == (old(open) && !Accepted(call))
        && (Accepted(call) ==> selectedFile == None)
        && (Accepted(call) ==> imagePreview == (if old(open) then userImageUrl else old(imagePreview)))
        && (!Accepted(call) ==> selectedFile == old(selectedFile) && imagePreview == old(imagePreview))
    {
      if !formMounted {
        return;
      }
      loading := true;
      var uploaded := userImageUrl;
      if selectedFile.Some? {
        if upload.UploadFailed? {
          loading := false;
          return;
        }
        uploaded := Some(upload.path);
        if ReplacesOld(userImageUrl, upload.path) {
          deletedImages := deletedImages + [userImageUrl.value];
        }
      }
      profileRequests := profileRequests + [FormImageUrl(uploaded)];
      if Accepted(call) {
        selectedFile := None;
        var changed := open;
        open := false;
        if changed {
          ResetImageState();
        }
      }
      loading := false;
    }
  }
}

=== FILE: sales_client.dfy ===
/** The sales screen: product search, "load more" paging and the cart it hands to the cart panel. */
module SalesClient {
  import opened Common
  import opened CartSection

  datatype Category = Category(id: string, name: string)

  /** A product joined with its (optional) category. */
  datatype Product = Product(
    id: string, name: string, brand: Option<string>, category: Option<Category>,
    sell: real, quantity: int, imageUrl: Option<string>)

  const ItemsPerLoad: nat := 9

  /** The search predicate. The query is lowercased but not trimmed. */
  predicate MatchesQuery(p: Product, query: string): (r: bool)
    ensures query == "" ==> r
    ensures p.brand.None? && p.category.None? ==> (r <==> Contains(LowerStr(p.name), LowerStr(query)))
  {
    ContainsEmpty(LowerStr(p.name));
    var q := LowerStr(query);
    Contains(LowerStr(p.name), q)
    || (p.brand.Some? && Contains(LowerStr(p.brand.value), q))
    || (p.category.Some? && Contains(LowerStr(p.category.value.name), q))
  }

  /** The search effect: a blank query keeps every product, otherwise the matching ones. */
  function SearchFilter(all: seq<Product>, query: string): (r: seq<Product>)
    ensures IsSubsequence(r, all)
  {
    FilterIsSubsequence(p => MatchesQuery(p, query), all);
    SubsequenceReflexive(all);
    if Trim(query) == [] then all else Filter(p => MatchesQuery(p, query), all)
  }

  lemma SearchFilterSpec(all: seq<Product>, query: string)
    ensures IsBlank(query) ==> SearchFilter(all, query) == all
    ensures !IsBlank(query) ==>
      forall p :: p in SearchFilter(all, query) <==> p in all && MatchesQuery(p, query)
    ensures !IsBlank(query) ==>
      forall p :: multiset(SearchFilter(all, query))[p] == if MatchesQuery(p, query) then multiset(all)[p] else 0
  {
    TrimEmptyIffBlank(query);
    FilterCount(p => MatchesQuery(p, query), all);
  }

  /** The displayed list after `page` loads: a prefix of the filtered list. */
  function Page(filtered: seq<Product>, page: nat): (r: seq<Product>)
    ensures |r| == if ItemsPerLoad * page <= |filtered| then ItemsPerLoad * page else |filtered|
    ensures r == filtered[..|r|]
  {
    SliceTo(filtered, ItemsPerLoad * page)
  }

  /** Enough loads show the whole filtered list. */
  lemma PageCoversAll(filtered: seq<Product>, page: nat)
    requires |filtered| <= ItemsPerLoad * page
    ensures Page(filtered, page) == filtered
  {
  }

  /** The displayed page and the rest of the filtered list make up the filtered list. */
  lemma {:induction false} PageSplits(filtered: seq<Product>, page: nat)
    ensures Page(filtered, page) + filtered[|Page(filtered, page)|..] == filtered
  {
    var n := |Page(filtered, page)|;
    assert filtered == filtered[..n] + filtered[n..];
  }

  predicate HasLine(cart: seq<CartItem>, id: string)
  {
    exists k :: 0 <= k < |cart| && cart[k].id == id
  }

  predicate DistinctIds(cart: seq<CartItem>)
  {
    forall i, j :: 0 <= i < j < |cart| ==> cart[i].id != cart[j].id
  }

  /** The cart invariant: one line per product, every quantity at least 1. */
  predicate CartValid(cart: seq<CartItem>)
  {
    DistinctIds(cart) && forall k :: 0 <= k < |cart| ==> cart[k].quantity >= 1
  }

  /** The line a first `addToCart` creates. An empty image URL counts as absent. */
  function NewLine(p: Product): CartItem
  {
    CartItem(p.id, p.name, p.sell, 1, if p.imageUrl.Some? && p.imageUrl.value != "" then p.imageUrl else None)
  }

  /** `cartItems.map(item => item.id === id ? {...item, quantity} : item)` */
  function WithQuantity(cart: seq<CartItem>, id: string, quantity: int): (r: seq<CartItem>)
    ensures |r| == |cart|
    ensures forall k :: 0 <= k < |cart| ==>
      r[k] == if cart[k].id == id then cart[k].(quantity := quantity) else cart[k]
  {
    seq(|cart|, k requires 0 <= k < |cart| => if cart[k].id == id then cart[k].(quantity := quantity) else cart[k])
  }

  /** `cartItems.map(item => item.id === id ? {...item, quantity: item.quantity + 1} : item)` */
  function Incremented(cart: seq<CartItem>, id: string): (r: seq<CartItem>)
    ensures |r| == |cart|
    ensures forall k :: 0 <= k < |cart| ==>
      r[k] == if cart[k].id == id then cart[k].(quantity := cart[k].quantity + 1) else cart[k]
  {
    seq(|cart|, k requires 0 <= k < |cart| => if cart[k].id == id then cart[k].(quantity := cart[k].quantity + 1) else cart[k])
  }

  /** `addToCart`: bump the existing line or append a new line with quantity 1. */
  function AddLine(cart: seq<CartItem>, p: Product): (r: seq<CartItem>)
    ensures HasLine(r, p.id)
    ensures HasLine(cart, p.id) ==> (|r| == |cart| &&
      forall k :: 0 <= k < |cart| ==>
        r[k] == if cart[k].id == p.id then cart[k].(quantity := cart[k].quantity + 1) else cart[k])
    ensures !HasLine(cart, p.id) ==> r == cart + [NewLine(p)]
  {
    if HasLine(cart, p.id) then
      Incremented(cart, p.id)
    else
      var r := cart + [NewLine(p)];
      assert r[|cart|].id == p.id;
      r
  }

  /** `addToCart` keeps one line per product and every quantity positive. */
  lemma AddLineKeepsCartValid(cart: seq<CartItem>, p: Product)
    requires CartValid(cart)
    ensures CartValid(AddLine(cart, p))
  {
  }

  /** The stock level of the product is never consulted when adding it. */
  lemma AddLineIgnoresStock(cart: seq<CartItem>, p: Product, stock: int)
    ensures AddLine(cart, p) == AddLine(cart, p.(quantity := stock))
  {
  }

  /** The index of the line holding `id`, in a cart with distinct ids. */
  lemma LineIndex(cart: seq<CartItem>, id: string) returns (k: nat)
    requires HasLine(cart, id)
    ensures k < |cart| && cart[k].id == id
    ensures DistinctIds(cart) ==> forall j :: 0 <= j < |cart| && j != k ==> cart[j].id != id
  {
    k :| 0 <= k < |cart| && cart[k].id == id;
  }

  /** In a cart with distinct ids, bumping a line is a point update of that one line. */
  lemma IncrementedIsPointUpdate(cart: seq<CartItem>, k: nat)
    requires DistinctIds(cart) && k < |cart|
    ensures Incremented(cart, cart[k].id) == cart[k := cart[k].(quantity := cart[k].quantity + 1)]
  {
    var r := Incremented(cart, cart[k].id);
    var u := cart[k := cart[k].(quantity := cart[k].quantity + 1)];
    forall j | 0 <= j < |cart|
      ensures r[j] == u[j]
    {
      if j != k {
        assert cart[j].id != cart[k].id;
      }
    }
  }

  lemma {:induction false} SubtotalIncremented(cart: seq<CartItem>, k: nat)
    requires DistinctIds(cart) && k < |cart|
    ensures Subtotal(Incremented(cart, cart[k].id)) == Subtotal(cart) + cart[k].price
  {
    var bumped := cart[k].(quantity := cart[k].quantity + 1);
    IncrementedIsPointUpdate(cart, k);
    SubtotalReplaceLine(cart, k, bumped);
    LineAmountBump(cart[k]);
  }

  /** Adding a product already in the cart raises the subtotal by the price stored in its line. */
  lemma {:induction false} SubtotalAfterAddExisting(cart: seq<CartItem>, p: Product, k: nat)
    requires CartValid(cart) && k < |cart| && cart[k].id == p.id
    ensures Subtotal(AddLine(cart, p)) == Subtotal(cart) + cart[k].price
  {
    assert HasLine(cart, p.id);
    SubtotalIncremented(cart, k);
  }

  /** Adding a product not yet in the cart raises the subtotal by its selling price. */
  lemma SubtotalAfterAddNew(cart: seq<CartItem>, p: Product)
    requires !HasLine(cart, p.id)
    ensures Subtotal(AddLine(cart, p)) == Subtotal(cart) + p.sell
  {
    SubtotalAppend(cart, [NewLine(p)]);
    assert [NewLine(p)][..0] == [];
  }

  lemma {:induction false} FilterKeepsDistinct(keep: CartItem -> bool, cart: seq<CartItem>)
    ensures DistinctIds(cart) ==> DistinctIds(Filter(keep, cart))
  {
    if cart != [] && DistinctIds(cart) {
      FilterKeepsDistinct(keep, cart[1..]);
      var rest := Filter(keep, cart[1..]);
      forall x | x in rest
        ensures x.id != cart[0].id
      {
        var j :| 0 <= j < |cart[1..]| && cart[1..][j] == x;
        assert cart[j + 1] == x;
      }
      if keep(cart[0]) {
        var r := [cart[0]] + rest;
        forall i, j | 0 <= i < j < |r|
          ensures r[i].id != r[j].id
        {
          if i == 0 {
            assert r[j] in rest;
          } else {
            assert r[i] == rest[i - 1] && r[j] == rest[j - 1];
          }
        }
      }
    }
  }

  /** `removeFromCart`: drop the line with that id, keep the others in order. */
  function RemoveLine(cart: seq<CartItem>, id: string): (r: seq<CartItem>)
    ensures !HasLine(r, id)
    ensures forall x :: x in r <==> x in cart && x.id != id
    ensures IsSubsequence(r, cart)
    ensures CartValid(cart) ==> CartValid(r)
  {
    var r := Filter((item: CartItem) => item.id != id, cart);
    FilterIsSubsequence((item: CartItem) => item.id != id, cart);
    FilterKeepsDistinct((item: CartItem) => item.id != id, cart);
    assert forall k :: 0 <= k < |r| ==> r[k] in r;
    r
  }

  /** `updateCartItemQuantity`: a quantity of 0 or less removes the line; any other quantity
      replaces the quantity of the matching line only. */
  function SetQuantity(cart: seq<CartItem>, id: string, quantity: int): (r: seq<CartItem>)
    ensures quantity <= 0 ==> r == RemoveLine(cart, id)
    ensures quantity > 0 ==> (|r| == |cart| &&
      forall k :: 0 <= k < |cart| ==>
        r[k] == if cart[k].id == id then cart[k].(quantity := quantity) else cart[k])
    ensures CartValid(cart) ==> CartValid(r)
  {
    if quantity <= 0 then RemoveLine(cart, id)
    else WithQuantity(cart, id, quantity)
  }

  /** The sales page's component state. */
  class SalesClientPage {
    const allProducts: seq<Product>
    var filteredProducts: seq<Product>
    var displayedProducts: seq<Product>
    var cartItems: seq<CartItem>
    var customerInfo: CustomerInfo
    var searchQuery: string
    var currentPage: nat

    ghost predicate Valid()
      reads this
    {
      currentPage >= 1
      && filteredProducts == SearchFilter(allProducts, searchQuery)
      && displayedProducts == Page(filteredProducts, currentPage)
      && CartValid(cartItems)
    }

    /** The state after mounting, once the search effect has run for the empty query. */
    constructor (initialProducts: seq<Product>)
      ensures Valid()
      ensures allProducts == initialProducts && filteredProducts == initialProducts
      ensures displayedProducts == SliceTo(initialProducts, ItemsPerLoad)
      ensures searchQuery == "" && currentPage == 1
      ensures cartItems == [] && customerInfo == CustomerInfo("", "")
    {
      allProducts := initialProducts;
      cartItems := [];
      customerInfo := CustomerInfo("", "");
      searchQuery := "";
      var filtered := SearchFilter(initialProducts, "");
      filteredProducts := filtered;
      displayedProducts := SliceTo(filtered, ItemsPerLoad);
      currentPage := 1;
    }

    /** `setSearchQuery` followed by the search effect. */
    method SetSearchQuery(query: string)
      requires Valid()
      modifies this`searchQuery, this`filteredProducts, this`displayedProducts, this`currentPage
      ensures Valid()
      ensures searchQuery == query && currentPage == 1
      ensures filteredProducts == SearchFilter(allProducts, query)
      ensures displayedProducts == SliceTo(filteredProducts, ItemsPerLoad)
    {
      searchQuery := query;
      var filtered := allProducts;
      if Trim(searchQuery) != [] {
        filtered := Filter(p => MatchesQuery(p, query), filtered);
      }
      filteredProducts := filtered;
      displayedProducts := SliceTo(filtered, ItemsPerLoad);
      currentPage := 1;
    }

    /** `loadMoreProducts`, without the simulated delay. */
    method LoadMoreProducts()
      requires Valid()
      modifies this`displayedProducts, this`currentPage
      ensures Valid()
      ensures currentPage == old(currentPage) + 1
      ensures displayedProducts == SliceTo(filteredProducts, ItemsPerLoad * currentPage)
      ensures old(displayedProducts) == displayedProducts[..|old(displayedProducts)|]
    {
      var nextPage := currentPage + 1;
      var startIndex := currentPage * ItemsPerLoad;
      var endIndex := startIndex + ItemsPerLoad;
      displayedProducts := SliceTo(filteredProducts, endIndex);
      currentPage := nextPage;
    }

    function HasMoreProducts(): (r: bool)
      reads this
      ensures Valid() ==> (r <==> ItemsPerLoad * currentPage < |filteredProducts|)
    {
      |displayedProducts| < |filteredProducts|
    }

    /** The count on the "Load More" button. */
    function RemainingCount(): (r: int)
      reads this
      ensures Valid() ==> r >= 0 && (r > 0 <==> HasMoreProducts())
      ensures Valid() ==> displayedProducts + filteredProducts[|displayedProducts|..] == filteredProducts
    {
      PageSplits(filteredProducts, currentPage);
      |filteredProducts| - |displayedProducts|
    }

    method AddToCart(p: Product)
      requires Valid()
      modifies this`cartItems
      ensures Valid()
      ensures cartItems == AddLine(old(cartItems), p)
    {
      AddLineKeepsCartValid(cartItems, p);
      cartItems := AddLine(cartItems, p);
    }

    method UpdateCartItemQuantity(id: string, quantity: int)
      requires Valid()
      modifies this`cartItems
      ensures Valid()
      ensures cartItems == SetQuantity(old(cartItems), id, quantity)
    {
      cartItems := SetQuantity(cartItems, id, quantity);
    }

    method RemoveFromCart(id: string)
      requires Valid()
      modifies this`cartItems
      ensures Valid()
      ensures cartItems == RemoveLine(old(cartItems), id)
    {
      cartItems := RemoveLine(cartItems, id);
    }

    method ClearCart()
      requires Valid()
      modifies this`cartItems, this`customerInfo
      ensures Valid()
      ensures cartItems == [] && customerInfo == CustomerInfo("", "")
    {
      cartItems := [];
      customerInfo := CustomerInfo("", "");
    }

    /** The cart panel's confirm handler wired to `clearCart`. */
    method ConfirmOrder()
      requires Valid()
      modifies this`cartItems, this`customerInfo
      ensures Valid()
      ensures old(cartItems) == [] ==> cartItems == [] && customerInfo == old(customerInfo)
      ensures old(cartItems) != [] ==> cartItems == [] && customerInfo == CustomerInfo("", "")
    {
      if HandleConfirmOrder(cartItems) == CallClearCart {
        ClearCart();
      }
    }
  }
}

=== FILE: session.dfy ===
/** Who is calling a server action, and what the action answers. */
module Session {
  import opened Common

  /** The user record returned by the session lookup: a role and the id of the first
      organisation membership, absent when the user belongs to none. */
  datatype User = User(role: string, organization: Option<string>)

  /** The `{ success: … }` / `{ error: … }` objects the actions return. */
  datatype Reply = Success(message: string) | Failure(error: string)

  /** The outcome of an authorisation guard at the head of an action. `Throws` is the
      TypeError raised by reading `.id` of a missing organisation inside the `try`. */
  datatype Gate = Proceed(org: string) | Deny | Throws

  /** `if (!user?.organization.id) return Unauthorized`, then `user.organization.id` is read.
      An empty organisation id is falsy and denied; a missing organisation throws. */
  function OrgIdGate(user: Option<User>): (g: Gate)
    ensures g.Proceed? <==> user.Some? && user.value.organization.Some? && user.value.organization.value != ""
    ensures g.Throws? <==> user.Some? && user.value.organization.None?
    ensures g.Proceed? ==> g.org == user.value.organization.value
  {
    match user
    case None => Deny
    case Some(u) =>
      match u.organization
      case None => Throws
      case Some(id) => if id == "" then Deny else Proceed(id)
  }

  /** `if (!user?.organization) return Unauthorized`: only a missing user or organisation is denied. */
  function OrgGate(user: Option<User>): (g: Gate)
    ensures g.Proceed? <==> user.Some? && user.value.organization.Some?
    ensures !g.Throws?
    ensures g.Proceed? ==> g.org == user.value.organization.value
  {
    if user.Some? && user.value.organization.Some? then Proceed(user.value.organization.value) else Deny
  }

  /** The two guards differ on exactly one kind of caller each: the id guard throws where the
      organisation guard denies, and the organisation guard lets an empty id through. */
  lemma GatesDiffer(user: Option<User>)
    ensures OrgIdGate(user).Proceed? ==> OrgGate(user) == OrgIdGate(user)
    ensures OrgGate(user).Proceed? && !OrgIdGate(user).Proceed? <==> OrgGate(user) == Proceed("")
    ensures OrgIdGate(user).Throws? <==> OrgGate(user).Deny? && user.Some?
  {
  }
}

=== FILE: settings.dfy ===
/** The tax, loyalty-programme and due-balance settings tables and the server actions that
    write them. Each action first clears the organisation's defaults (when the new or updated
    row is to be the default) and then inserts or updates one row. */
module Settings {
  import opened Common
  import opened Session
  import opened DefaultTable

  datatype TaxFields = TaxFields(name: string, value: real)

  datatype LoyaltyFields = LoyaltyFields(
    name: string, amountRate: real, conversionRatePoints: real,
    conversionRateDiscount: real, pointsExpiry: real)

  datatype DueFields = DueFields(name: string, minLoyalty: real, maxDue: real)

  /** The table after the optional `updateMany` that clears `org`'s defaults. */
  function ClearedIf<F>(rows: seq<Row<F>>, isDefault: bool, org: string, except: Option<nat>): seq<Row<F>>
  {
    if isDefault then ClearDefaults(rows, org, except) else rows
  }

  /** The tax table. */
  class TaxTable {
    var rows: seq<Row<TaxFields>>
    var nextId: nat

    ghost predicate Valid()
      reads this
    {
      UniqueIds(rows) && IdsBelow(rows, nextId)
    }

    constructor ()
      ensures Valid() && rows == [] && nextId == 0
    {
      rows := [];
      nextId := 0;
    }

    /** `createTax`. Without a user nothing is written. A user without an organisation makes the
        first read of its id throw, which is reported as the generic failure. Otherwise the
        organisation's defaults are cleared when the new tax is the default, and the row is
        appended. The value is stored without a range check. */
    method CreateTax(user: Option<User>, name: string, value: real, isDefault: bool) returns (reply: Reply)
      requires Valid()
      modifies this`rows, this`nextId
      ensures Valid()
      ensures user.None? ==> reply == Failure("User not found") && rows == old(rows) && nextId == old(nextId)
      ensures user.Some? && user.value.organization.None? ==>
        reply == Failure("Failed to create tax") && rows == old(rows) && nextId == old(nextId)
      ensures user.Some? && user.value.organization.Some? ==>
        var org := user.value.organization.value;
        reply == Success("Tax added successfully")
        && rows == Insert(ClearedIf(old(rows), isDefault, org, None), old(nextId), org, isDefault, TaxFields(name, value))
        && nextId == old(nextId) + 1
        && (SingleDefault(old(rows)) ==> SingleDefault(rows))
        && (isDefault && SingleDefault(old(rows)) ==> SoleDefault(rows, org, |rows| - 1))
        && forall i :: 0 <= i < |old(rows)| && old(rows)[i].org != org ==> rows[i] == old(rows)[i]
    {
      if user.None? {
        return Failure("User not found");
      }
      if user.value.organization.None? {
        return Failure("Failed to create tax");
      }
      var org := user.value.organization.value;
      ClearDefaultsFrame(rows, org, None);
      if isDefault && SingleDefault(rows) {
        ClearThenInsertDefault(rows, nextId, org, TaxFields(name, value));
      } else if SingleDefault(rows) {
        InsertNonDefaultKeepsSingle(rows, nextId, org, TaxFields(name, value));
      }
      rows := ClearedIf(rows, isDefault, org, None);
      InsertKeepsIds(rows, nextId, org, isDefault, TaxFields(name, value));
      rows := Insert(rows, nextId, org, isDefault, TaxFields(name, value));
      nextId := nextId + 1;
      reply := Success("Tax added successfully");
    }

    /** `updateTax`. The final write is keyed by id alone, with no check that the row belongs to
        the caller's organisation. A missing id makes the write throw after the defaults were
        already cleared; that clearing stays. When `default` is not set the organisation is never
        read, so a user without one can still update. */
    method UpdateTax(user: Option<User>, id: nat, name: string, value: real, isDefault: bool) returns (reply: Reply)
      requires Valid()
      modifies this`rows
      ensures Valid()
      ensures user.None? ==> reply == Failure("User not found") && rows == old(rows)
      ensures user.Some? && isDefault && user.value.organization.None? ==>
        reply == Failure("Failed to update tax") && rows == old(rows)
      ensures user.Some? && (isDefault ==> user.value.organization.Some?) ==>
        var org := if isDefault then user.value.organization.value else "";
        var cleared := ClearedIf(old(rows), isDefault, org, None);
        (!HasId(old(rows), id) ==> reply == Failure("Failed to update tax") && rows == cleared)
        && (HasId(old(rows), id) ==>
              reply == Success("Tax updated successfully")
              && rows == Overwrite(cleared, IndexOfId(old(rows), id).value, isDefault, TaxFields(name, value)))
      ensures user.Some? && HasId(old(rows), id) && SingleDefault(old(rows)) && !isDefault ==> SingleDefault(rows)
      ensures (user.Some? && user.value.organization.Some? && HasId(old(rows), id) && SingleDefault(old(rows))
        && old(rows)[IndexOfId(old(rows), id).value].org == user.value.organization.value && isDefault) ==>
        SoleDefault(rows, user.value.organization.value, IndexOfId(old(rows), id).value) && SingleDefault(rows)
    {
      if user.None? {
        return Failure("User not found");
      }
      if isDefault && user.value.organization.None? {
        return Failure("Failed to update tax");
      }
      var org := if isDefault then user.value.organization.value else "";
      var target := IndexOfId(rows, id);
      ClearDefaultsFrame(rows, org, None);
      if target.Some? {
        WriteRow(rows, org, None, target.value, isDefault, TaxFields(name, value));
      }
      rows := ClearedIf(rows, isDefault, org, None);
      if target.None? {
        return Failure("Failed to update tax");
      }
      rows := Overwrite(rows, target.value, isDefault, TaxFields(name, value));
      reply := Success("Tax updated successfully");
    }
  }

  /** The loyalty-programme table. */
  class LoyaltyTable {
    var rows: seq<Row<LoyaltyFields>>
    var nextId: nat

    ghost predicate Valid()
      reads this
    {
      UniqueIds(rows) && IdsBelow(rows, nextId)
    }

    constructor ()
      ensures Valid() && rows == [] && nextId == 0
    {
      rows := [];
      nextId := 0;
    }

    /** `createLoyalty`: the same shape as `createTax`, storing all six given fields. */
    method CreateLoyalty(user: Option<User>, fields: LoyaltyFields, isDefault: bool) returns (reply: Reply)
      requires Valid()
      modifies this`rows, this`nextId
      ensures Valid()
      ensures user.None? ==> reply == Failure("User not found") && rows == old(rows) && nextId == old(nextId)
      ensures user.Some? && user.value.organization.None? ==>
        reply == Failure("Failed to create loyalty program") && rows == old(rows) && nextId == old(nextId)
      ensures user.Some? && user.value.organization.Some? ==>
        var org := user.value.organization.value;
        reply == Success("Loyalty program added successfully")
        && rows == Insert(ClearedIf(old(rows), isDefault, org, None), old(nextId), org, isDefault, fields)
        && nextId == old(nextId) + 1
        && (SingleDefault(old(rows)) ==> SingleDefault(rows))
        && (isDefault && SingleDefault(old(rows)) ==> SoleDefault(rows, org, |rows| - 1))
        && forall i :: 0 <= i < |old(rows)| && old(rows)[i].org != org ==> rows[i] == old(rows)[i]
    {
      if user.None? {
        return Failure("User not found");
      }
      if user.value.organization.None? {
        return Failure("Failed to create loyalty program");
      }
      var org := user.value.organization.value;
      ClearDefaultsFrame(rows, org, None);
      if isDefault && SingleDefault(rows) {
        ClearThenInsertDefault(rows, nextId, org, fields);
      } else if SingleDefault(rows) {
        InsertNonDefaultKeepsSingle(rows, nextId, org, fields);
      }
      rows := ClearedIf(rows, isDefault, org, None);
      InsertKeepsIds(rows, nextId, org, isDefault, fields);
      rows := Insert(rows, nextId, org, isDefault, fields);
      nextId := nextId + 1;
      reply := Success("Loyalty program added successfully");
    }

    /** `updateLoyalty`: the clearing spares the row being updated (`id: { not: data.id }`), and the
        final write is again keyed by id alone. */
    method UpdateLoyalty(user: Option<User>, id: nat, fields: LoyaltyFields, isDefault: bool) returns (reply: Reply)
      requires Valid()
      modifies this`rows
      ensures Valid()
      ensures user.None? ==> reply == Failure("User not found") && rows == old(rows)
      ensures user.Some? && isDefault && user.value.organization.None? ==>
        reply == Failure("Failed to update loyalty program") && rows == old(rows)
      ensures user.Some? && (isDefault ==> user.value.organization.Some?) ==>
        var org := if isDefault then user.value.organization.value else "";
        var cleared := ClearedIf(old(rows), isDefault, org, Some(id));
        (!HasId(old(rows), id) ==> reply == Failure("Failed to update loyalty program") && rows == cleared)
        && (HasId(old(rows), id) ==>
              reply == Success("Loyalty program updated successfully")
              && rows == Overwrite(cleared, IndexOfId(old(rows), id).value, isDefault, fields))
      ensures user.Some? && HasId(old(rows), id) && SingleDefault(old(rows)) && !isDefault ==> SingleDefault(rows)
      ensures (user.Some? && user.value.organization.Some? && HasId(old(rows), id) && SingleDefault(old(rows))
        && old(rows)[IndexOfId(old(rows), id).value].org == user.value.organization.value && isDefault) ==>
        SoleDefault(rows, user.value.organization.value, IndexOfId(old(rows), id).value) && SingleDefault(rows)
    {
      if user.None? {
        return Failure("User not found");
      }
      if isDefault && user.value.organization.None? {
        return Failure("Failed to update loyalty program");
      }
      var org := if isDefault then user.value.organization.value else "";
      var target := IndexOfId(rows, id);
      ClearDefaultsFrame(rows, org, Some(id));
      if target.Some? {
        WriteRow(rows, org, Some(id), target.value, isDefault, fields);
      }
      rows := ClearedIf(rows, isDefault, org, Some(id));
      if target.None? {
        return Failure("Failed to update loyalty program");
      }
      rows := Overwrite(rows, target.value, isDefault, fields);
      reply := Success("Loyalty program updated successfully");
    }
  }

  /** The due-balance table. Every due action is scoped to the caller's organisation, so one
      default per organisation is part of this table's invariant. */
  class DueTable {
    var rows: seq<Row<DueFields>>
    var nextId: nat

    ghost predicate Valid()
      reads this
    {
      UniqueIds(rows) && IdsBelow(rows, nextId) && SingleDefault(rows)
    }

    constructor ()
      ensures Valid() && rows == [] && nextId == 0
    {
      rows := [];
      nextId := 0;
    }

    /** `createDue`. */
    method CreateDue(user: Option<User>, fields: DueFields, isDefault: bool) returns (reply: Reply)
      requires Valid()
      modifies this`rows, this`nextId
      ensures Valid()
      ensures OrgIdGate(user).Deny? ==> reply == Failure("Unauthorized") && rows == old(rows) && nextId == old(nextId)
      ensures OrgIdGate(user).Throws? ==>
        reply == Failure("Failed to create due balance setting") && rows == old(rows) && nextId == old(nextId)
      ensures OrgIdGate(user).Proceed? ==>
        var org := OrgIdGate(user).org;
        reply == Success("Due balance setting created successfully")
        && rows == Insert(ClearedIf(old(rows), isDefault, org, None), old(nextId), org, isDefault, fields)
        && nextId == old(nextId) + 1
        && (isDefault ==> SoleDefault(rows, org, |rows| - 1))
        && forall i :: 0 <= i < |old(rows)| && old(rows)[i].org != org ==> rows[i] == old(rows)[i]
    {
      match OrgIdGate(user)
      case Deny => return Failure("Unauthorized");
      case Throws => return Failure("Failed to create due balance setting");
      case Proceed(org) =>
        ClearDefaultsFrame(rows, org, None);
        if isDefault {
          ClearThenInsertDefault(rows, nextId, org, fields);
          rows := ClearDefaults(rows, org, None);
        } else {
          InsertNonDefaultKeepsSingle(rows, nextId, org, fields);
        }
        InsertKeepsIds(rows, nextId, org, isDefault, fields);
        rows := Insert(rows, nextId, org, isDefault, fields);
        nextId := nextId + 1;
        reply := Success("Due balance setting created successfully");
    }

    /** `updateDue`: the row is looked up and its organisation compared before any write. */
    method UpdateDue(user: Option<User>, id: nat, fields: DueFields, isDefault: bool) returns (reply: Reply)
      requires Valid()
      modifies this`rows
      ensures Valid()
      ensures OrgIdGate(user).Deny? ==> reply == Failure("Unauthorized") && rows == old(rows)
      ensures OrgIdGate(user).Throws? ==> reply == Failure("Failed to update due balance setting") && rows == old(rows)
      ensures OrgIdGate(user).Proceed? && !HasId(old(rows), id) ==>
        reply == Failure("Due balance setting not found") && rows == old(rows)
      ensures (OrgIdGate(user).Proceed? && HasId(old(rows), id)
        && old(rows)[IndexOfId(old(rows), id).value].org != OrgIdGate(user).org) ==>
        reply == Failure("Unauthorized") && rows == old(rows)
      ensures (OrgIdGate(user).Proceed? && HasId(old(rows), id)
        && old(rows)[IndexOfId(old(rows), id).value].org == OrgIdGate(user).org) ==>
        reply == Success("Due balance setting updated successfully")
        && Some(rows) == ScopedUpdate(old(rows), OrgIdGate(user).org, None, id, isDefault, fields)
        && (isDefault ==> SoleDefault(rows, OrgIdGate(user).org, IndexOfId(old(rows), id).value))
    {
      match OrgIdGate(user)
      case Deny => return Failure("Unauthorized");
      case Throws => return Failure("Failed to update due balance setting");
      case Proceed(org) =>
        var found := IndexOfId(rows, id);
        if found.None? {
          return Failure("Due balance setting not found");
        }
        var k := found.value;
        if rows[k].org != org {
          return Failure("Unauthorized");
        }
        WriteRow(rows, org, None, k, isDefault, fields);
        if isDefault {
          rows := ClearDefaults(rows, org, None);
        }
        rows := Overwrite(rows, k, isDefault, fields);
        reply := Success("Due balance setting updated successfully");
    }

    /** `deleteDue`: the same checks as `updateDue`, then exactly that row is removed. */
    method DeleteDue(user: Option<User>, id: nat) returns (reply: Reply)
      requires Valid()
      modifies this`rows
      ensures Valid()
      ensures OrgIdGate(user).Deny? ==> reply == Failure("Unauthorized") && rows == old(rows)
      ensures OrgIdGate(user).Throws? ==> reply == Failure("Failed to delete due balance setting") && rows == old(rows)
      ensures OrgIdGate(user).Proceed? && !HasId(old(rows), id) ==>
        reply == Failure("Due balance setting not found") && rows == old(rows)
      ensures (OrgIdGate(user).Proceed? && HasId(old(rows), id)
        && old(rows)[IndexOfId(old(rows), id).value].org != OrgIdGate(user).org) ==>
        reply == Failure("Unauthorized") && rows == old(rows)
      ensures (OrgIdGate(user).Proceed? && HasId(old(rows), id)
        && old(rows)[IndexOfId(old(rows), id).value].org == OrgIdGate(user).org) ==>
        reply == Success("Due balance setting deleted successfully")
        && rows == RemoveAt(old(rows), IndexOfId(old(rows), id).value)
        && multiset(rows) + multiset{old(rows)[IndexOfId(old(rows), id).value]} == multiset(old(rows))
        && !HasId(rows, id)
    {
      match OrgIdGate(user)
      case Deny => return Failure("Unauthorized");
      case Throws => return Failure("Failed to delete due balance setting");
      case Proceed(org) =>
        var found := IndexOfId(rows, id);
        if found.None? {
          return Failure("Due balance setting not found");
        }
        var k := found.value;
        if rows[k].org != org {
          return Failure("Unauthorized");
        }
        RemoveAtKeeps(rows, k, nextId);
        RemoveAtSubset(rows, k);
        rows := RemoveAt(rows, k);
        reply := Success("Due balance setting deleted successfully");
    }
  }
}

=== FILE: temporary_image.dfy ===
/** `deleteTemporaryImage`: a prefix guard on the public path, then an unlink of the file it
    names below the `public` directory. Paths are lists of segments; `path.join` is modelled by
    `Normalize`. */
module TemporaryImage {
  import opened Common

  const UploadsPrefix: string := "/uploads/"
  const InvalidPathError: string := "Invalid image path"
  const UnlinkFailedError: string := "Failed to delete temporary image"

  /** `s.split("/")`. */
  function Split(s: string): (r: seq<string>)
    ensures |r| >= 1
    decreases |s|
  {
    if s == [] then [""]
    else
      var rest := Split(s[1..]);
      if s[0] == '/' then [""] + rest else [[s[0]] + rest[0]] + rest[1..]
  }

  /** `segments.join("/")`. */
  function Join(segments: seq<string>): string
    requires |segments| >= 1
    decreases |segments|
  {
    if |segments| == 1 then segments[0] else segments[0] + "/" + Join(segments[1..])
  }

  predicate NoSlash(segment: string)
  {
    forall i :: 0 <= i < |segment| ==> segment[i] != '/'
  }

  lemma {:induction false} SplitPrefix(a: string, t: string)
    requires NoSlash(a)
    ensures Split(a + t) == [a + Split(t)[0]] + Split(t)[1..]
    decreases |a|
  {
    if a == [] {
      assert a + t == t && a + Split(t)[0] == Split(t)[0];
    } else {
      assert a[0] != '/';
      assert (a + t)[0] == a[0] && (a + t)[1..] == a[1..] + t;
      SplitPrefix(a[1..], t);
      assert [a[0]] + (a[1..] + Split(t)[0]) == a + Split(t)[0];
    }
  }

  /** A segment followed by a slash splits off as one segment. */
  lemma SplitSegment(a: string, rest: string)
    requires NoSlash(a)
    ensures Split(a + "/" + rest) == [a] + Split(rest)
  {
    SplitPrefix(a, "/" + rest);
    assert a + "/" + rest == a + ("/" + rest);
    assert ("/" + rest)[0] == '/' && ("/" + rest)[1..] == rest;
    assert Split("/" + rest) == [""] + Split(rest);
    assert a + "" == a;
  }

  /** Splitting undoes joining segments that contain no slash. */
  lemma {:induction false} SplitJoin(segments: seq<string>)
    requires |segments| >= 1
    requires forall k :: 0 <= k < |segments| ==> NoSlash(segments[k])
    ensures Split(Join(segments)) == segments
    decreases |segments|
  {
    if |segments| == 1 {
      SplitPrefix(segments[0], "");
      assert segments[0] + "" == segments[0];
    } else {
      SplitSegment(segments[0], Join(segments[1..]));
      SplitJoin(segments[1..]);
    }
  }

  /** `path.join` of an absolute directory and more segments: empty and "." segments vanish, ".."
      drops the last segment (and stays at the root), any other segment is appended. */
  function Normalize(dir: seq<string>, segments: seq<string>): (r: seq<string>)
    ensures |r| <= |dir| + |segments|
    ensures forall x :: x in r ==> x in dir || (x in segments && x != "" && x != "." && x != "..")
    decreases |segments|
  {
    if segments == [] then dir
    else
      var s := segments[0];
      var next :=
        if s == "" || s == "." then dir
        else if s == ".." then (if dir == [] then [] else dir[..|dir| - 1])
        else dir + [s];
      Normalize(next, segments[1..])
  }

  /** `path` lies in the directory `dir` or below it. */
  predicate Within(path: seq<string>, dir: seq<string>)
  {
    |dir| <= |path| && path[..|dir|] == dir
  }

  /** The file `path.join(cwd, "public", imagePath)` names. */
  function Target(cwd: seq<string>, imagePath: string): (r: seq<string>)
    ensures forall x :: x in r ==> x in cwd || x == "public" || (x in Split(imagePath) && x != "..")
  {
    Normalize(cwd + ["public"], Split(imagePath))
  }

  /** The guard `imagePath && imagePath.startsWith("/uploads/")`. */
  predicate AcceptsPath(imagePath: string): (r: bool)
    ensures r ==> |Split(imagePath)| >= 2 && Split(imagePath)[0] == "" && Split(imagePath)[1] == "uploads"
  {
    if imagePath != "" && StartsWith(imagePath, UploadsPrefix) then
      SplitUploads(imagePath);
      true
    else
      false
  }

  datatype DeleteResult = DeleteResult(success: bool, error: Option<string>)

  /** `deleteTemporaryImage`. `unlinkSucceeds` is the outcome of `fs.unlink`; `unlinked` is the
      file it was asked to remove. A rejected path touches no file. */
  method DeleteTemporaryImage(cwd: seq<string>, imagePath: string, unlinkSucceeds: bool)
    returns (result: DeleteResult, unlinked: Option<seq<string>>)
    ensures !AcceptsPath(imagePath) ==> result == DeleteResult(false, Some(InvalidPathError)) && unlinked == None
    ensures AcceptsPath(imagePath) ==> unlinked == Some(Target(cwd, imagePath))
    ensures AcceptsPath(imagePath) && unlinkSucceeds ==> result == DeleteResult(true, None)
    ensures AcceptsPath(imagePath) && !unlinkSucceeds ==> result == DeleteResult(false, Some(UnlinkFailedError))
    ensures result.success <==> AcceptsPath(imagePath) && unlinkSucceeds
  {
    if imagePath == "" || !StartsWith(imagePath, UploadsPrefix) {
      return DeleteResult(false, Some(InvalidPathError)), None;
    }
    unlinked := Some(Target(cwd, imagePath));
    if unlinkSucceeds {
      result := DeleteResult(true, None);
    } else {
      result := DeleteResult(false, Some(UnlinkFailedError));
    }
  }

  /** The segments of "/uploads/../../.env". */
  const TraversalSegments: seq<string> := ["", "uploads", "..", "..", ".env"]

  /** The guard only reads the first nine characters: "/uploads/../../.env" passes it, and the
      file it names is `.env` in the application directory, outside `public/uploads`. */
  lemma GuardAdmitsTraversal(cwd: seq<string>)
    ensures Join(TraversalSegments) == "/uploads/../../.env"
    ensures AcceptsPath(Join(TraversalSegments))
    ensures Target(cwd, Join(TraversalSegments)) == cwd + [".env"]
    ensures !Within(Target(cwd, Join(TraversalSegments)), cwd + ["public", "uploads"])
  {
    var segments := TraversalSegments;
    assert Join(segments) == "/uploads/../../.env" by {
      assert Join(segments[4..]) == ".env";
      assert Join(segments[3..]) == "../.env";
      assert Join(segments[2..]) == "../../.env";
      assert Join(segments[1..]) == "uploads/../../.env";
    }
    assert "/uploads/../../.env"[..9] == UploadsPrefix;
    assert forall k :: 0 <= k < |segments| ==> NoSlash(segments[k]);
    SplitJoin(segments);
    NormalizeTraversal(cwd);
  }

  /** `path.join` climbs out of `uploads` and `public` on the two ".." segments. */
  lemma NormalizeTraversal(cwd: seq<string>)
    ensures Normalize(cwd + ["public"], ["", "uploads", "..", "..", ".env"]) == cwd + [".env"]
  {
    var segments := ["", "uploads", "..", "..", ".env"];
    var dir := cwd + ["public"];
    assert Normalize(dir, segments) == Normalize(dir, segments[1..]);
    assert Normalize(dir, segments[1..]) == Normalize(dir + ["uploads"], segments[2..]);
    assert (dir + ["uploads"])[..|dir + ["uploads"]| - 1] == dir;
    assert Normalize(dir + ["uploads"], segments[2..]) == Normalize(dir, segments[3..]);
    assert dir[..|dir| - 1] == cwd;
    assert Normalize(dir, segments[3..]) == Normalize(cwd, segments[4..]);
  }

  /** The guard with the evidently intended effect: the path must also have no ".." segment. */
  predicate AcceptsUploadPath(imagePath: string)
  {
    AcceptsPath(imagePath) && forall k :: 0 <= k < |Split(imagePath)| ==> Split(imagePath)[k] != ".."
  }

  lemma {:induction false} NormalizeWithout(dir: seq<string>, segments: seq<string>)
    requires forall k :: 0 <= k < |segments| ==> segments[k] != ".."
    ensures Within(Normalize(dir, segments), dir)
    decreases |segments|
  {
    if segments != [] {
      var s := segments[0];
      var next := if s == "" || s == "." then dir else dir + [s];
      NormalizeWithout(next, segments[1..]);
      var r := Normalize(dir, segments);
      assert r[..|next|] == next;
      assert r[..|dir|] == next[..|dir|];
    }
  }

  /** A path under "/uploads/" splits into "", "uploads" and the segments of the rest. */
  lemma SplitUploads(imagePath: string)
    requires StartsWith(imagePath, UploadsPrefix)
    ensures Split(imagePath) == ["", "uploads"] + Split(imagePath[9..])
  {
    var rest := imagePath[9..];
    assert imagePath == "" + "/" + ("uploads" + "/" + rest);
    assert NoSlash("") && NoSlash("uploads");
    SplitSegment("uploads", rest);
    SplitSegment("", "uploads" + "/" + rest);
  }

  /** With the corrected guard every accepted path names a file in `public/uploads`. */
  lemma UploadPathStaysInUploads(cwd: seq<string>, imagePath: string)
    requires AcceptsUploadPath(imagePath)
    ensures Within(Target(cwd, imagePath), cwd + ["public", "uploads"])
  {
    SplitUploads(imagePath);
    var segments := Split(imagePath);
    var rest := Split(imagePath[9..]);
    assert segments[1..][1..] == rest;
    assert cwd + ["public"] + ["uploads"] == cwd + ["public", "uploads"];
    assert Normalize(cwd + ["public"], segments) == Normalize(cwd + ["public"], segments[1..]);
    NormalizeWithout(cwd + ["public", "uploads"], rest);
  }

  /** The corrected action: as `DeleteTemporaryImage`, with the corrected guard. */
  method DeleteUploadedImage(cwd: seq<string>, imagePath: string, unlinkSucceeds: bool)
    returns (result: DeleteResult, unlinked: Option<seq<string>>)
    ensures !AcceptsUploadPath(imagePath) ==> result == DeleteResult(false, Some(InvalidPathError)) && unlinked == None
    ensures unlinked.Some? ==> Within(unlinked.value, cwd + ["public", "uploads"])
    ensures AcceptsUploadPath(imagePath) ==> unlinked == Some(Target(cwd, imagePath))
    ensures result.success <==> AcceptsUploadPath(imagePath) && unlinkSucceeds
  {
    if !AcceptsUploadPath(imagePath) {
      return DeleteResult(false, Some(InvalidPathError)), None;
    }
    UploadPathStaysInUploads(cwd, imagePath);
    unlinked := Some(Target(cwd, imagePath));
    if unlinkSucceeds {
      result := DeleteResult(true, None);
    } else {
      result := DeleteResult(false, Some(UnlinkFailedError));
    }
  }
}
